=== FILE: README.md ===
# MaddiePly bot core, modelled in Dafny

MaddiePly is a Discord and Twitch bot with an AI persona, plus a Tk desktop
control panel. This project models the parts of the bot that decide things
and leaves out the parts that talk to the outside world. Each part below is a
pure function over values.

- **Response timer** (`ai_logic.py`). The bot's queue of incoming chat
  messages. A timer draws a length and a message target. The timer fires with
  the formatted messages once both are reached, and re-arms after a response.
  Processed messages can be removed or edited, and a progress snapshot feeds
  the control panel.
- **Search history** (`ai_logic.py`). A bounded record of web-search terms.
- **Settings store** (`local_database.py`). The key/value/type table: value
  coercion per type tag, the validity test, insertion of required keys, the
  start-up repair pass, typed reads, and updates.
- **OpenAI manager** (`chatgpt.py`):
  - the opener tracker: extract the first one or two words of a reply, keep
    the last 20, and blacklist up to eight distinct ones;
  - the prompt list sent to the model;
  - the JSON candidate cut out of a tool-selection reply;
  - the routing of the policy flow.
- **Discord front end** (`discordbot.py`):
  - the time parser and its two time-zone tables;
  - the banned-word check;
  - the `quote` command's argument;
  - the image-attachment filter.
- **Control panel** (`gui.py`): the policy preview, the users-table sort cycle
  and heading click, the model-choice list, the response-timer label, the
  user-row id, and the inline and dialog setting saves.
- **Quote lookups** (`google_api.py`): by id, at random, and at random among
  the quotes containing some words.
- **Launcher** (`launcher.py`): the secret mask used in start-up logs.

Modules:

- `Common`: `Option` and `Result`.
- `Text`: ASCII classification, case mapping, strip, split, join, find and
  replace, with the same semantics as Python's `str` methods.
- `Numerals`: decimal rendering and Python's `int()` on text.
- `Sequences`: duplicate removal in first-occurrence order, and bounded
  appends (a `deque(maxlen=n)`).
- The remaining modules follow the source files: `ResponseTimer`,
  `SearchHistory`, `Settings`, `ChatGpt`, `DiscordBot`, `Gui`, `Quotes` and
  `Launcher`.

Effects become parameters:

- A random draw is a `pick: nat` reduced into range.
- Whether zone data is installed is a boolean.
- The current time is an `int`.
- The image describer and the entry formatter are function parameters.
- The sheet's records and the database rows are passed in as values.

Where the code and its description disagree, the model follows the code:

- Removing a processed message decrements the message count.
- The timer re-arms only when the response call returns normally.
- A message edit loses its timestamp; see Findings.

## Model

| member | source | states |
|---|---|---|
| ResponseTimer.Init | ai_logic.py:203-217 | A fresh timer has no queued or received messages, a zero count and target, no timer task, and satisfies the count invariant. |
| ResponseTimer.Enqueue | ai_logic.py:270-272 | A new message joins the back of the queue that the processor pops from the front; received entries and the count are untouched. |
| ResponseTimer.Draw | ai_logic.py:235-236 | `random.randint(lo, hi)` returns a value in the closed range `[lo, hi]`. |
| ResponseTimer.DrawReaches | ai_logic.py:235-236 | Every value in the range can be drawn. |
| ResponseTimer.StartTimer | ai_logic.py:219-238 | Disabled chat responses reset the target and start nothing; a running timer is left alone; otherwise the drawn length and message target lie within the configured bounds, the target is published, and nothing else changes; inverted bounds are an error, as `randint` raises. |
| ResponseTimer.StartTimerReaches | ai_logic.py:231-238 | Every length and message target inside the configured bounds is a possible timer. |
| ResponseTimer.Fire | ai_logic.py:249-258 | Firing hands the contents of every received message, in order, to one response call; it clears the received list and the count and drops the timer task. |
| ResponseTimer.Tick | ai_logic.py:240-265 | A poll fires exactly when the length has elapsed (or was seen to elapse) and the count has reached the target; otherwise messages, count, target and in-flight responses are unchanged. |
| ResponseTimer.NoFireBeforeLength | ai_logic.py:244-246 | Before the length elapses a poll changes nothing, whatever the count. |
| ResponseTimer.FiresOnCount | ai_logic.py:248-263 | Once the length has elapsed and the timer is counting, a poll starts a response if and only if the count has reached the target. |
| ResponseTimer.Complete | ai_logic.py:219-261 | A finished response leaves the messages alone and a failed one leaves timer and target untouched. A successful one behaves as `start_timer`. With chat responses disabled, the target is reset to 0 and no timer starts. A timer that is still running is kept with its target. Inverted bounds arm nothing, as `randint` raises. Otherwise a fresh timer starts now, with a length and message target inside the bounds, and that message target is published. |
| ResponseTimer.RearmReaches | ai_logic.py:231-260 | Every in-bounds length and message target can be the timer that a successful response re-arms. |
| ResponseTimer.FailedResponseStalls | ai_logic.py:258-260 | After a response that raised, no timer is armed and no later poll fires again. |
| ResponseTimer.SuccessfulResponseRearms | ai_logic.py:259-260 | After a response that returned normally, a timer is armed again, given chat responses are enabled and the bounds are valid. |
| ResponseTimer.AuthorLabel | ai_logic.py:290 | The entry names the display name when it is set and non-empty; otherwise it names the username, or `None` when there is none. |
| ResponseTimer.DescribedCount | ai_logic.py:279-284 | At most three images are described: all of them when there are at most three, otherwise exactly three. |
| ResponseTimer.DescriptionLines | ai_logic.py:285-286 | The description lines are empty exactly when there are no images; otherwise they start with the first image's line under the starting number. |
| ResponseTimer.DescriptionLinesAppend | ai_logic.py:285-286 | `enumerate(..., start=1)` numbers consecutively: the lines of a concatenation are the lines of the first part followed by those of the second, numbered on from where the first part stopped. |
| ResponseTimer.DescriptionLinesOne | ai_logic.py:286 | One image gives exactly one `\nImage Description n: <description>` line. |
| ResponseTimer.ImageBlock | ai_logic.py:273-286 | The image block is empty exactly when there are no images; otherwise it opens with `The message contains k images.`, where k is the number described. |
| ResponseTimer.ImageBlockParts | ai_logic.py:279-286 | The block is the count line followed by the description lines of the first `k` images, numbered from 1. |
| ResponseTimer.CountLineSmall | ai_logic.py:284 | The count line for one, two and three images, written out. |
| ResponseTimer.ImageBlockOne | ai_logic.py:273-286 | One attachment gives `The message contains 1 images.` followed by its description numbered 1. |
| ResponseTimer.ImageBlockTwo | ai_logic.py:273-286 | Two attachments give the count line for 2 followed by their descriptions numbered 1 and 2, in order. |
| ResponseTimer.DescriptionLinesThree | ai_logic.py:285-286 | Three images give three lines numbered 1 to 3, in order. |
| ResponseTimer.ImageBlockThree | ai_logic.py:279-286 | Three or more attachments give the count line for 3 followed by the descriptions of the first three, numbered 1 to 3. |
| ResponseTimer.ImageBlockFirstThree | ai_logic.py:279-281 | Images after the third never affect the block. |
| ResponseTimer.FormatEntry | ai_logic.py:289-290 | Every stored entry opens with the bracketed creation time, and the rest of it is exactly the entry body. |
| ResponseTimer.EntryBody | ai_logic.py:290 | After the stamp come the author label, `: `, the content and a blank line, and everything after that blank line is exactly the image block. |
| ResponseTimer.FormatEntryParts | ai_logic.py:273-290 | An entry is `[created] author: content`, a blank line, then the image block (empty without images), in that order and with nothing else. |
| ResponseTimer.FormatEntryWithoutImages | ai_logic.py:273-290 | A message without attachments is stored as `[created] author: content` followed by a blank line and nothing more. |
| ResponseTimer.FormatEntryOneImage | ai_logic.py:273-290 | A message with one attachment is stored as its header, a blank line, `The message contains 1 images.` and the line `Image Description 1: <description>`. |
| ResponseTimer.Process | ai_logic.py:270-293 | Processing takes the oldest queued message, appends its formatted entry under its message id, and counts it; with nothing queued it changes nothing. |
| ResponseTimer.ProcessAllInOrder | ai_logic.py:270-293 | Processing `n` queued messages appends their entries in arrival order. |
| ResponseTimer.ProcessAllCounts | ai_logic.py:272-293 | After `n` steps, the first `n` queued messages are gone and the count grew by `n`. |
| ResponseTimer.FirstWithId | ai_logic.py:300-301 | Finds the earliest received entry carrying the message id, or reports that no entry carries it. |
| ResponseTimer.Remove | ai_logic.py:298-304 | Removal deletes only the first entry with the id and decrements the count; an unknown id changes nothing. |
| ResponseTimer.RemoveKeepsOthers | ai_logic.py:300-303 | The remaining entries are exactly the old ones minus the one removed, as a multiset. |
| ResponseTimer.RecoveredStamp | ai_logic.py:311-318 | The recovered timestamp is either empty or has the `YYYY-MM-DD HH:MM:SS` shape that `strptime` accepts. |
| ResponseTimer.RebuildAsWritten | ai_logic.py:310-319 | The rewritten entry ends with `] name: text`, and its stamp, read back, is whatever the split on `"]: "` recovered from the old content: a parsable stamp or nothing. When that split recovers nothing, the entry is exactly `[] name: text`. |
| ResponseTimer.Rebuild | ai_logic.py:310-319 | The corrected rebuild, splitting on `"] "`: the rewritten entry opens with the stamp recovered from the old content in brackets, ends with `] name: text`, and reads back that same stamp. |
| ResponseTimer.RebuiltStamp | ai_logic.py:313-319 | An entry written as `[ts] ...` with a stamp or an empty `ts` gives `ts` back when split on `"] "`. |
| ResponseTimer.RebuildAsWrittenLosesStamp | ai_logic.py:311-319 | Splitting on `"]: "` can never yield a parsable stamp from a stored entry, so an edit as written always writes `[] `. |
| ResponseTimer.StampCloses | ai_logic.py:289-290 | In a stored entry, the first `"] "` is the one that closes the timestamp. |
| ResponseTimer.RebuildKeepsStamp | ai_logic.py:306-320 | The corrected rebuild keeps the original timestamp and replaces author and content. |
| ResponseTimer.EditWith | ai_logic.py:306-321 | An edit rewrites the content of the first entry with the id and nothing else: every id, every other entry, the count and the rest of the state are kept; an unknown id changes nothing. |
| ResponseTimer.Edit | ai_logic.py:306-321 | `edit_processed_message` as written: the first entry with the id gets the content rebuilt after the split on `"]: "`, every other entry, every id, the count and the rest of the state are kept, and an unknown id changes nothing. |
| ResponseTimer.EditCorrected | ai_logic.py:306-321 | The same edit with the separator the formatter writes, `"] "`. |
| ResponseTimer.ProcessedEntry | ai_logic.py:289-292 | A freshly processed message is stored as `[created_at] <body>` under its message id, and is the first entry with that id. |
| ResponseTimer.EditLosesStamp | ai_logic.py:289-321 | Editing a freshly processed message as the code does turns its entry into `[] name: text`: the creation time is lost. |
| ResponseTimer.EditCorrectedKeepsStamp | ai_logic.py:289-321 | With the corrected separator the edited entry is `[created_at] name: text`: the creation time is kept. |
| ResponseTimer.ProgressSnapshot | ai_logic.py:323-327 | The snapshot counts received plus still-queued messages and reports the current target. |
| ResponseTimer.Next | ai_logic.py:219-321 | Every operation (enqueue, arm, poll, process, remove, edit, complete) keeps the count equal to the number of received entries. |
| ResponseTimer.Run | ai_logic.py:219-321 | Any sequence of operations from a consistent state keeps the count equal to the number of received entries. |
| SearchHistory.SafeTerm | ai_logic.py:131 | An empty term is recorded as `(empty)`; any other term as given. |
| SearchHistory.Record | ai_logic.py:130-134 | Recording appends the term and keeps at most the 50 most recent terms, newest last. |
| SearchHistory.RecordAllKeepsMostRecent | ai_logic.py:130-137 | After any series of searches, the history is exactly the last 50 of all terms recorded. |
| SearchHistory.RecordAllIsBoundedAppendAll | ai_logic.py:130-134 | The history behaves as a bounded append of the sanitised terms. |
| Sequences.KeepLast | ai_logic.py:133-134 | Trimming keeps exactly the last `min(n, len)` elements. |
| Sequences.BoundedAppendAllKeepsLast | chatgpt.py:360-361 | Appending one at a time to a bounded deque equals appending all at once and keeping the last `n`. |
| Sequences.Dedupe | gui.py:276-281 | Duplicate removal yields distinct elements, the same set of elements, and never a longer list. |
| Sequences.DedupeFirstOccurrenceOrder | chatgpt.py:379 | The survivors keep the order of their first occurrences, as `dict.fromkeys` does. |
| Sequences.DedupeOfDistinct | gui.py:276-281 | A list without duplicates is left as it is. |
| Settings.IsValid | local_database.py:151-164 | BOOL accepts exactly `0` and `1`. INTEGER accepts exactly the texts that, once trimmed, are at least one digit with at most one leading `-`. CHARACTER accepts exactly one character. Every other tag accepts anything. |
| Settings.PaddedIntegerValid | local_database.py:156-160 | Whitespace around an integer's text, of either sign, still passes the INTEGER test. |
| Settings.CoerceBool | local_database.py:132-138 | The stored boolean is `"0"` or `"1"`, and it is `"1"` exactly for a stripped `1` or a truthy word (`true`, `t`, `yes`, `y`, `on`, in any case) that is not `0`. |
| Settings.Coerce | local_database.py:125-149 | Coercion always yields a value valid for its tag: the boolean rule, for INTEGER exactly `str(int(value))`, or `"0"` when `int()` fails, the first character or a space, or the text unchanged. |
| Settings.IntegerTextValid | local_database.py:139-141 | Every rendered integer passes the INTEGER validity test. |
| Settings.ValidIntegerParses | local_database.py:156-160 | A value that passes the INTEGER test can be read back by `int()`. |
| Settings.CoerceIdempotent | local_database.py:125-149 | Coercing twice is the same as coercing once. |
| Settings.CoerceKeepsValid | local_database.py:125-164 | Coercion leaves an already valid boolean, character or text value unchanged. |
| Settings.CoerceValidInteger | local_database.py:139-160 | Coercing a valid integer text preserves its numeric value. |
| Settings.EnsureKeys | local_database.py:110-123 | Every required key ends up present; existing rows are kept as they are; only required keys are added; a key that was missing gets the row `(coerce(default, tag), tag)` from its first table entry. |
| Settings.InsertDefault | local_database.py:117-123 | One `INSERT OR IGNORE`: a present key keeps its row, a missing key gets its coerced default with the table's tag, and no other key changes. |
| Settings.EnsureKeysPresent | local_database.py:120-123 | When every required key is already present, the inserts change nothing. |
| Settings.DefaultTypeFor | local_database.py:318-322 | A key outside the required-settings table gets `TEXT`; a required key gets the tag of its table entry, or `TEXT` when that tag is empty. |
| Settings.RepairRow | local_database.py:312-332 | A repaired row has a tag and a value valid for it; an existing tag is kept and a missing one becomes `DefaultTypeFor` of the key; a valid value is kept, an invalid one is coerced. |
| Settings.RepairAll | local_database.py:309-332 | The validation pass repairs every row and adds or drops none. |
| Settings.RepairAllWellFormed | local_database.py:309-332 | After the validation pass, every row has a tag and a valid value. |
| Settings.RepairAllIdempotent | local_database.py:309-332 | Running the validation pass twice equals running it once. |
| Settings.Setup | local_database.py:309-332 | After start-up, the store is well formed, holds every required key, adds no other key, keeps every row that was already well formed, and gives each newly inserted key with a non-empty tag the row `(coerce(default, tag), tag)`. |
| Settings.SetupIdempotent | local_database.py:309-332 | Starting up again on a set-up store changes nothing. |
| Settings.GetSetting | local_database.py:466-482 | A read returns the default for a missing key; `True` for BOOL only on `"True"` or `"1"`; the parsed number for INTEGER, failing when `int()` would raise; the stored text for FLOAT; and the text for other tags. |
| Settings.UpdateSetting | local_database.py:484-502 | An update of an unknown key fails, and so does one of a row without a tag, where the coercion's `upper()` raises; otherwise it stores the value coerced to the row's tag and changes no other row. |
| Settings.ReadAfterUpdateInteger | local_database.py:476-496 | After updating an INTEGER setting, a read returns `int(value)`, or 0 when the text is not a number. |
| Settings.ReadAfterUpdateBool | local_database.py:471-496 | After updating a BOOL setting, a read returns exactly the boolean rule of the coercion. |
| Numerals.ParseInt | local_database.py:139-141 | `int()` on text fails on blank text, and accepts a text exactly when, once trimmed, it is an optional `-` or `+` followed by at least one digit. A negative result has a leading `-`. A plain digit string reads as its decimal value. |
| Numerals.ParsePlus | local_database.py:139-141 | A number written with a `+` sign reads as the number. |
| Numerals.ParsePadded | local_database.py:139-141 | Whitespace around an integer's text, of either sign, does not change what `int()` reads. |
| Numerals.NatToStringValue | local_database.py:141 | Rendering a natural number in decimal and reading its digits back gives the number. |
| Numerals.ParseIntToString | local_database.py:141 | `int(str(i)) == i` for every integer. |
| Numerals.IntToStringInjective | local_database.py:141 | Distinct integers render as distinct texts. |
| ChatGpt.OpenerTextLower | chatgpt.py:363-366 | The text the opener is cut from has no upper-case letters. |
| ChatGpt.OpenerWordsLower | chatgpt.py:363-369 | Every word the opener can use is non-empty, lower-case and free of whitespace. |
| ChatGpt.WordCharSurvives | chatgpt.py:363-369 | If the reply holds a word character anywhere, there is a first word and it starts with a word character. |
| ChatGpt.NoWordCharNoWords | chatgpt.py:363-369 | A reply with no word character yields no words. |
| ChatGpt.OpenerOf | chatgpt.py:369-370 | With two or more words the opener is the first two joined by one space; with one word it is that word; with none it is undefined, as `words[0]` raises. |
| ChatGpt.OpenerOfLower | chatgpt.py:364-370 | Openers built from lower-case words are non-empty and lower-case. |
| ChatGpt.ExtractOpener | chatgpt.py:363-370 | The opener is undefined exactly when no word survives the lower-casing, stripping and punctuation removal. With two or more words it is the first two joined by one space, with one word it is that word, and it is always non-empty and lower-case. |
| ChatGpt.ExtractOpenerNoneIff | chatgpt.py:363-370 | The opener is undefined (`words[0]` raises) exactly when the reply has no word character. |
| ChatGpt.ExtractOpenerIdempotent | chatgpt.py:363-370 | The opener of an opener is itself. |
| ChatGpt.ExtractFromOne | chatgpt.py:368-370 | A one-word lower-case reply is its own opener. |
| ChatGpt.ExtractFromTwo | chatgpt.py:368-370 | A two-word lower-case reply is its own opener. |
| ChatGpt.Record | chatgpt.py:359-375 | Recording a reply without an opener fails. Otherwise the opener is appended and the history keeps exactly `min(n + 1, 20)` entries: the most recent ones, newest last. |
| ChatGpt.RecordAllFailsIff | chatgpt.py:372-375 | A series of records fails exactly when some reply in it has no opener. |
| ChatGpt.RecordAllIsBoundedAppendAll | chatgpt.py:359-375 | A successful series of records is a series of `deque(maxlen=20)` appends of the openers. |
| ChatGpt.RecordAllKeepsMostRecent | chatgpt.py:359-375 | After a successful series the history is the last 20 of the old history followed by every new opener, oldest first. |
| ChatGpt.Blacklist | chatgpt.py:377-379 | The blacklist is the last eight of the openers deduplicated in first-occurrence order, or all of them when there are at most eight: at most eight entries, no duplicates. |
| ChatGpt.BlacklistContents | chatgpt.py:377-379 | Every blacklisted opener was recorded, and when there are at most eight distinct openers all of them are blacklisted. |
| ChatGpt.BlacklistFirstOccurrenceOrder | chatgpt.py:379 | Blacklisted openers appear in the order of their first occurrence in the history. |
| ChatGpt.OpenerRestrictionPrompt | chatgpt.py:112-122 | The restriction prompt is a system prompt that opens with the restrictions title and instruction and ends with the rewrite instruction. Each blacklisted opener's `• opener` text is a whole line of it, at its place in the newline join. |
| ChatGpt.RestrictionLinesInOrder | chatgpt.py:118 | The bullet lines follow the blacklist's order and do not overlap. |
| ChatGpt.Insert | chatgpt.py:107-108 | `list.insert` adds exactly one element at the normalised index and keeps every other element in order. |
| ChatGpt.InsertBeforeLast | chatgpt.py:107-108 | Inserting at `-1` puts the element just before the last one. |
| ChatGpt.AssemblePrompts | chatgpt.py:99-122 | The context prompt is always the last prompt. |
| ChatGpt.AssemblePromptsOrder | chatgpt.py:99-122 | The prompts are personality, emotes, task, then the tool result, the opener restrictions, and the context, each when enabled or present. |
| ChatGpt.ChatPrompts | chatgpt.py:195-197 | The memory prompt is inserted second and every other prompt keeps its place. |
| ChatGpt.ChatKeepsContextLast | chatgpt.py:99-124 | The prompts sent always have the memory second and, when anything precedes the context, the context last. |
| ChatGpt.DropOpeningFence | chatgpt.py:277 | Removing the opening fence leaves a tail of the text, at least three characters shorter, that does not start with whitespace. |
| ChatGpt.DropClosingFence | chatgpt.py:278 | Text not ending in a fence is kept. Otherwise the fence and only whitespace before it are removed: what remains is a prefix that does not end in whitespace. |
| ChatGpt.Unfenced | chatgpt.py:275-278 | A reply that does not open with a fence is only stripped. A fenced one has its opening fence and then its closing fence removed, losing at least the three fence characters. |
| ChatGpt.FindChar | chatgpt.py:279 | `find` of a character gives the first position holding it, or fails when no position does. |
| ChatGpt.RFindChar | chatgpt.py:280 | `rfind` of a character gives the last position holding it, or fails when no position does. |
| ChatGpt.NoBracePair | chatgpt.py:281 | When `{` is missing, `}` is missing or the last `}` precedes the first `{`, no `{` comes at or before any `}`. |
| ChatGpt.SpanSplits | chatgpt.py:281 | Cutting from the first `{` to the last `}` leaves no `{` before the cut and no `}` after it. |
| ChatGpt.BraceSpan | chatgpt.py:279-281 | A span exists exactly when some `{` comes at or before some `}`. The span then begins with `{` and ends with `}`, and the text splits into a part without `{`, the span, and a part without `}`: the span runs from the first `{` to the last `}`. |
| ChatGpt.BraceSpanWhole | chatgpt.py:279-281 | A text that is already one braced span is kept whole. |
| ChatGpt.ToolCandidate | chatgpt.py:272-281 | Only an empty reply yields no candidate. Otherwise the candidate is the brace span of the unfenced text when there is one, and the whole unfenced text when there is none. |
| ChatGpt.BracedIsOwnCandidate | chatgpt.py:272-281 | A bare JSON object is its own candidate. |
| ChatGpt.SpanIsOwnCandidate | chatgpt.py:275-281 | A span that was cut out yields itself when extracted again. |
| ChatGpt.CandidateIdempotent | chatgpt.py:272-281 | Extracting the candidate from a candidate that holds a braced span changes nothing. |
| ChatGpt.FencedObject | chatgpt.py:275-281 | An object in a Markdown code fence with an alphanumeric language tag is extracted without the fence. |
| ChatGpt.FallbackWithoutQuotes | chatgpt.py:286-287 | The single-quote fallback leaves a candidate without single quotes unchanged. |
| ChatGpt.SearchTerm | chatgpt.py:316-318 | The search term is a single non-empty word. |
| ChatGpt.SearchTermOfWord | chatgpt.py:316-318 | The first word of the reply is the term. |
| ChatGpt.HandlePolicy | chatgpt.py:293-352 | Fails unless there are three templates. A `NONE` term routes to add on a roll of 40 or less, otherwise to none. A term with no policies routes to add. Otherwise it routes to get, with the found template's placeholder replaced by the policy lines. |
| ChatGpt.FoundPromptSplice | chatgpt.py:350-352 | With one placeholder in the found template, the policy lines replace it and the surrounding text is kept. |
| ChatGpt.AddPicksAreRolls | chatgpt.py:331-334 | For a `NONE` term, the picks that route to add are exactly those whose `randint(1, 100)` roll is at most 40. |
| ChatGpt.AddRollsFirstHundred | chatgpt.py:332-334 | Picks 0 to 99 hold exactly 40 that roll add. |
| ChatGpt.AddRollsHundred | chatgpt.py:332-334 | Any 100 consecutive picks hold exactly 40 that roll add. The counting helpers it rests on (`AddRollsSplit`, `AddRollsSlide`, `PickPeriod` and the others) are not listed separately. |
| ChatGpt.NoneRouteShare | chatgpt.py:331-334 | For a `NONE` term, `handle_policy` routes to add for exactly 40 of any 100 consecutive picks, and to none for the other 60. |
| DiscordBot.TimezoneName | discordbot.py:38-49 | The zone-name table knows exactly the ten listed codes, each naming one of the four American zones, `UTC` or `Etc/GMT`. |
| DiscordBot.TimezoneOffset | discordbot.py:50-61 | The offset table knows exactly the same ten codes, each with a fixed offset between -8 and 0 hours. |
| DiscordBot.TablesCoverSameCodes | discordbot.py:38-61 | The zone-name table and the offset table know exactly the same ten codes. |
| DiscordBot.DaylightIsOneHourAhead | discordbot.py:38-61 | Each daylight code names the same zone as its standard code and is one hour ahead of it. |
| DiscordBot.ResolveTimezone | discordbot.py:906-928 | An unknown code is an error. A known code resolves to its named zone when zone data is installed, and otherwise to its fixed offset of -8 to 0 hours. |
| DiscordBot.MatchTime | discordbot.py:873-876 | A match yields a one- or two-digit hour, an optional two-digit minute, an optional lower-case `am` or `pm`, and an optional letter-only zone. |
| DiscordBot.MatchTimeText | discordbot.py:873-876 | Every rendered `h:mm[ am\|pm][ ZONE]` text is matched back into its own fields. |
| DiscordBot.ClockHour | discordbot.py:886-899 | The hour is below 24: `am` hours are before noon and `pm` hours are from noon on. |
| DiscordBot.FromFields | discordbot.py:878-901 | A parsed time has hour below 24, minute below 60 and a known zone, which is PST when none is given. |
| DiscordBot.ParseTime | discordbot.py:871-901 | Text that does not match the pattern is a format error. A successful parse has a valid hour and minute and a known zone, defaulting to PST. |
| DiscordBot.ParseTwelveHour | discordbot.py:886-891 | Every 24-hour time, written on a 12-hour clock with its period, parses back to itself. |
| DiscordBot.ParseTwentyFourHour | discordbot.py:892-899 | Every 24-hour time other than hour 12, written without a period, parses back to itself. |
| DiscordBot.ParseTwelveWithoutPeriod | discordbot.py:895-897 | `12:mm` without a period is read as just after midnight. |
| DiscordBot.ParseDefaultsToPacific | discordbot.py:881 | A time without a zone is in PST. |
| DiscordBot.ParseRangeErrors | discordbot.py:883-894 | Minutes above 59, a 12-hour hour outside 1-12, and a 24-hour hour above 23 each raise their own error, checked in that order. |
| DiscordBot.WordsAtLevel | discordbot.py:741-742 | The words for a level are exactly the lower-cased words of the rows at that level. |
| DiscordBot.WordsAtLevelOne | discordbot.py:741-742 | One row contributes its lower-cased word exactly when it is at the level. |
| DiscordBot.WordsAtLevelAppend | discordbot.py:741-742 | The comprehension keeps table order and multiplicity: the words of a concatenation are the words of its parts, concatenated. |
| DiscordBot.FirstAlternative | discordbot.py:745-746 | At a position, the alternation matches with word boundaries on both sides, or none of its words matches there. |
| DiscordBot.FirstAlternativeEarliest | discordbot.py:745-746 | The alternation picks the earliest-listed word that matches at the position. |
| DiscordBot.SearchFrom | discordbot.py:746 | `re.search` finds the leftmost position where some word matches, and no earlier one. |
| DiscordBot.SearchFinds | discordbot.py:746 | The search succeeds exactly when some word matches somewhere, and what it matches is one of the words. |
| DiscordBot.FirstContained | discordbot.py:753 | The substring scan returns the first listed word contained in the message, or none when no word is contained. |
| DiscordBot.BannedMatch | discordbot.py:739-757 | A reported banned word is never empty. |
| DiscordBot.ExactSearch | discordbot.py:745-750 | The exact-match search yields a word exactly when some Exact row matches with word boundaries. |
| DiscordBot.BanSearch | discordbot.py:741-753 | The substring scan yields a word exactly when some Ban row's word occurs in the message. |
| DiscordBot.BannedMatchIff | discordbot.py:739-757 | A message is flagged exactly when an Exact word matches on word boundaries or a Ban word occurs anywhere, ignoring case. |
| DiscordBot.ExactWordsFirst | discordbot.py:749-753 | When an Exact word matches, the reported word is an Exact word. |
| DiscordBot.QuoteArgument | discordbot.py:670-692 | A search request always carries non-empty, single-spaced words. |
| DiscordBot.QuoteWithoutWords | discordbot.py:670-673 | `quote` alone asks for a random quote. |
| DiscordBot.QuoteRandomWord | discordbot.py:678-679 | `quote random` or `quote r`, in any case, asks for a random quote whatever follows. |
| DiscordBot.QuoteByIdRoundTrip | discordbot.py:684-686 | `quote <n>` asks for quote number `n`. |
| DiscordBot.QuoteSearchRoundTrip | discordbot.py:691-693 | Any other words ask for a search on those words joined by single spaces. |
| DiscordBot.ImageUrls | discordbot.py:243-249 | The kept URLs are non-empty URLs of image attachments (`.png`, `.jpg`, `.jpeg`, `.webp`, in any case), and every image attachment's URL is kept. |
| DiscordBot.ImageUrlsAppend | discordbot.py:246-249 | The filter keeps attachment order: filtering a concatenation is concatenating the filtered parts. |
| Gui.Shorten | gui.py:750 | A text over 120 characters is cut to its first 117 characters plus `...`; a shorter text is kept. |
| Gui.PolicyPreview | gui.py:744-750 | The preview is at most 120 characters, single-spaced and trimmed, and is empty exactly when the content is blank or missing. Collapsed content that fits is the preview itself, with the content's words. Longer collapsed content gives exactly 120 characters: its first 117, then `...`. |
| Gui.CollapseOfStrip | gui.py:744-750 | Collapsing the whitespace of a text keeps its words, and stripping it first makes no difference. |
| Text.SplitStrip | gui.py:744-750 | Stripping a text does not change its words. |
| Gui.PreviewIdempotent | gui.py:744-750 | Previewing a preview changes nothing. |
| Gui.PreviewOfShortText | gui.py:744-750 | A short, trimmed, single-spaced text is its own preview. |
| Gui.CycleDirection | gui.py:1110-1116 | The next direction is ascending, descending or unsorted; an unknown direction restarts at ascending. |
| Gui.CycleHasPeriodThree | gui.py:1110-1116 | The cycle has period exactly three: it returns after three steps and not before. |
| Gui.HeadingClick | gui.py:1098-1108 | A click on an unknown column does nothing. A new column sorts ascending. The same column advances the direction, and the column is cleared when unsorted. A well-formed sort state stays well formed. |
| Gui.ClickCycle | gui.py:1098-1116 | Repeated clicks on one column go ascending, descending, unsorted, and then back to ascending. |
| Gui.NonBlank | gui.py:270-271 | The kept model names are exactly the non-empty fetched names. |
| Gui.NonBlankOne | gui.py:270-271 | One name is kept exactly when it is not empty. |
| Gui.NonBlankAppend | gui.py:270-271 | The filter keeps fetched order and multiplicity: filtering a concatenation concatenates the filtered parts. |
| Gui.DedupeInOrder | gui.py:276-281 | The loop with its `seen` set computes first-occurrence duplicate removal. |
| Gui.FallbackDistinct | gui.py:275 | The fallback model list has no duplicates. |
| Gui.ModelChoices | gui.py:259-283 | The choices are never empty and distinct: the non-empty fetched names when there are any, otherwise the fallback list. |
| Gui.StatusText | gui.py:850-859 | The label always starts with the timer prefix; with a target it shows progress in messages, and with queued messages but no target it shows them as queued. |
| Gui.StatusShowsProgress | gui.py:853-855 | With a target, the label determines the progress: two snapshots with the same label have the same capped count and the same target. |
| Gui.FirstNonBlank | gui.py:1155-1161 | A found value is non-empty, and no value is found exactly when every key is missing or blank. |
| Gui.FirstNonBlankEarliest | gui.py:1155-1161 | The value found is the stripped value of the earliest key that is not blank. |
| Gui.RowId | gui.py:1154-1162 | The row id is never empty: a non-blank `id` wins, and a row with all five keys blank gets `row-<index>`. |
| Gui.RowIdIgnoresOtherColumns | gui.py:1155 | Columns other than the five id keys never change the row id. |
| Gui.InlineSave | gui.py:1334-1342 | The tag is stored upper-cased. A BOOL value becomes `1` exactly for `1`, `True` or `true`, and `0` otherwise. Other values are stored as given. |
| Gui.InlineTrueIsCoercedTrue | gui.py:1338-1339 | Whatever the inline save treats as true, the store's coercion treats as true too. |
| Gui.InlineStricterThanCoerce | gui.py:1338-1339 | The inline save is stricter than the store's coercion: `yes` saves as `0` there but coerces to `1`. |
| Gui.DialogType | gui.py:333 | The dialog's tag is never empty. |
| Gui.DialogTypeUpper | gui.py:333 | The dialog's tag is upper case. |
| Gui.DialogSave | gui.py:350-368 | An empty key is refused. BOOL stores the checkbox as `1` or `0`. Other tags store the trimmed text. A non-empty INTEGER must parse and a CHARACTER must be exactly one character, with their own errors. |
| Gui.DialogSavedValid | gui.py:350-368 | A value the dialog saves is valid for its tag, unless it is empty or starts with `+`. |
| Gui.DialogIntegerText | gui.py:356-366 | Any trimmed integer text, or an empty one, is saved as it is under INTEGER. |
| Gui.DialogIntegerGaps | gui.py:360-366 | An empty INTEGER value and `+5` are both saved, yet neither passes the store's validity test. |
| Quotes.FirstWithId | google_api.py:41-43 | Finds the earliest record with the id, or reports that no record has it. |
| Quotes.GetQuote | google_api.py:34-44 | Fails without a sheet id; otherwise returns a record with the id, or nothing exactly when no record has it. |
| Quotes.GetQuoteFirst | google_api.py:41-43 | With several records with the id, the first one is returned. |
| Quotes.GetRandomQuote | google_api.py:46-56 | Fails without a sheet id; otherwise returns nothing exactly for an empty sheet, and a record of the sheet otherwise. |
| Quotes.RandomQuoteReachesAll | google_api.py:55 | Every record can be the random one. |
| Quotes.Matching | google_api.py:65 | The filtered records are exactly the records whose quote contains the words, ignoring case. |
| Quotes.GetRandomQuoteContaining | google_api.py:58-69 | Fails without a sheet id; returns nothing exactly when no quote contains the words, and otherwise a record whose quote contains them. |
| Quotes.ContainingReachesAll | google_api.py:65-68 | Every record whose quote contains the words can be returned. |
| Quotes.MatchingIgnoresCase | google_api.py:65 | The search gives the same records whatever the case of the words. |
| Launcher.Stars | launcher.py:51 | The mask of a short secret is one star per character. |
| Launcher.MaskSecret | launcher.py:47-52 | A missing secret shows `<missing>` and a short one only stars. A long one shows its first `head` and last `tail` characters around `***`. It never reveals more than `head + tail` characters. |
| Launcher.DefaultMaskLength | launcher.py:47-52 | With the default head of 4 and tail of 3, a long secret is shown as ten characters. |
| Launcher.MaskSecretAsWritten | launcher.py:47-52 | `_mask_secret` as written: `<missing>` for a missing secret, stars for a short one, the first `head` and last `tail` characters around `***` when the tail is non-zero, and the whole secret after `***` when the tail is 0. |
| Launcher.MaskAgreesWithNonZeroTail | launcher.py:47-52 | With a non-zero tail, the code as written and the intended masking agree. |
| Launcher.ZeroTailRevealsSecret | launcher.py:52 | With a tail of 0, the code as written prints the whole secret: `value[-0:]` is all of it. |

## Left out

- Threads, the asyncio loops and `sleep` polling. The timer and the message processor are modelled as state transitions (`Tick`, `Process`), and `Run` interleaves them in any order.
- The OpenAI, Google Sheets, Discord, Twitch and ElevenLabs clients. Their replies (model text, sheet records, database rows, attachment lists) are parameters.
- Tk widgets and message boxes. Each handler's decision is modelled; drawing it is not.
- FLOAT settings. `GetSetting` returns a FLOAT row as its stored text. The `float()` call and its `ValueError` (local_database.py:478-479) are not modelled, because floating point is not modelled.
- `int()` accepting underscores and non-ASCII digits. `ParseInt` takes an optional sign and ASCII digits around whitespace.
- Text is ASCII. Case mapping and `\s`/`\w` classes outside ASCII are not modelled.
- SQL itself: table creation, the `sqlite_sequence` step, and connection handling. The store is a map from key to `(value, type)`, and a NULL type is an empty tag. An empty-string tag, which the table's CHECK constraint rejects, is not told apart from NULL.
- `json.loads`. Only the candidate text handed to it, and the single-quote fallback text, are modelled.
- The wall clock and zone arithmetic in `_parse_time_to_timestamp` (lines 901-904). Parsing stops at the hour, minute, zone code and resolved zone.
- `strptime` is modelled as the `YYYY-MM-DD HH:MM:SS` shape test `IsStampText`. Calendar validity of the digits is not checked.
- Image descriptions. They come from a `describe` parameter, and the list of image URLs is cut at three as the source does.
- The random draws (`randint`, `random.choice`). Each is a `pick` index reduced into range, and the lemmas show that every value can be drawn.
- The model-choice cache in `_get_openai_model_choices`. The list is recomputed from the fetched names each time.
- The status label's exception branch (`error (...)`) and the destroyed-label early return.
- `get_search_history`'s copy. The history is already a value.
- `violates_opener`. It only tests membership in the blacklist.
- The reply texts of `handle_quote`. Only the request it decides on is modelled.
- Quote ids in the sheet are compared as integers. A text `ID` cell that never equals an `int` is not modelled.
- ResponseTimer.StartTimer: the settings are taken as already-read integers.
- ResponseTimer.Complete: only the response's success or failure is modelled, not its text.
- Settings.DefaultTypeFor: when a key appears twice in the required table, the first entry is used, where a Python dict keeps the last one. When the entry's tag is empty, the result is `TEXT`; Python would write the empty tag. The bot's table has distinct keys and non-empty tags, so neither case arises.
- Settings.Setup: the final row of a newly inserted key whose table tag is empty is not stated, because the bot's table has no such entry.
- Settings.UpdateSetting: a row with an empty-string tag fails like a NULL one, where Python would store the value as text; the two are not told apart, and start-up repair fills both.
- ChatGpt.DropOpeningFence: does not state that the text removed is exactly the language tag and the whitespace after it, only that a tail remains that does not start with whitespace.
- Gui.StatusText: states the prefix and suffix of each branch, not the exact wording of the waiting and unavailable labels.

## Findings

| source | as written | input that shows it | evidently intended | confidence | as-written member | corrected member |
|---|---|---|---|---|---|---|
| ai_logic.py:311-318 | `edit_processed_message` splits the old entry on `"]: "`. Stored entries are `[stamp] author: text`, so that split never isolates the stamp, `strptime` fails, and the rewritten entry starts with `[] `. | an entry `"[2024-01-01 00:00:00] a: b"` edited to author `x`, text `y` becomes `"[] x: y"` | keep the original creation stamp: `"[2024-01-01 00:00:00] x: y"` | not executed | ResponseTimer.EditLosesStamp | ResponseTimer.EditCorrectedKeepsStamp |
| launcher.py:52 | `_mask_secret` slices the tail with `value[-tail:]`. With `tail=0` that is the whole value, so the secret is printed in full. | `_mask_secret("abcdefgh", head=4, tail=0)` gives `"abcd***abcdefgh"` | reveal at most `head + tail` characters: `"abcd***"` | not executed | Launcher.ZeroTailRevealsSecret | Launcher.MaskSecret |

=== FILE: chatgpt.dfy ===
/**
 * The pure parts of the chat-model client: the recent-opener tracker, the order
 * in which a request's prompts are assembled, the extraction of a tool decision
 * from a model reply, and the routing of a policy lookup. Model replies, tool
 * output and policy search results are parameters.
 */
module ChatGpt {
  import opened Common
  import opened Text
  import opened Sequences

  // ---------------------------------------------------------------------------
  // Recent openers

  /** How many openers the tracker remembers, and how many the blacklist offers. */
  const MaxOpenerHistory: nat := 20
  const MaxBlacklist: nat := 8

  predicate HasWordChar(s: string) { exists i :: 0 <= i < |s| && IsWordChar(s[i]) }

  /** The text the tracker splits into words: lower-cased, trimmed, leading non-word characters dropped. */
  function OpenerText(text: string): string
  {
    DropWhile(Strip(Lower(text)), c => !IsWordChar(c))
  }

  /** The words of a reply, as the tracker reads them. */
  function OpenerWords(text: string): seq<string>
  {
    Split(OpenerText(text))
  }

  /**
   * `extract_opener`: the first two words joined by one space, or the only word.
   * `None` stands for the `IndexError` raised when no word remains.
   */
  function ExtractOpener(text: string): (r: Option<string>)
    ensures r.None? <==> OpenerWords(text) == []
    ensures |OpenerWords(text)| >= 2 ==> r == Some(OpenerWords(text)[0] + " " + OpenerWords(text)[1])
    ensures |OpenerWords(text)| == 1 ==> r == Some(OpenerWords(text)[0])
    ensures r.Some? ==> r.value != [] && NoUpper(r.value)
  {
    OpenerWordsLower(text);
    OpenerOfLower(OpenerWords(text));
    OpenerOf(OpenerWords(text))
  }

  /** Lower-case words give a non-empty lower-case opener. */
  lemma OpenerOfLower(words: seq<string>)
    requires forall k :: 0 <= k < |words| ==> LowerWord(words[k])
    ensures OpenerOf(words).Some? ==> OpenerOf(words).value != [] && NoUpper(OpenerOf(words).value)
  {
    if |words| >= 2 {
      assert LowerWord(words[0]) && LowerWord(words[1]);
      NoUpperConcat(words[0], " ");
      NoUpperConcat(words[0] + " ", words[1]);
    } else if |words| == 1 {
      assert LowerWord(words[0]);
    }
  }

  /** The opener made of a list of words: the first two joined by a space, or the only one. */
  function OpenerOf(words: seq<string>): (r: Option<string>)
    ensures r.None? <==> words == []
    ensures |words| >= 2 ==> r == Some(words[0] + " " + words[1])
    ensures |words| == 1 ==> r == Some(words[0])
  {
    if |words| >= 2 then
      assert words[..2] == [words[0], words[1]];
      JoinTwo(words[0], words[1], " ");
      Some(Join(words[..2], " "))
    else if |words| == 1 then Some(words[0])
    else None
  }

  lemma OpenerOfNone(words: seq<string>)
    ensures OpenerOf(words).None? <==> words == []
  {
  }

  lemma JoinTwo(a: string, b: string, sep: string)
    ensures Join([a, b], sep) == a + sep + b
  {
    assert [a, b][1..] == [b];
  }

  lemma NoUpperConcat(a: string, b: string)
    requires NoUpper(a) && NoUpper(b)
    ensures NoUpper(a + b)
  {
    assert forall j :: |a| <= j < |a + b| ==> (a + b)[j] == b[j - |a|];
  }

  /** A lower-case word as the tracker splits it out. */
  predicate LowerWord(w: string) { w != [] && NoSpace(w) && NoUpper(w) }

  lemma OpenerTextLower(text: string)
    ensures NoUpper(OpenerText(text))
  {
    var l := Lower(text);
    var notUpper := c => !IsUpper(c);
    StripKeeps(l, notUpper);
    var st := Strip(l);
    var d := DropWhile(st, c => !IsWordChar(c));
    SuffixKeeps(st, d, notUpper);
    assert OpenerText(text) == d;
  }

  lemma SplitLower(d: string)
    requires NoUpper(d)
    ensures forall k :: 0 <= k < |Split(d)| ==> LowerWord(Split(d)[k])
  {
    SplitKeeps(d, c => !IsUpper(c));
  }

  /** Every word the tracker reads is lower-case. */
  lemma OpenerWordsLower(text: string)
    ensures forall k :: 0 <= k < |OpenerWords(text)| ==> LowerWord(OpenerWords(text)[k])
  {
    OpenerTextLower(text);
    SplitLower(OpenerText(text));
  }

  /** A non-empty text to split gives a first word that starts with a word character. */
  lemma FirstWordStart(text: string)
    requires OpenerText(text) != []
    ensures OpenerWords(text) != [] && IsWordChar(OpenerWords(text)[0][0])
  {
    SplitOfLeadingToken(OpenerText(text));
  }

  /** A word character of the reply is still there after lower-casing and stripping. */
  lemma WordCharStripped(text: string, i: int) returns (j: nat)
    requires 0 <= i < |text| && IsWordChar(text[i])
    ensures j < |Strip(Lower(text))| && IsWordChar(Strip(Lower(text))[j])
  {
    var l := Lower(text);
    assert l[i] == LowerChar(text[i]);
    StripKeepsNonSpace(l, i);
    j := i - LeadingSpaces(l);
  }

  /** Dropping the leading non-word characters stops at a word character. */
  lemma OpenerTextNonEmpty(text: string, j: nat)
    requires j < |Strip(Lower(text))| && IsWordChar(Strip(Lower(text))[j])
    ensures OpenerText(text) != []
  {
    var st := Strip(Lower(text));
    var d := OpenerText(text);
    assert |st| - |d| <= j;
  }

  /** A word character somewhere in the text survives lower-casing, stripping and the leading-punctuation removal. */
  lemma WordCharSurvives(text: string, i: int)
    requires 0 <= i < |text| && IsWordChar(text[i])
    ensures OpenerWords(text) != [] && IsWordChar(OpenerWords(text)[0][0])
  {
    var j := WordCharStripped(text, i);
    OpenerTextNonEmpty(text, j);
    FirstWordStart(text);
  }

  /** A text without word characters leaves nothing to split. */
  lemma NoWordCharNoWords(text: string)
    requires !HasWordChar(text)
    ensures OpenerWords(text) == []
  {
    var l := Lower(text);
    var noWord := c => !IsWordChar(c);
    forall j | 0 <= j < |l| ensures noWord(l[j]) {
      assert l[j] == LowerChar(text[j]);
    }
    StripKeeps(l, noWord);
    var st := Strip(l);
    var d := OpenerText(text);
    assert d == [];
  }

  /** No word remains exactly when the reply has no word character. */
  lemma ExtractOpenerNoneIff(text: string)
    ensures ExtractOpener(text).None? <==> !HasWordChar(text)
  {
    OpenerOfNone(OpenerWords(text));
    if HasWordChar(text) {
      var i :| 0 <= i < |text| && IsWordChar(text[i]);
      assert OpenerWords(text) != [] by {
        WordCharSurvives(text, i);
      }
    } else {
      assert OpenerWords(text) == [] by {
        NoWordCharNoWords(text);
      }
    }
  }

  /** An opener is read back as itself: extraction is idempotent. */
  lemma ExtractOpenerIdempotent(text: string)
    requires ExtractOpener(text).Some?
    ensures ExtractOpener(ExtractOpener(text).value) == ExtractOpener(text)
  {
    var words := OpenerWords(text);
    assert words != [];
    assert forall k :: 0 <= k < |words| ==> LowerWord(words[k]) by {
      OpenerWordsLower(text);
    }
    assert IsWordChar(words[0][0]) by {
      assert OpenerText(text) != [];
      FirstWordStart(text);
    }
    if |words| >= 2 {
      assert ExtractOpener(text) == Some(words[0] + " " + words[1]) by {
        JoinTwo(words[0], words[1], " ");
        assert words[..2] == [words[0], words[1]];
      }
      ExtractFromTwo(words[0], words[1]);
    } else {
      assert ExtractOpener(text) == Some(words[0]);
      ExtractFromOne(words[0]);
    }
  }

  /** The tracker's words of a text free of upper case, leading space and leading punctuation are its split. */
  lemma OpenerWordsOfPlain(o: string)
    requires o != [] && NoUpper(o) && IsWordChar(o[0]) && !IsSpace(o[|o| - 1])
    ensures OpenerWords(o) == Split(o)
  {
    assert Lower(o) == o;
    StripStripped(o);
    assert OpenerText(o) == o;
  }

  lemma SplitWord(w: string)
    requires w != [] && NoSpace(w)
    ensures Split(w) == [w]
  {
    TokenEndOfWord(w, []);
    assert w + [] == w;
    assert w[..|w|] == w && w[|w|..] == [];
  }

  lemma SplitTwoWords(w0: string, w1: string)
    requires w0 != [] && NoSpace(w0) && w1 != [] && NoSpace(w1)
    ensures Split(w0 + " " + w1) == [w0, w1]
  {
    var o := w0 + " " + w1;
    TokenEndOfWord(w0, " " + w1);
    assert o == w0 + (" " + w1);
    assert o[..|w0|] == w0;
    assert o[|w0|..] == " " + w1;
    assert Split(" " + w1) == Split(w1) by {
      assert (" " + w1)[1..] == w1;
    }
    SplitWord(w1);
  }

  lemma ExtractFromOne(w: string)
    requires LowerWord(w) && IsWordChar(w[0])
    ensures ExtractOpener(w) == Some(w)
  {
    OpenerWordsOfPlain(w);
    SplitWord(w);
    assert OpenerWords(w) == [w];
    assert OpenerOf([w]) == Some(w);
  }

  lemma PlainTwo(w0: string, w1: string)
    requires LowerWord(w0) && LowerWord(w1) && IsWordChar(w0[0])
    ensures var o := w0 + " " + w1;
      o != [] && NoUpper(o) && IsWordChar(o[0]) && !IsSpace(o[|o| - 1])
  {
    var o := w0 + " " + w1;
    NoUpperConcat(w0, " ");
    NoUpperConcat(w0 + " ", w1);
    assert o[0] == w0[0];
    assert o[|o| - 1] == w1[|w1| - 1];
  }

  lemma ExtractFromTwo(w0: string, w1: string)
    requires LowerWord(w0) && LowerWord(w1) && IsWordChar(w0[0])
    ensures ExtractOpener(w0 + " " + w1) == Some(w0 + " " + w1)
  {
    TwoWordsRead(w0, w1);
    OpenerOfTwo(w0, w1);
  }

  lemma TwoWordsRead(w0: string, w1: string)
    requires LowerWord(w0) && LowerWord(w1) && IsWordChar(w0[0])
    ensures OpenerWords(w0 + " " + w1) == [w0, w1]
  {
    PlainTwo(w0, w1);
    OpenerWordsOfPlain(w0 + " " + w1);
    SplitTwoWords(w0, w1);
  }

  lemma OpenerOfTwo(w0: string, w1: string)
    ensures OpenerOf([w0, w1]) == Some(w0 + " " + w1)
  {
    JoinTwo(w0, w1, " ");
    assert [w0, w1][..2] == [w0, w1];
  }

  /** The tracker's failure: a reply without any word. */
  datatype OpenerError = NoWords

  /** `record`: the reply's opener joins the history, which keeps the most recent 20. */
  function Record(history: seq<string>, response: string): (r: Result<seq<string>, OpenerError>)
    ensures r.Err? <==> ExtractOpener(response).None?
    ensures r.Ok? ==> |r.value| <= MaxOpenerHistory && |r.value| <= |history| + 1
    ensures r.Ok? ==> r.value != [] && r.value[|r.value| - 1] == ExtractOpener(response).value
    ensures r.Ok? ==> |r.value| == if |history| + 1 <= MaxOpenerHistory then |history| + 1 else MaxOpenerHistory
    ensures r.Ok? ==> r.value == (history + [ExtractOpener(response).value])[|history| + 1 - |r.value|..]
  {
    match ExtractOpener(response)
    case None => Err(NoWords)
    case Some(o) => Ok(BoundedAppend(history, o, MaxOpenerHistory))
  }

  /** Records the replies in turn; the first reply without an opener fails the series. */
  function RecordAll(history: seq<string>, responses: seq<string>): Result<seq<string>, OpenerError>
    decreases |responses|
  {
    if responses == [] then Ok(history)
    else match Record(history, responses[0])
      case Err(e) => Err(e)
      case Ok(h) => RecordAll(h, responses[1..])
  }

  /** The openers of the replies that have one, in order. */
  function Openers(responses: seq<string>): (r: seq<string>)
    ensures |r| <= |responses|
    ensures (forall i :: 0 <= i < |responses| ==> ExtractOpener(responses[i]).Some?) ==> |r| == |responses|
    decreases |responses|
  {
    if responses == [] then []
    else (match ExtractOpener(responses[0]) case Some(o) => [o] case None => []) + Openers(responses[1..])
  }

  /** Whether a reply has no opener, so that recording it fails. */
  predicate NoOpener(response: string) { ExtractOpener(response).None? }

  /**
   * A series of records fails exactly when some reply has no opener: the first such
   * reply is where the series stops.
   */
  lemma {:induction false} RecordAllFailsIff(history: seq<string>, responses: seq<string>)
    ensures RecordAll(history, responses).Err? <==> FirstWhere(responses, NoOpener).Some?
    decreases |responses|
  {
    if responses != [] {
      var r := Record(history, responses[0]);
      if r.Ok? {
        RecordAllFailsIff(r.value, responses[1..]);
      }
    }
  }

  /** A successful series appends the openers one bounded append at a time. */
  lemma {:induction false} RecordAllIsBoundedAppendAll(history: seq<string>, responses: seq<string>)
    ensures RecordAll(history, responses).Ok? ==>
      RecordAll(history, responses).value == BoundedAppendAll(history, Openers(responses), MaxOpenerHistory)
    decreases |responses|
  {
    if responses != [] {
      var rest := responses[1..];
      var r := Record(history, responses[0]);
      if r.Ok? {
        var o := ExtractOpener(responses[0]).value;
        assert r.value == BoundedAppend(history, o, MaxOpenerHistory);
        RecordAllIsBoundedAppendAll(r.value, rest);
        assert Openers(responses) == [o] + Openers(rest);
        BoundedAppendAllStep(history, Openers(responses), MaxOpenerHistory);
      }
    }
  }

  /**
   * After a successful series of records the history holds the last 20 of the old
   * entries followed by every new opener, oldest first.
   */
  lemma RecordAllKeepsMostRecent(history: seq<string>, responses: seq<string>)
    requires |history| <= MaxOpenerHistory
    ensures RecordAll(history, responses).Ok? ==>
      RecordAll(history, responses).value == KeepLast(history + Openers(responses), MaxOpenerHistory)
  {
    RecordAllIsBoundedAppendAll(history, responses);
    BoundedAppendAllKeepsLast(history, Openers(responses), MaxOpenerHistory);
  }

  /** `blacklist`: the distinct openers in order of first occurrence, at most the last 8 of them. */
  function Blacklist(history: seq<string>): (r: seq<string>)
    ensures |r| <= MaxBlacklist
    ensures NoDuplicates(r)
    ensures |r| == if |Dedupe(history)| <= MaxBlacklist then |Dedupe(history)| else MaxBlacklist
    ensures r == Dedupe(history)[|Dedupe(history)| - |r|..]
  {
    var d := Dedupe(history);
    var r := KeepLast(d, MaxBlacklist);
    assert forall i :: 0 <= i < |r| ==> r[i] == d[|d| - |r| + i];
    r
  }

  /** The blacklist holds only remembered openers, and all of them while there are at most 8 distinct ones. */
  lemma BlacklistContents(history: seq<string>)
    ensures forall i :: 0 <= i < |Blacklist(history)| ==> Blacklist(history)[i] in history
    ensures |Dedupe(history)| <= MaxBlacklist ==> forall i :: 0 <= i < |history| ==> history[i] in Blacklist(history)
  {
    var d := Dedupe(history);
    var r := Blacklist(history);
    assert r == KeepLast(d, MaxBlacklist);
    forall i | 0 <= i < |r| ensures r[i] in history {
      assert r[i] == d[|d| - |r| + i];
    }
  }

  /** The blacklist lists openers in the order in which they first appear in the history. */
  lemma BlacklistFirstOccurrenceOrder(history: seq<string>)
    ensures forall i, j :: 0 <= i < j < |Blacklist(history)| ==>
      IndexOf(history, Blacklist(history)[i]) < IndexOf(history, Blacklist(history)[j])
  {
    var d := Dedupe(history);
    var r := Blacklist(history);
    assert r == KeepLast(d, MaxBlacklist);
    var off := |d| - |r|;
    assert r == d[off..];
    DedupeFirstOccurrenceOrder(history);
    forall i, j | 0 <= i < j < |r|
      ensures IndexOf(history, r[i]) < IndexOf(history, r[j])
    {
      assert r[i] == d[off + i] && r[j] == d[off + j];
      assert off + i < off + j < |d|;
    }
  }

  // ---------------------------------------------------------------------------
  // Prompt assembly

  datatype Prompt = Prompt(role: string, content: string)

  function SystemPrompt(content: string): Prompt { Prompt("system", content) }

  /** The tool-result prompt added when a tool ran. */
  function ToolResultPrompt(output: string): Prompt { SystemPrompt("TOOL RESULT:\n" + output) }

  const RestrictionTitle: string := "DYNAMIC OPENER RESTRICTIONS:\n"
  const RestrictionLead: string := "- Do NOT begin your response with any of the following:\n"
  const RestrictionTail: string := "\n- Rewrite the opening if necessary."

  /** The bullet line of one blacklisted opener. */
  function Bullet(opener: string): string { "\U{2022} " + opener }

  /** One bullet line per blacklisted opener. */
  function Bullets(blacklist: seq<string>): (r: seq<string>)
    ensures |r| == |blacklist|
    ensures forall i :: 0 <= i < |blacklist| ==> r[i] == Bullet(blacklist[i])
  {
    seq(|blacklist|, i requires 0 <= i < |blacklist| => Bullet(blacklist[i]))
  }

  /** Where the bullet line of the `i`-th blacklisted opener starts in the restriction prompt. */
  function BulletAt(blacklist: seq<string>, i: nat): nat
    requires i < |blacklist|
  {
    |RestrictionTitle + RestrictionLead| + JoinOffset(Bullets(blacklist), "\n", i)
  }

  /** The text before the bullets ends a line, and the text after them starts one. */
  lemma RestrictionLinesAround()
    ensures var head := RestrictionTitle + RestrictionLead; head != [] && head[|head| - 1] == '\n'
    ensures RestrictionTail != [] && RestrictionTail[0] == '\n'
  {
    var head := RestrictionTitle + RestrictionLead;
    assert head[|head| - 1] == RestrictionLead[|RestrictionLead| - 1];
  }

  /** The blacklisted openers' bullet lines appear in blacklist order. */
  lemma RestrictionLinesInOrder(blacklist: seq<string>, i: nat, j: nat)
    requires i < j < |blacklist|
    ensures BulletAt(blacklist, i) + |Bullet(blacklist[i])| < BulletAt(blacklist, j)
    decreases j
  {
    var bs := Bullets(blacklist);
    if i + 1 < j {
      RestrictionLinesInOrder(blacklist, i, j - 1);
    }
    assert JoinOffset(bs, "\n", j) == JoinOffset(bs, "\n", j - 1) + |bs[j - 1]| + 1;
  }

  /**
   * The opener-restriction prompt: the title and the instruction, then one bullet line
   * per blacklisted opener in blacklist order, then the rewrite instruction.
   */
  function OpenerRestrictionPrompt(blacklist: seq<string>): (p: Prompt)
    ensures p.role == "system"
    ensures StartsWith(p.content, RestrictionTitle + RestrictionLead)
    ensures EndsWith(p.content, RestrictionTail)
    ensures forall i :: 0 <= i < |blacklist| ==> LineAt(p.content, Bullets(blacklist)[i], BulletAt(blacklist, i))
  {
    var head := RestrictionTitle + RestrictionLead;
    var bs := Bullets(blacklist);
    AffixesOfConcat(head, Join(bs, "\n"), RestrictionTail);
    RestrictionLinesAround();
    FramedLines(head, bs, RestrictionTail);
    SystemPrompt(head + Join(bs, "\n") + RestrictionTail)
  }

  /** Python's `list.insert(i, x)`: the position `x` ends up at. */
  function InsertIndex(n: nat, i: int): (j: nat)
    ensures j <= n
  {
    if i >= 0 then (if i <= n then i else n)
    else if n + i >= 0 then n + i else 0
  }

  /** Python's `list.insert(i, x)`. */
  function Insert<T>(xs: seq<T>, i: int, x: T): (r: seq<T>)
    ensures |r| == |xs| + 1
    ensures r[InsertIndex(|xs|, i)] == x
    ensures r[..InsertIndex(|xs|, i)] + r[InsertIndex(|xs|, i) + 1..] == xs
  {
    var j := InsertIndex(|xs|, i);
    var r := xs[..j] + [x] + xs[j..];
    assert r[..j] == xs[..j] && r[j + 1..] == xs[j..];
    r
  }

  /** The prompts `handle_chat` starts from: personality, emotes and task prompts as enabled. */
  function LeadingPrompts(personality: seq<Prompt>, usePersonality: bool, emotes: Prompt, useEmotes: bool,
                          task: Option<Prompt>): seq<Prompt>
  {
    (if usePersonality then personality else [])
      + (if useEmotes then [emotes] else [])
      + (if task.Some? then [task.value] else [])
  }

  /** The tool-result prompt, when a tool ran. */
  function ToolPrompts(toolOutput: Option<string>): (r: seq<Prompt>)
    ensures |r| <= 1
  {
    if toolOutput.Some? then [ToolResultPrompt(toolOutput.value)] else []
  }

  /** The opener-restriction prompt, when the blacklist is not empty. */
  function RestrictionPrompts(blacklist: seq<string>): (r: seq<Prompt>)
    ensures |r| <= 1
  {
    if blacklist != [] then [OpenerRestrictionPrompt(blacklist)] else []
  }

  /** `insert(-1, x)` on a non-empty list puts `x` just before the last element. */
  lemma InsertBeforeLast<T>(front: seq<T>, last: T, x: T)
    ensures Insert(front + [last], -1, x) == front + [x] + [last]
  {
    var xs := front + [last];
    assert InsertIndex(|xs|, -1) == |front|;
    assert xs[..|front|] == front;
    assert xs[|front|..] == [last];
  }

  /** `insert(-1, x)` for the prompt in `extra`, if there is one. */
  function InsertBeforeLastIf(xs: seq<Prompt>, extra: seq<Prompt>): (r: seq<Prompt>)
    requires |extra| <= 1
    ensures xs != [] ==> r != [] && r[|r| - 1] == xs[|xs| - 1]
  {
    if extra == [] then xs
    else
      InsertKeepsLast(xs, extra[0]);
      Insert(xs, -1, extra[0])
  }

  /** `insert(-1, x)` leaves the last element of a non-empty list last. */
  lemma InsertKeepsLast<T>(xs: seq<T>, x: T)
    ensures xs != [] ==> Insert(xs, -1, x)[|xs|] == xs[|xs| - 1]
  {
    if xs != [] {
      InsertBeforeLast(xs[..|xs| - 1], xs[|xs| - 1], x);
      assert xs[..|xs| - 1] + [xs[|xs| - 1]] == xs;
    }
  }

  /**
   * `handle_chat`'s prompt list: the leading prompts, then the context; the tool
   * result and then the opener restriction are each inserted before the last element.
   */
  function AssemblePrompts(personality: seq<Prompt>, usePersonality: bool, emotes: Prompt, useEmotes: bool,
                           task: Option<Prompt>, context: Prompt, toolOutput: Option<string>,
                           blacklist: seq<string>): (r: seq<Prompt>)
    ensures r != [] && r[|r| - 1] == context
  {
    var base := LeadingPrompts(personality, usePersonality, emotes, useEmotes, task) + [context];
    InsertBeforeLastIf(InsertBeforeLastIf(base, ToolPrompts(toolOutput)), RestrictionPrompts(blacklist))
  }

  /** Inserting the optional prompt before the last element of `front + [last]`. */
  lemma InsertBeforeLastIfOf(front: seq<Prompt>, last: Prompt, extra: seq<Prompt>)
    requires |extra| <= 1
    ensures InsertBeforeLastIf(front + [last], extra) == front + extra + [last]
  {
    if extra != [] {
      InsertBeforeLast(front, last, extra[0]);
      assert extra == [extra[0]];
    }
  }

  /** The order of the assembled prompts, stated as one concatenation: the context always comes last. */
  lemma AssemblePromptsOrder(personality: seq<Prompt>, usePersonality: bool, emotes: Prompt, useEmotes: bool,
                             task: Option<Prompt>, context: Prompt, toolOutput: Option<string>,
                             blacklist: seq<string>)
    ensures AssemblePrompts(personality, usePersonality, emotes, useEmotes, task, context, toolOutput, blacklist)
      == LeadingPrompts(personality, usePersonality, emotes, useEmotes, task)
       + ToolPrompts(toolOutput) + RestrictionPrompts(blacklist) + [context]
  {
    var front := LeadingPrompts(personality, usePersonality, emotes, useEmotes, task);
    var tool := ToolPrompts(toolOutput);
    var restriction := RestrictionPrompts(blacklist);
    InsertBeforeLastIfOf(front, context, tool);
    InsertBeforeLastIfOf(front + tool, context, restriction);
  }

  /** The working-memory prompt `chat` adds. */
  function MemoryPrompt(memory: string): Prompt
  {
    SystemPrompt("MEMORY (REFERENCE ONLY):\n" + (if memory == [] then "NONE" else memory))
  }

  /** `chat`: the memory prompt is inserted at index 1. */
  function ChatPrompts(prompts: seq<Prompt>, memory: string): (r: seq<Prompt>)
    ensures |r| == |prompts| + 1
    ensures prompts != [] ==> r[0] == prompts[0] && r[1] == MemoryPrompt(memory) && r[2..] == prompts[1..]
    ensures prompts == [] ==> r == [MemoryPrompt(memory)]
  {
    Insert(prompts, 1, MemoryPrompt(memory))
  }

  /** Whatever `handle_chat` assembled, the context is still the last prompt sent. */
  lemma ChatKeepsContextLast(personality: seq<Prompt>, usePersonality: bool, emotes: Prompt, useEmotes: bool,
                             task: Option<Prompt>, context: Prompt, toolOutput: Option<string>,
                             blacklist: seq<string>, memory: string)
    ensures var ps := AssemblePrompts(personality, usePersonality, emotes, useEmotes, task, context, toolOutput, blacklist);
      var sent := ChatPrompts(ps, memory);
      sent[1] == MemoryPrompt(memory) && (|ps| >= 2 ==> sent[|sent| - 1] == context)
  {
    var ps := AssemblePrompts(personality, usePersonality, emotes, useEmotes, task, context, toolOutput, blacklist);
    var sent := ChatPrompts(ps, memory);
    if |ps| >= 2 {
      assert sent[|sent| - 1] == sent[2..][|sent| - 3] == ps[1..][|ps| - 2];
    }
  }

  // ---------------------------------------------------------------------------
  // Tool decisions

  /**
   * Removes an opening "```", the language tag after it and the whitespace
   * after that, as `^```[a-zA-Z0-9]*\s*` does: what is left is a tail of the
   * text that starts with no whitespace.
   */
  function DropOpeningFence(s: string): (r: string)
    requires StartsWith(s, "```")
    ensures |r| <= |s| - 3 && r == s[|s| - |r|..]
    ensures r == [] || !IsSpace(r[0])
  {
    DropWhile(DropWhile(s[3..], IsAlnum), IsSpace)
  }

  /** Removes a final "```" and the whitespace before it, as `\s*```$` does. */
  function DropClosingFence(s: string): (r: string)
    ensures |r| <= |s|
    ensures !EndsWith(s, "```") ==> r == s
    ensures EndsWith(s, "```") ==> |r| <= |s| - 3 && r == s[..|r|] && (r == [] || !IsSpace(r[|r| - 1]))
    ensures EndsWith(s, "```") ==> forall i :: |r| <= i < |s| - 3 ==> IsSpace(s[i])
  {
    if EndsWith(s, "```") then RStrip(s[..|s| - 3]) else s
  }

  /** The text a reply is cut down to before it is read as JSON: the fences come off. */
  function Unfenced(response: string): (r: string)
    ensures StartsWith(Strip(response), "```") ==> |r| <= |Strip(response)| - 3
    ensures StartsWith(Strip(response), "```") ==> r == DropClosingFence(DropOpeningFence(Strip(response)))
    ensures !StartsWith(Strip(response), "```") ==> r == Strip(response)
  {
    var cleaned := Strip(response);
    if StartsWith(cleaned, "```") then DropClosingFence(DropOpeningFence(cleaned)) else cleaned
  }

  /** A one-character pattern occurs exactly where that character is. */
  lemma OccursAtChar(s: string, c: char, i: nat)
    requires i < |s|
    ensures OccursAt(s, [c], i) <==> s[i] == c
  {
    assert s[i..i + 1] == [s[i]];
  }

  /** Finding a one-character pattern: the first position holding that character. */
  lemma FindChar(s: string, c: char)
    ensures Find(s, [c]).Some? ==> Find(s, [c]).value < |s| && s[Find(s, [c]).value] == c
    ensures Find(s, [c]).Some? ==> forall j :: 0 <= j < Find(s, [c]).value ==> s[j] != c
    ensures Find(s, [c]).None? ==> forall j :: 0 <= j < |s| ==> s[j] != c
  {
    var r := Find(s, [c]);
    if r.Some? {
      OccursAtChar(s, c, r.value);
      forall j | 0 <= j < r.value ensures s[j] != c {
        OccursAtChar(s, c, j);
      }
    } else {
      forall j | 0 <= j < |s| ensures s[j] != c {
        OccursAtChar(s, c, j);
        assert !OccursAt(s, [c], j);
      }
    }
  }

  /** Finding a one-character pattern from the right: the last position holding that character. */
  lemma RFindChar(s: string, c: char)
    ensures RFind(s, [c]).Some? ==> RFind(s, [c]).value < |s| && s[RFind(s, [c]).value] == c
    ensures RFind(s, [c]).Some? ==> forall j :: RFind(s, [c]).value < j < |s| ==> s[j] != c
    ensures RFind(s, [c]).None? ==> forall j :: 0 <= j < |s| ==> s[j] != c
  {
    var r := RFind(s, [c]);
    if r.Some? {
      OccursAtChar(s, c, r.value);
      forall j | r.value < j < |s| ensures s[j] != c {
        OccursAtChar(s, c, j);
      }
    } else {
      forall j | 0 <= j < |s| ensures s[j] != c {
        OccursAtChar(s, c, j);
        assert !OccursAt(s, [c], j);
      }
    }
  }

  /** Without a "{" before a "}" there is no brace pair in order. */
  lemma NoBracePair(cleaned: string)
    requires Find(cleaned, "{").None? || RFind(cleaned, "}").None? || RFind(cleaned, "}").value < Find(cleaned, "{").value
    ensures forall i, j :: 0 <= i <= j < |cleaned| ==> !(cleaned[i] == '{' && cleaned[j] == '}')
  {
    FindChar(cleaned, '{');
    RFindChar(cleaned, '}');
    forall i, j | 0 <= i <= j < |cleaned| && cleaned[i] == '{'
      ensures cleaned[j] != '}'
    {
    }
  }

  /** Cutting at the first "{" and after the last "}" leaves no "{" before and no "}" after. */
  lemma SpanSplits(cleaned: string, start: nat, end: nat)
    requires start <= end < |cleaned|
    requires forall k :: 0 <= k < start ==> cleaned[k] != '{'
    requires forall k :: end < k < |cleaned| ==> cleaned[k] != '}'
    ensures exists a, b :: cleaned == a + cleaned[start..end + 1] + b && '{' !in a && '}' !in b
  {
    var a, b := cleaned[..start], cleaned[end + 1..];
    assert cleaned == a + cleaned[start..end + 1] + b;
    assert '{' !in a by {
      forall k | 0 <= k < |a| ensures a[k] != '{' { assert a[k] == cleaned[k]; }
    }
    assert '}' !in b by {
      forall k | 0 <= k < |b| ensures b[k] != '}' { assert b[k] == cleaned[end + 1 + k]; }
    }
  }

  /**
   * The span from the first "{" to the last "}": present exactly when some "{"
   * comes at or before some "}", and then the text splits into a part without
   * "{", the span, and a part without "}".
   */
  function BraceSpan(cleaned: string): (r: Option<string>)
    ensures r.Some? ==> |r.value| >= 2 && r.value[0] == '{' && r.value[|r.value| - 1] == '}'
    ensures r.None? <==> forall i, j :: 0 <= i <= j < |cleaned| ==> !(cleaned[i] == '{' && cleaned[j] == '}')
    ensures r.Some? ==> exists a, b :: cleaned == a + r.value + b && '{' !in a && '}' !in b
  {
    var start := Find(cleaned, "{");
    var end := RFind(cleaned, "}");
    if start.None? || end.None? || end.value < start.value then
      NoBracePair(cleaned);
      None
    else
      FindChar(cleaned, '{');
      RFindChar(cleaned, '}');
      SpanSplits(cleaned, start.value, end.value);
      assert !(forall i, j :: 0 <= i <= j < |cleaned| ==> !(cleaned[i] == '{' && cleaned[j] == '}')) by {
        assert cleaned[start.value] == '{' && cleaned[end.value] == '}';
      }
      Some(cleaned[start.value..end.value + 1])
  }

  /** A braced text is its own span. */
  lemma BraceSpanWhole(s: string)
    requires |s| >= 2 && s[0] == '{' && s[|s| - 1] == '}'
    ensures BraceSpan(s) == Some(s)
  {
    OccursAtChar(s, '{', 0);
    OccursAtChar(s, '}', |s| - 1);
    assert Find(s, "{") == Some(0);
    var end := RFind(s, "}");
    assert end.Some? by { assert OccursAt(s, "}", |s| - 1); }
    assert end.value == |s| - 1;
    assert s[0..end.value + 1] == s;
  }

  /**
   * `_parse_tool_response` up to the JSON decoding: `None` for an empty reply,
   * otherwise the span from the first "{" to the last "}" when both exist in
   * that order, else the whole unfenced text.
   */
  function ToolCandidate(response: string): (r: Option<string>)
    ensures response == [] <==> r.None?
    ensures response != [] && BraceSpan(Unfenced(response)).Some? ==> r == BraceSpan(Unfenced(response))
    ensures response != [] && BraceSpan(Unfenced(response)).None? ==> r == Some(Unfenced(response))
  {
    if response == [] then None
    else
      var cleaned := Unfenced(response);
      match BraceSpan(cleaned)
      case Some(span) => Some(span)
      case None => Some(cleaned)
  }

  /** A braced text is its own candidate, so the extraction is idempotent on the spans it extracts. */
  lemma BracedIsOwnCandidate(s: string)
    requires |s| >= 2 && s[0] == '{' && s[|s| - 1] == '}'
    ensures ToolCandidate(s) == Some(s)
  {
    StripStripped(s);
    assert !StartsWith(s, "```");
    assert Unfenced(s) == s;
    BraceSpanWhole(s);
  }

  lemma SpanIsOwnCandidate(cleaned: string)
    requires BraceSpan(cleaned).Some?
    ensures ToolCandidate(BraceSpan(cleaned).value) == BraceSpan(cleaned)
  {
    BracedIsOwnCandidate(BraceSpan(cleaned).value);
  }

  lemma {:induction false} CandidateIdempotent(response: string)
    requires ToolCandidate(response).Some? && BraceSpan(Unfenced(response)).Some?
    ensures ToolCandidate(ToolCandidate(response).value) == ToolCandidate(response)
  {
    SpanIsOwnCandidate(Unfenced(response));
    assert ToolCandidate(response) == BraceSpan(Unfenced(response));
  }

  /** A JSON object in a "```lang" fence comes out whole. */
  lemma FencedObject(lang: string, body: string)
    requires forall i :: 0 <= i < |lang| ==> IsAlnum(lang[i])
    requires |body| >= 2 && body[0] == '{' && body[|body| - 1] == '}'
    ensures ToolCandidate("```" + lang + "\n" + body + "\n```") == Some(body)
  {
    var s := "```" + lang + "\n" + body + "\n```";
    OpeningFenceOff(lang, body);
    FencedUnfenced(lang, body);
    BraceSpanWhole(body);
    CandidateOfBraced(s, body);
  }

  /** Both fences come off a fenced object. */
  lemma FencedUnfenced(lang: string, body: string)
    requires |body| >= 2 && body[0] == '{' && body[|body| - 1] == '}'
    requires DropOpeningFence("```" + lang + "\n" + body + "\n```") == body + "\n```"
    ensures Unfenced("```" + lang + "\n" + body + "\n```") == body
  {
    var s := "```" + lang + "\n" + body + "\n```";
    var mid := body + "\n```";
    assert Strip(s) == s && StartsWith(s, "```") by {
      FencedStripped(lang, body);
    }
    assert DropClosingFence(mid) == body by {
      ClosingFenceOff(body);
    }
    UnfencedSteps(s, mid, body);
  }

  /** The two fences come off in turn. */
  lemma UnfencedSteps(s: string, mid: string, body: string)
    requires Strip(s) == s && StartsWith(s, "```")
    requires DropOpeningFence(s) == mid && DropClosingFence(mid) == body
    ensures Unfenced(s) == body
  {
  }

  /** A reply whose unfenced text is a braced span yields that span. */
  lemma CandidateOfBraced(s: string, body: string)
    requires s != [] && Unfenced(s) == body && BraceSpan(body) == Some(body)
    ensures ToolCandidate(s) == Some(body)
  {
  }

  lemma FencedStripped(lang: string, body: string)
    ensures Strip("```" + lang + "\n" + body + "\n```") == "```" + lang + "\n" + body + "\n```"
    ensures StartsWith("```" + lang + "\n" + body + "\n```", "```")
  {
    var s := "```" + lang + "\n" + body + "\n```";
    assert s[0] == '`' && s[|s| - 1] == '`';
    StripStripped(s);
    assert s[..3] == "```";
  }

  lemma OpeningFenceOff(lang: string, body: string)
    requires forall i :: 0 <= i < |lang| ==> IsAlnum(lang[i])
    requires body != [] && body[0] == '{'
    ensures DropOpeningFence("```" + lang + "\n" + body + "\n```") == body + "\n```"
  {
    var s := "```" + lang + "\n" + body + "\n```";
    var rest := body + "\n```";
    var afterLang := "\n" + rest;
    assert s[..3] == "```";
    assert s[3..] == lang + afterLang;
    DropWhileAll(lang, afterLang, IsAlnum);
    DropWhileAll("\n", rest, IsSpace);
  }

  lemma ClosingFenceOff(body: string)
    requires body != [] && !IsSpace(body[|body| - 1])
    ensures DropClosingFence(body + "\n```") == body
  {
    var t := body + "\n```";
    assert t[|t| - 3..] == "```";
    assert t[..|t| - 3] == body + "\n";
    var u := body + "\n";
    assert u[..|u| - 1] == body;
    assert TrailingSpaces(body) == 0;
    assert TrailingSpaces(u) == 1;
  }

  /** The fallback reading: single quotes become double quotes. */
  function SingleQuotesAsDouble(candidate: string): string
  {
    ReplaceAll(candidate, "'", "\"")
  }

  /** The fallback changes nothing in a candidate without single quotes. */
  lemma FallbackWithoutQuotes(candidate: string)
    requires forall i :: 0 <= i < |candidate| ==> candidate[i] != '\''
    ensures SingleQuotesAsDouble(candidate) == candidate
  {
    assert !Contains(candidate, "'") by {
      forall i: nat | i <= |candidate| ensures !OccursAt(candidate, "'", i) {
        if i < |candidate| {
          assert candidate[i..i + 1] == [candidate[i]];
        }
      }
    }
    ReplaceAbsent(candidate, "'", "\"");
  }

  // ---------------------------------------------------------------------------
  // Policy routing

  datatype Route = AddRoute | GetRoute | NoneRoute

  /** Unpacking the templates into three raises `ValueError` for any other count. */
  datatype PolicyError = TemplateCount(count: nat)

  const Placeholder: string := "{FOUND_POLICIES}"

  /** The reply's first whitespace-separated token, or "NONE" for a blank reply. */
  function SearchTerm(reply: string): (t: string)
    ensures t != [] && NoSpace(t)
  {
    var terms := Split(Strip(reply));
    if terms == [] then "NONE" else terms[0]
  }

  /** A reply that starts with a word names that word as the search term. */
  lemma SearchTermOfWord(w: string, rest: string)
    requires w != [] && NoSpace(w) && (rest == [] || IsSpace(rest[0]))
    ensures SearchTerm(w + rest) == w
  {
    var s := w + rest;
    var st := Strip(s);
    var a := LeadingSpaces(s);
    assert a == 0 by { assert !IsSpace(s[0]); }
    var t := TrailingSpaces(s);
    assert |s| - t >= |w| by {
      assert !IsSpace(s[|w| - 1]);
    }
    assert st == s[..|s| - t];
    assert st[..|w|] == w;
    if |st| > |w| {
      assert st[|w|] == rest[0];
      TokenEndOfWord(w, st[|w|..]);
      assert st == w + st[|w|..];
    } else {
      TokenEndOfWord(w, []);
      assert st == w + [];
    }
    SplitOfLeadingToken(st);
  }

  /** The policy lines: "name: text" for each match, joined by newlines. */
  function FoundPolicies(policies: seq<(string, string)>): string
  {
    Join(seq(|policies|, i requires 0 <= i < |policies| => policies[i].0 + ": " + policies[i].1), "\n")
  }

  /** True when a roll of `random.randint(1, 100)` drawn by `pick` falls at or below 40. */
  predicate RollsAdd(pick: nat) { 1 + pick % 100 <= 40 }

  /**
   * `handle_policy` after the search-term request: the templates are (add, found,
   * none). A "NONE" term routes to add on a roll of at most 40 and to none
   * otherwise; a term without matching policies routes to add; matches route to
   * found, its placeholder replaced by the policy lines. The templates are values,
   * so the caller's copies never change.
   */
  function HandlePolicy(templates: seq<Prompt>, reply: string, pick: nat, policies: seq<(string, string)>)
    : (r: Result<(Prompt, Route), PolicyError>)
    ensures r.Err? <==> |templates| != 3
    ensures r.Ok? ==> (r.value.1 == GetRoute <==> Upper(SearchTerm(reply)) != "NONE" && policies != [])
    ensures r.Ok? && r.value.1 == AddRoute ==> r.value.0 == templates[0]
    ensures r.Ok? && r.value.1 == NoneRoute ==> r.value.0 == templates[2] && Upper(SearchTerm(reply)) == "NONE"
    ensures r.Ok? && r.value.1 == GetRoute ==>
      r.value.0 == templates[1].(content := ReplaceAll(templates[1].content, Placeholder, FoundPolicies(policies)))
    ensures r.Ok? && Upper(SearchTerm(reply)) == "NONE" ==> (r.value.1 == AddRoute <==> RollsAdd(pick))
    ensures r.Ok? && Upper(SearchTerm(reply)) != "NONE" && policies == [] ==> r.value.1 == AddRoute
  {
    if |templates| != 3 then Err(TemplateCount(|templates|))
    else
      var add, found, none := templates[0], templates[1], templates[2];
      if Upper(SearchTerm(reply)) == "NONE" then
        if RollsAdd(pick) then Ok((add, AddRoute)) else Ok((none, NoneRoute))
      else if policies == [] then Ok((add, AddRoute))
      else Ok((found.(content := ReplaceAll(found.content, Placeholder, FoundPolicies(policies))), GetRoute))
  }

  /** A template with one placeholder gets the policy lines spliced in at that spot. */
  lemma FoundPromptSplice(templates: seq<Prompt>, reply: string, pick: nat, policies: seq<(string, string)>,
                          pre: string, post: string)
    requires |templates| == 3 && Upper(SearchTerm(reply)) != "NONE" && policies != []
    requires templates[1].content == pre + Placeholder + post
    requires forall i: nat :: i < |pre| ==> !OccursAt(pre + Placeholder + post, Placeholder, i)
    requires !Contains(post, Placeholder)
    ensures HandlePolicy(templates, reply, pick, policies).Ok?
    ensures HandlePolicy(templates, reply, pick, policies).value.0.content == pre + FoundPolicies(policies) + post
  {
    ReplaceSingle(pre, Placeholder, post, FoundPolicies(policies));
  }

  /** True when the routing for `pick` succeeds and chooses the add template. */
  predicate RoutesToAdd(templates: seq<Prompt>, reply: string, pick: nat, policies: seq<(string, string)>)
  {
    var r := HandlePolicy(templates, reply, pick, policies);
    r.Ok? && r.value.1 == AddRoute
  }

  /** How many of the picks `p`, ..., `p + n - 1` route to add. */
  function AddPicks(templates: seq<Prompt>, reply: string, policies: seq<(string, string)>, p: nat, n: nat): (c: nat)
    ensures c <= n
    decreases n
  {
    if n == 0 then 0
    else AddPicks(templates, reply, policies, p, n - 1) + (if RoutesToAdd(templates, reply, p + n - 1, policies) then 1 else 0)
  }

  /** How many of the picks `p`, ..., `p + n - 1` roll at or below 40. */
  function AddRolls(p: nat, n: nat): (c: nat)
    ensures c <= n
    decreases n
  {
    if n == 0 then 0 else AddRolls(p, n - 1) + (if RollsAdd(p + n - 1) then 1 else 0)
  }

  /** For a "NONE" term the picks that route to add are exactly those that roll add. */
  lemma {:induction false} AddPicksAreRolls(templates: seq<Prompt>, reply: string, policies: seq<(string, string)>, p: nat, n: nat)
    requires |templates| == 3 && Upper(SearchTerm(reply)) == "NONE"
    ensures AddPicks(templates, reply, policies, p, n) == AddRolls(p, n)
    decreases n
  {
    if n > 0 {
      AddPicksAreRolls(templates, reply, policies, p, n - 1);
    }
  }

  /** Counting over a range splits at any point inside it. */
  lemma {:induction false} AddRollsSplit(p: nat, a: nat, b: nat)
    ensures AddRolls(p, a + b) == AddRolls(p, a) + AddRolls(p + a, b)
    decreases b
  {
    if b > 0 {
      AddRollsSplit(p, a, b - 1);
    }
  }

  /** A range of picks that all roll add counts in full. */
  lemma {:induction false} AddRollsAll(p: nat, n: nat)
    requires forall k :: p <= k < p + n ==> RollsAdd(k)
    ensures AddRolls(p, n) == n
    decreases n
  {
    if n > 0 {
      AddRollsAll(p, n - 1);
    }
  }

  /** A range of picks none of which rolls add counts nothing. */
  lemma {:induction false} AddRollsNone(p: nat, n: nat)
    requires forall k :: p <= k < p + n ==> !RollsAdd(k)
    ensures AddRolls(p, n) == 0
    decreases n
  {
    if n > 0 {
      AddRollsNone(p, n - 1);
    }
  }

  /** Sliding a window one pick on leaves its count alone when the picks leaving and entering roll alike. */
  lemma AddRollsSlide(q: nat, n: nat)
    requires RollsAdd(q) == RollsAdd(q + n)
    ensures AddRolls(q + 1, n) == AddRolls(q, n)
  {
    AddRollsSplit(q, 1, n);
    AddRollsSplit(q, n, 1);
    assert AddRolls(q, 1) == (if RollsAdd(q) then 1 else 0);
    assert AddRolls(q + n, 1) == (if RollsAdd(q + n) then 1 else 0);
  }

  /** A pick below 100 rolls its own value plus one. */
  lemma SmallPick(k: nat)
    requires k < 100
    ensures RollsAdd(k) <==> k < 40
  {
    assert k % 100 == k;
  }

  /** Picks 100 apart roll alike. */
  lemma PickPeriod(q: nat)
    ensures RollsAdd(q) == RollsAdd(q + 100)
  {
    assert (q + 100) % 100 == q % 100;
  }

  /** All of the picks 0 to 39 roll add. */
  lemma AddRollsLow(p: nat)
    requires p == 0
    ensures AddRolls(p, 40) == 40
  {
    forall k | p <= k < p + 40 ensures RollsAdd(k) { SmallPick(k); }
    AddRollsAll(p, 40);
  }

  /** None of the picks 40 to 99 rolls add. */
  lemma AddRollsHigh(p: nat)
    requires p == 40
    ensures AddRolls(p, 60) == 0
  {
    forall k | p <= k < p + 60 ensures !RollsAdd(k) { SmallPick(k); }
    AddRollsNone(p, 60);
  }

  /** The picks 0 to 99 hold exactly 40 that roll add: 0 to 39. */
  lemma AddRollsFirstHundred(p: nat)
    requires p == 0
    ensures AddRolls(p, 100) == 40
  {
    AddRollsLow(p);
    AddRollsHigh(p + 40);
    AddRollsSplit(p, 40, 60);
  }

  /** Any 100 consecutive picks hold exactly 40 that roll add. */
  lemma {:induction false} AddRollsHundred(p: nat)
    ensures AddRolls(p, 100) == 40
    decreases p
  {
    if p == 0 {
      AddRollsFirstHundred(p);
    } else {
      AddRollsHundred(p - 1);
      PickPeriod(p - 1);
      AddRollsSlide(p - 1, 100);
    }
  }

  /** A "NONE" term routes to add for exactly 40 of any 100 consecutive picks, and to none for the other 60. */
  lemma NoneRouteShare(templates: seq<Prompt>, reply: string, policies: seq<(string, string)>, p: nat)
    requires |templates| == 3 && Upper(SearchTerm(reply)) == "NONE"
    ensures AddPicks(templates, reply, policies, p, 100) == 40
  {
    AddPicksAreRolls(templates, reply, policies, p, 100);
    AddRollsHundred(p);
  }
}

=== FILE: common.dfy ===
/** Failure-carrying wrappers shared by every module of the model. */
module Common {

  /** A value that may be absent: Python's `None` versus a present value. */
  datatype Option<+T> = None | Some(value: T) {
    function GetOr(default: T): T {
      match this
      case Some(v) => v
      case None => default
    }
  }

  /** The outcome of an operation that can raise: `Err` stands for the exception. */
  datatype Result<+T, +E> = Ok(value: T) | Err(error: E)
}

=== FILE: discordbot.dfy ===
/**
 * The pure decisions of the Discord bot: reading a user-supplied clock time and
 * timezone code, matching banned words, classifying the argument of the quote
 * command and picking the image attachments of a message.
 */
module DiscordBot {
  import opened Common
  import opened Text
  import opened Numerals

  // ---------------------------------------------------------------------------
  // Timezone codes

  /** The ten codes both timezone tables know. */
  const KnownCodes: seq<string> := ["PST", "PDT", "EST", "EDT", "CST", "CDT", "MST", "MDT", "UTC", "GMT"]

  /** The IANA zone name table. */
  function TimezoneName(code: string): (r: Option<string>)
    ensures r.Some? <==> code in KnownCodes
    ensures r.Some? ==> r.value in ["America/Los_Angeles", "America/New_York", "America/Chicago", "America/Denver", "UTC", "Etc/GMT"]
  {
    if code == "PST" || code == "PDT" then Some("America/Los_Angeles")
    else if code == "EST" || code == "EDT" then Some("America/New_York")
    else if code == "CST" || code == "CDT" then Some("America/Chicago")
    else if code == "MST" || code == "MDT" then Some("America/Denver")
    else if code == "UTC" then Some("UTC")
    else if code == "GMT" then Some("Etc/GMT")
    else None
  }

  /** The fixed-offset table (hours from UTC) used when zone data is unavailable. */
  function TimezoneOffset(code: string): (r: Option<int>)
    ensures r.Some? <==> code in KnownCodes
    ensures r.Some? ==> -8 <= r.value <= 0
  {
    if code == "PST" then Some(-8)
    else if code == "PDT" then Some(-7)
    else if code == "EST" then Some(-5)
    else if code == "EDT" then Some(-4)
    else if code == "CST" then Some(-6)
    else if code == "CDT" then Some(-5)
    else if code == "MST" then Some(-7)
    else if code == "MDT" then Some(-6)
    else if code == "UTC" || code == "GMT" then Some(0)
    else None
  }

  /** Both tables cover exactly the same codes. */
  lemma TablesCoverSameCodes(code: string)
    ensures TimezoneName(code).Some? <==> code in KnownCodes
    ensures TimezoneOffset(code).Some? <==> code in KnownCodes
  {
  }

  /** Each daylight code is one hour ahead of its standard code and names the same zone. */
  lemma DaylightIsOneHourAhead(standard: string, daylight: string)
    requires (standard, daylight) in {("PST", "PDT"), ("EST", "EDT"), ("CST", "CDT"), ("MST", "MDT")}
    ensures TimezoneOffset(daylight).value == TimezoneOffset(standard).value + 1
    ensures TimezoneName(daylight) == TimezoneName(standard)
  {
  }

  /** A resolved zone: a named zone, or the fixed-offset fallback. */
  datatype Zone = Named(name: string) | FixedOffset(code: string, hours: int)

  datatype TimeError = BadFormat | BadMinute | BadHour12 | BadHour24 | UnknownTimezone(code: string)

  /**
   * Resolves a code: an unknown code is an error; a named zone is used when zone
   * data is available, else the fixed offset under the code's name.
   */
  function ResolveTimezone(code: string, zoneDataAvailable: bool): (r: Result<Zone, TimeError>)
    ensures r.Err? <==> code !in KnownCodes
    ensures r.Err? ==> r.error == UnknownTimezone(code)
    ensures r.Ok? && zoneDataAvailable ==> r.value.Named? && Some(r.value.name) == TimezoneName(code)
    ensures r.Ok? && !zoneDataAvailable ==>
      r.value.FixedOffset? && r.value.code == code && Some(r.value.hours) == TimezoneOffset(code)
    ensures r.Ok? && r.value.FixedOffset? ==> -8 <= r.value.hours <= 0
  {
    var name := TimezoneName(code);
    var offset := TimezoneOffset(code);
    if name.None? && offset.None? then Err(UnknownTimezone(code))
    else if name.Some? && zoneDataAvailable then Ok(Named(name.value))
    else if offset.None? then Err(UnknownTimezone(code))
    else Ok(FixedOffset(code, offset.value))
  }

  // ---------------------------------------------------------------------------
  // Clock times: `^\s*(\d{1,2})(?::(\d{2}))?\s*(am|pm)?\s*([A-Za-z]+)?\s*$`, case-insensitive

  /** The groups the time pattern captures. */
  datatype TimeFields = TimeFields(hour: string, minute: Option<string>, period: Option<string>, zone: Option<string>)

  /** The part after hour and minutes: an optional am/pm and an optional alphabetic zone code. */
  datatype Tail = Tail(period: Option<string>, zone: Option<string>)

  predicate IsPeriod(p: string) { p == "am" || p == "pm" }

  predicate IsLetters(w: string) { w != [] && forall i :: 0 <= i < |w| ==> IsLetter(w[i]) }

  predicate FieldsShape(f: TimeFields) {
    && IsDigitString(f.hour) && |f.hour| <= 2
    && (f.minute.Some? ==> |f.minute.value| == 2 && AllDigits(f.minute.value))
    && (f.period.Some? ==> IsPeriod(f.period.value))
    && (f.zone.Some? ==> IsLetters(f.zone.value))
  }

  /** `am` or `pm` in any case at the head of `u`. */
  predicate PeriodAt(u: string) {
    |u| >= 2 && (LowerChar(u[0]) == 'a' || LowerChar(u[0]) == 'p') && LowerChar(u[1]) == 'm'
  }

  /**
   * Matches `\s*(am|pm)?\s*([A-Za-z]+)?\s*$`. Taking the period and the longest
   * letter run first never loses a match the pattern's backtracking would find.
   */
  function MatchTail(s: string): (r: Option<Tail>)
    ensures r.Some? && r.value.period.Some? ==> IsPeriod(r.value.period.value)
    ensures r.Some? && r.value.zone.Some? ==> IsLetters(r.value.zone.value)
  {
    var u := DropWhile(s, IsSpace);
    if PeriodAt(u) then MatchZone(Some([LowerChar(u[0]), 'm']), u[2..]) else MatchZone(None, u)
  }

  /** Matches `\s*([A-Za-z]+)?\s*$`, keeping the period already read. */
  function MatchZone(period: Option<string>, w: string): (r: Option<Tail>)
    ensures r.Some? ==> r.value.period == period
    ensures r.Some? && r.value.zone.Some? ==> IsLetters(r.value.zone.value)
  {
    var v := DropWhile(w, IsSpace);
    var zone := TakeWhile(v, IsLetter);
    if DropWhile(v[|zone|..], IsSpace) != [] then None
    else Some(Tail(period, if zone == [] then None else Some(zone)))
  }

  /** One or two leading digits, greedily. */
  function HourLength(t: string): (n: nat)
    ensures n <= 2 && n <= |t|
    ensures n > 0 ==> IsDigitString(t[..n])
    ensures n == 0 <==> t == [] || !IsDigit(t[0])
  {
    if t == [] || !IsDigit(t[0]) then 0 else if |t| >= 2 && IsDigit(t[1]) then 2 else 1
  }

  /** `:mm` at the head of `rest`. */
  predicate MinuteAt(rest: string) {
    |rest| >= 3 && rest[0] == ':' && IsDigit(rest[1]) && IsDigit(rest[2])
  }

  /** The minutes group, when present. */
  function MinuteOf(rest: string): (r: Option<string>)
    ensures r.Some? ==> |r.value| == 2 && AllDigits(r.value)
  {
    if MinuteAt(rest) then Some(rest[1..3]) else None
  }

  /** The groups after the hour digits: optional minutes, then the tail. */
  function FieldsAfterHour(hour: string, rest: string): (r: Option<TimeFields>)
    requires IsDigitString(hour) && |hour| <= 2
    ensures r.Some? ==> FieldsShape(r.value)
  {
    var minute := MinuteOf(rest);
    var tail := MatchTail(if minute.Some? then rest[3..] else rest);
    if tail.None? then None
    else Some(TimeFields(hour, minute, tail.value.period, tail.value.zone))
  }

  /** The whole pattern; `None` when the text does not have the shape `h[:mm] [am|pm] [TZ]`. */
  function MatchTime(text: string): (r: Option<TimeFields>)
    ensures r.Some? ==> FieldsShape(r.value)
  {
    var t := DropWhile(text, IsSpace);
    var n := HourLength(t);
    if n == 0 then None else FieldsAfterHour(t[..n], t[n..])
  }

  /** The 24-hour clock hour a validated hour and period denote. */
  function ClockHour(raw: nat, period: Option<string>): (h: nat)
    requires period.Some? ==> IsPeriod(period.value) && 1 <= raw <= 12
    requires period.None? ==> raw <= 23
    ensures h < 24
    ensures period == Some("am") ==> h < 12
    ensures period == Some("pm") ==> 12 <= h
  {
    if period.Some? then raw % 12 + (if period.value == "pm" then 12 else 0)
    else if raw == 12 then 0
    else raw
  }

  /** A parsed local clock time with its (upper-cased) zone code and resolved zone. */
  datatype LocalTime = LocalTime(hour: nat, minute: nat, code: string, zone: Zone)

  /** The checks after matching, in the source's order: minutes, hour range, then the zone. */
  function FromFields(f: TimeFields, zoneDataAvailable: bool): (r: Result<LocalTime, TimeError>)
    requires FieldsShape(f)
    ensures r.Ok? ==> r.value.hour < 24 && r.value.minute < 60 && r.value.code in KnownCodes
    ensures r.Ok? && f.zone.None? ==> r.value.code == "PST"
    ensures r != Err(BadFormat)
  {
    var raw := DigitsValue(f.hour);
    var minute := if f.minute.Some? then DigitsValue(f.minute.value) else 0;
    var code := Upper(f.zone.GetOr("PST"));
    if minute > 59 then Err(BadMinute)
    else if f.period.Some? && (raw < 1 || raw > 12) then Err(BadHour12)
    else if f.period.None? && raw > 23 then Err(BadHour24)
    else
      match ResolveTimezone(code, zoneDataAvailable)
      case Err(e) => Err(e)
      case Ok(z) => Ok(LocalTime(ClockHour(raw, f.period), minute, code, z))
  }

  /** Reads a clock time like `17:30 PST` or `5:30 PM EST`. */
  function ParseTime(text: string, zoneDataAvailable: bool): (r: Result<LocalTime, TimeError>)
    ensures MatchTime(text).None? <==> r == Err(BadFormat)
    ensures r.Ok? ==> r.value.hour < 24 && r.value.minute < 60 && r.value.code in KnownCodes
    ensures r.Ok? && MatchTime(text).Some? && MatchTime(text).value.zone.None? ==> r.value.code == "PST"
  {
    match MatchTime(text)
    case None => Err(BadFormat)
    case Some(f) => FromFields(f, zoneDataAvailable)
  }

  // Text the parser is meant to accept, and what it yields

  /** Two-digit minutes, with a leading zero. */
  function TwoDigits(m: nat): (s: string)
    requires m < 100
    ensures |s| == 2 && AllDigits(s) && DigitsValue(s) == m
  {
    var s := [DigitChar(m / 10), DigitChar(m % 10)];
    assert s[..1] == [s[0]] && [s[0]][..0] == [];
    assert DigitsValue(s[..1]) == m / 10;
    s
  }

  function TailText(period: Option<string>, zone: Option<string>): string {
    (if period.Some? then " " + period.value else "") + (if zone.Some? then " " + zone.value else "")
  }

  /** `h:mm[ am|pm][ TZ]` */
  function TimeText(h: nat, m: nat, period: Option<string>, zone: Option<string>): string
    requires h < 100 && m < 100
  {
    NatToString(h) + ":" + TwoDigits(m) + TailText(period, zone)
  }

  /** The hour on a 12-hour clock face, and its period. */
  function Hour12(h: nat): nat { if h % 12 == 0 then 12 else h % 12 }

  function Meridiem(h: nat): string { if h < 12 then "am" else "pm" }

  lemma SpaceThen(w: string)
    requires w != [] && !IsSpace(w[0])
    ensures DropWhile(" " + w, IsSpace) == w
  {
    DropWhileAll(" ", w, IsSpace);
  }

  lemma WordTail(z: string)
    requires IsLetters(z)
    ensures DropWhile(z, IsSpace) == z
    ensures TakeWhile(z, IsLetter) == z
  {
    assert !IsSpace(z[0]);
    TakeWhileAll(z, [], IsLetter);
    assert z + [] == z;
  }

  lemma MatchZoneOf(period: Option<string>, z: string)
    requires IsLetters(z)
    ensures MatchZone(period, " " + z) == Some(Tail(period, Some(z)))
  {
    SpaceThen(z);
    WordTail(z);
    assert z[|z|..] == [];
  }

  lemma MatchTailBoth(p: string, z: string)
    requires IsPeriod(p) && IsLetters(z)
    ensures MatchTail(TailText(Some(p), Some(z))) == Some(Tail(Some(p), Some(z)))
  {
    var u := p + " " + z;
    assert TailText(Some(p), Some(z)) == " " + u;
    SpaceThen(u);
    assert PeriodAt(u) && [LowerChar(u[0]), 'm'] == p;
    assert u[2..] == " " + z;
    MatchZoneOf(Some(p), z);
  }

  lemma MatchTailPeriod(p: string)
    requires IsPeriod(p)
    ensures MatchTail(TailText(Some(p), None)) == Some(Tail(Some(p), None))
  {
    assert TailText(Some(p), None) == " " + p;
    SpaceThen(p);
    assert PeriodAt(p) && [LowerChar(p[0]), 'm'] == p;
    assert p[2..] == [];
  }

  lemma MatchTailZone(z: string)
    requires IsLetters(z) && !PeriodAt(z)
    ensures MatchTail(TailText(None, Some(z))) == Some(Tail(None, Some(z)))
  {
    assert TailText(None, Some(z)) == " " + z;
    SpaceThen(z);
    WordTail(z);
    assert z[|z|..] == [];
  }

  /** The tail pattern reads back a period and a zone code written after single spaces. */
  lemma MatchTailText(period: Option<string>, zone: Option<string>)
    requires period.Some? ==> IsPeriod(period.value)
    requires zone.Some? ==> IsLetters(zone.value)
    requires period.None? && zone.Some? ==> !PeriodAt(zone.value)
    ensures MatchTail(TailText(period, zone)) == Some(Tail(period, zone))
  {
    if period.Some? && zone.Some? {
      MatchTailBoth(period.value, zone.value);
    } else if period.Some? {
      MatchTailPeriod(period.value);
    } else if zone.Some? {
      MatchTailZone(zone.value);
    } else {
      assert TailText(period, zone) == [];
    }
  }

  lemma NatToStringShort(h: nat)
    requires h < 100
    ensures |NatToString(h)| == if h < 10 then 1 else 2
  {
  }

  lemma HourOfText(hs: string, rest: string)
    requires IsDigitString(hs) && |hs| <= 2 && rest != [] && rest[0] == ':'
    ensures MatchTime(hs + rest) == FieldsAfterHour(hs, rest)
  {
    var s := hs + rest;
    assert DropWhile(s, IsSpace) == s;
    assert HourLength(s) == |hs|;
    assert s[..|hs|] == hs && s[|hs|..] == rest;
  }

  lemma MinutesOfText(hs: string, ms: string, period: Option<string>, zone: Option<string>)
    requires IsDigitString(hs) && |hs| <= 2 && |ms| == 2 && AllDigits(ms)
    requires period.Some? ==> IsPeriod(period.value)
    requires zone.Some? ==> IsLetters(zone.value)
    requires period.None? && zone.Some? ==> !PeriodAt(zone.value)
    ensures FieldsAfterHour(hs, ":" + ms + TailText(period, zone)) == Some(TimeFields(hs, Some(ms), period, zone))
  {
    var rest := ":" + ms + TailText(period, zone);
    assert MinuteAt(rest);
    assert rest[1..3] == ms && rest[3..] == TailText(period, zone);
    assert MinuteOf(rest) == Some(ms);
    MatchTailText(period, zone);
  }

  /** The whole pattern reads back hour, minutes, period and zone written in the documented shape. */
  lemma MatchTimeText(h: nat, m: nat, period: Option<string>, zone: Option<string>)
    requires h < 100 && m < 100
    requires period.Some? ==> IsPeriod(period.value)
    requires zone.Some? ==> IsLetters(zone.value)
    requires period.None? && zone.Some? ==> !PeriodAt(zone.value)
    ensures MatchTime(TimeText(h, m, period, zone)) == Some(TimeFields(NatToString(h), Some(TwoDigits(m)), period, zone))
  {
    var hs, ms := NatToString(h), TwoDigits(m);
    var rest := ":" + ms + TailText(period, zone);
    assert TimeText(h, m, period, zone) == hs + rest;
    NatToStringShort(h);
    HourOfText(hs, rest);
    MinutesOfText(hs, ms, period, zone);
  }

  lemma KnownCodeShape(code: string)
    requires code in KnownCodes
    ensures IsLetters(code) && !PeriodAt(code) && Upper(code) == code
  {
    UpperOfUpper(code);
  }

  /** A matched time within range with a known code is accepted as it reads. */
  lemma FromFieldsAccepts(f: TimeFields, zoneDataAvailable: bool)
    requires FieldsShape(f) && f.minute.Some?
    requires DigitsValue(f.minute.value) <= 59
    requires f.period.Some? ==> 1 <= DigitsValue(f.hour) <= 12
    requires f.period.None? ==> DigitsValue(f.hour) <= 23
    requires Upper(f.zone.GetOr("PST")) in KnownCodes
    ensures FromFields(f, zoneDataAvailable) == Ok(LocalTime(ClockHour(DigitsValue(f.hour), f.period),
      DigitsValue(f.minute.value), Upper(f.zone.GetOr("PST")), ResolveTimezone(Upper(f.zone.GetOr("PST")), zoneDataAvailable).value))
  {
  }

  lemma ClockHourOfFace(h: nat)
    requires h < 24
    ensures ClockHour(Hour12(h), Some(Meridiem(h))) == h
  {
  }

  /** A 12-hour time with its zone code reads back as the 24-hour time it names. */
  lemma ParseTwelveHour(h: nat, m: nat, code: string, zoneDataAvailable: bool)
    requires h < 24 && m < 60 && code in KnownCodes
    ensures ParseTime(TimeText(Hour12(h), m, Some(Meridiem(h)), Some(code)), zoneDataAvailable)
      == Ok(LocalTime(h, m, code, ResolveTimezone(code, zoneDataAvailable).value))
  {
    KnownCodeShape(code);
    MatchTimeText(Hour12(h), m, Some(Meridiem(h)), Some(code));
    NatToStringValue(Hour12(h));
    ClockHourOfFace(h);
    FromFieldsAccepts(TimeFields(NatToString(Hour12(h)), Some(TwoDigits(m)), Some(Meridiem(h)), Some(code)), zoneDataAvailable);
  }

  /** A 24-hour time other than 12 o'clock reads back unchanged. */
  lemma ParseTwentyFourHour(h: nat, m: nat, code: string, zoneDataAvailable: bool)
    requires h < 24 && h != 12 && m < 60 && code in KnownCodes
    ensures ParseTime(TimeText(h, m, None, Some(code)), zoneDataAvailable)
      == Ok(LocalTime(h, m, code, ResolveTimezone(code, zoneDataAvailable).value))
  {
    KnownCodeShape(code);
    MatchTimeText(h, m, None, Some(code));
    NatToStringValue(h);
    FromFieldsAccepts(TimeFields(NatToString(h), Some(TwoDigits(m)), None, Some(code)), zoneDataAvailable);
  }

  /** Without a period, 12 o'clock is read as midnight. */
  lemma ParseTwelveWithoutPeriod(m: nat, code: string, zoneDataAvailable: bool)
    requires m < 60 && code in KnownCodes
    ensures ParseTime(TimeText(12, m, None, Some(code)), zoneDataAvailable)
      == Ok(LocalTime(0, m, code, ResolveTimezone(code, zoneDataAvailable).value))
  {
    KnownCodeShape(code);
    MatchTimeText(12, m, None, Some(code));
    NatToStringValue(12);
    FromFieldsAccepts(TimeFields(NatToString(12), Some(TwoDigits(m)), None, Some(code)), zoneDataAvailable);
  }

  /** A time without a zone code is taken in Pacific Standard Time. */
  lemma ParseDefaultsToPacific(h: nat, m: nat, period: Option<string>, zoneDataAvailable: bool)
    requires h < 100 && m < 60
    requires period.Some? ==> IsPeriod(period.value)
    requires period.Some? ==> 1 <= h <= 12
    requires period.None? ==> h <= 23
    ensures ParseTime(TimeText(h, m, period, None), zoneDataAvailable)
      == Ok(LocalTime(ClockHour(h, period), m, "PST", ResolveTimezone("PST", zoneDataAvailable).value))
  {
    KnownCodeShape("PST");
    MatchTimeText(h, m, period, None);
    NatToStringValue(h);
    FromFieldsAccepts(TimeFields(NatToString(h), Some(TwoDigits(m)), period, None), zoneDataAvailable);
  }

  /** Out-of-range minutes and hours are rejected, minutes first. */
  lemma ParseRangeErrors(h: nat, m: nat, period: Option<string>, code: string, zoneDataAvailable: bool)
    requires h < 100 && m < 100
    requires period.Some? ==> IsPeriod(period.value)
    requires code in KnownCodes
    ensures var r := ParseTime(TimeText(h, m, period, Some(code)), zoneDataAvailable);
      && (m > 59 ==> r == Err(BadMinute))
      && (m <= 59 && period.Some? && (h < 1 || h > 12) ==> r == Err(BadHour12))
      && (m <= 59 && period.None? && h > 23 ==> r == Err(BadHour24))
  {
    KnownCodeShape(code);
    MatchTimeText(h, m, period, Some(code));
    NatToStringValue(h);
  }

  // ---------------------------------------------------------------------------
  // Banned words

  /** A moderation table row: the word and its level ("Ban" or "Exact"). */
  datatype BannedWord = BannedWord(word: string, level: string)

  /** `w` is the lower-cased word of some row of the level. */
  predicate FromRow(rows: seq<BannedWord>, level: string, w: string) {
    exists j :: 0 <= j < |rows| && rows[j].level == level && w == Lower(rows[j].word)
  }

  lemma FromRowShift(rows: seq<BannedWord>, level: string)
    requires rows != []
    ensures forall w :: FromRow(rows[1..], level, w) ==> FromRow(rows, level, w)
  {
    forall w | FromRow(rows[1..], level, w)
      ensures FromRow(rows, level, w)
    {
      var j :| 0 <= j < |rows[1..]| && rows[1..][j].level == level && w == Lower(rows[1..][j].word);
      assert rows[j + 1] == rows[1..][j];
    }
  }

  /** The lower-cased words of one level, in table order. */
  function WordsAtLevel(rows: seq<BannedWord>, level: string): (r: seq<string>)
    ensures forall k :: 0 <= k < |r| ==> FromRow(rows, level, r[k])
    ensures forall j :: 0 <= j < |rows| && rows[j].level == level ==> Lower(rows[j].word) in r
  {
    if rows == [] then []
    else
      var rest := WordsAtLevel(rows[1..], level);
      FromRowShift(rows, level);
      assert forall j :: 1 <= j < |rows| ==> rows[j] == rows[1..][j - 1];
      if rows[0].level == level then [Lower(rows[0].word)] + rest else rest
  }

  /** A single row contributes its lower-cased word exactly when it is at the level. */
  lemma WordsAtLevelOne(row: BannedWord, level: string)
    ensures WordsAtLevel([row], level) == if row.level == level then [Lower(row.word)] else []
  {
    assert [row][1..] == [];
  }

  /** The words keep table order: the words of a concatenation are the words of its parts, concatenated. */
  lemma {:induction false} WordsAtLevelAppend(a: seq<BannedWord>, b: seq<BannedWord>, level: string)
    ensures WordsAtLevel(a + b, level) == WordsAtLevel(a, level) + WordsAtLevel(b, level)
    decreases |a|
  {
    if a == [] {
      assert a + b == b;
    } else {
      assert (a + b)[1..] == a[1..] + b;
      assert (a + b)[0] == a[0];
      WordsAtLevelAppend(a[1..], b, level);
    }
  }

  predicate WordBefore(s: string, i: nat) { 0 < i <= |s| && IsWordChar(s[i - 1]) }

  predicate WordAfter(s: string, i: nat) { i < |s| && IsWordChar(s[i]) }

  /** `\b`: a word character on exactly one side of position `i`. */
  predicate BoundaryAt(s: string, i: nat) { WordBefore(s, i) != WordAfter(s, i) }

  /** `w` occurs at `i` with a word boundary on both ends. */
  predicate MatchesAt(s: string, w: string, i: nat) {
    OccursAt(s, w, i) && BoundaryAt(s, i) && BoundaryAt(s, i + |w|)
  }

  /** The first alternative that matches at `i`, as a regex alternation tries them. */
  function FirstAlternative(s: string, alts: seq<string>, i: nat): (r: Option<string>)
    ensures r.Some? ==> MatchesAt(s, r.value, i)
    ensures r.None? ==> forall k :: 0 <= k < |alts| ==> !MatchesAt(s, alts[k], i)
  {
    if alts == [] then None
    else if MatchesAt(s, alts[0], i) then Some(alts[0])
    else
      var r := FirstAlternative(s, alts[1..], i);
      assert forall k :: 1 <= k < |alts| ==> alts[k] == alts[1..][k - 1];
      r
  }

  /** The alternative found is the earliest one in the list that matches at `i`. */
  lemma {:induction false} FirstAlternativeEarliest(s: string, alts: seq<string>, i: nat)
    requires FirstAlternative(s, alts, i).Some?
    ensures var w := FirstAlternative(s, alts, i).value;
      exists k :: 0 <= k < |alts| && alts[k] == w && (forall l :: 0 <= l < k ==> !MatchesAt(s, alts[l], i))
  {
    var w := FirstAlternative(s, alts, i).value;
    if MatchesAt(s, alts[0], i) {
      assert alts[0] == w;
    } else {
      FirstAlternativeEarliest(s, alts[1..], i);
      var k :| 0 <= k < |alts[1..]| && alts[1..][k] == w && (forall l :: 0 <= l < k ==> !MatchesAt(s, alts[1..][l], i));
      assert alts[k + 1] == w;
      assert forall l :: 0 <= l < k + 1 ==> !MatchesAt(s, alts[l], i) by {
        forall l | 0 <= l < k + 1
          ensures !MatchesAt(s, alts[l], i)
        {
          if l > 0 {
            assert alts[l] == alts[1..][l - 1];
          }
        }
      }
    }
  }

  datatype Hit = Hit(pos: nat, word: string)

  /** `re.search` of `\b(?:w1|w2|...)\b` from position `i`: the leftmost match, first alternative first. */
  function SearchFrom(s: string, alts: seq<string>, i: nat): (r: Option<Hit>)
    requires i <= |s|
    ensures r.Some? ==> i <= r.value.pos <= |s| && FirstAlternative(s, alts, r.value.pos) == Some(r.value.word)
    ensures r.Some? ==> forall j, k :: i <= j < r.value.pos && 0 <= k < |alts| ==> !MatchesAt(s, alts[k], j)
    ensures r.None? ==> forall j, k :: i <= j <= |s| && 0 <= k < |alts| ==> !MatchesAt(s, alts[k], j)
    decreases |s| - i
  {
    match FirstAlternative(s, alts, i)
    case Some(w) => Some(Hit(i, w))
    case None => if i == |s| then None else SearchFrom(s, alts, i + 1)
  }

  /** `"|".join([])` is the empty pattern, which matches the empty string. */
  function Alternatives(words: seq<string>): seq<string> {
    if words == [] then [""] else words
  }

  /** The first word that occurs anywhere in `s`, in list order. */
  function FirstContained(words: seq<string>, s: string): (r: Option<string>)
    ensures r.Some? ==> r.value in words && Contains(s, r.value)
    ensures r.Some? ==>
      exists k :: 0 <= k < |words| && words[k] == r.value && (forall l :: 0 <= l < k ==> !Contains(s, words[l]))
    ensures r.None? ==> forall k :: 0 <= k < |words| ==> !Contains(s, words[k])
  {
    if words == [] then None
    else if Contains(s, words[0]) then Some(words[0])
    else
      var r := FirstContained(words[1..], s);
      assert forall k :: 1 <= k < |words| ==> words[k] == words[1..][k - 1];
      r
  }

  /**
   * The word a message is moderated for: an Exact word matched at word boundaries
   * first, else the first Ban word occurring anywhere; an empty match counts as none.
   */
  function BannedMatch(rows: seq<BannedWord>, message: string): (r: Option<string>)
    ensures r.Some? ==> r.value != []
  {
    var content := Lower(message);
    var hit := SearchFrom(content, Alternatives(WordsAtLevel(rows, "Exact")), 0);
    if hit.Some? && hit.value.word != [] then Some(hit.value.word)
    else
      var b := FirstContained(WordsAtLevel(rows, "Ban"), content);
      if b.Some? && b.value != [] then b else None
  }

  predicate ExactHit(rows: seq<BannedWord>, s: string) {
    exists j, i :: 0 <= j < |rows| && rows[j].level == "Exact" && 0 <= i <= |s| && MatchesAt(s, Lower(rows[j].word), i)
  }

  /** Some alternative matches somewhere. */
  predicate AnyMatch(s: string, alts: seq<string>) {
    exists k, i :: 0 <= k < |alts| && 0 <= i <= |s| && MatchesAt(s, alts[k], i)
  }

  lemma SearchFinds(s: string, alts: seq<string>)
    ensures SearchFrom(s, alts, 0).Some? <==> AnyMatch(s, alts)
    ensures SearchFrom(s, alts, 0).Some? ==> SearchFrom(s, alts, 0).value.word in alts
  {
    var hit := SearchFrom(s, alts, 0);
    if hit.Some? {
      var w := hit.value.word;
      FirstAlternativeEarliest(s, alts, hit.value.pos);
      var k :| 0 <= k < |alts| && alts[k] == w;
      assert MatchesAt(s, alts[k], hit.value.pos);
    }
  }

  lemma ExactHitIsAnyMatch(rows: seq<BannedWord>, s: string)
    ensures ExactHit(rows, s) <==> AnyMatch(s, WordsAtLevel(rows, "Exact"))
  {
    var exact := WordsAtLevel(rows, "Exact");
    if ExactHit(rows, s) {
      var j, i :| 0 <= j < |rows| && rows[j].level == "Exact" && 0 <= i <= |s| && MatchesAt(s, Lower(rows[j].word), i);
      var k :| 0 <= k < |exact| && exact[k] == Lower(rows[j].word);
      assert MatchesAt(s, exact[k], i);
    }
    if AnyMatch(s, exact) {
      var k, i :| 0 <= k < |exact| && 0 <= i <= |s| && MatchesAt(s, exact[k], i);
      assert FromRow(rows, "Exact", exact[k]);
      var j :| 0 <= j < |rows| && rows[j].level == "Exact" && exact[k] == Lower(rows[j].word);
      assert MatchesAt(s, Lower(rows[j].word), i);
    }
  }

  lemma LevelWordsNonEmpty(rows: seq<BannedWord>, level: string)
    requires forall j :: 0 <= j < |rows| ==> rows[j].word != []
    ensures forall k :: 0 <= k < |WordsAtLevel(rows, level)| ==> WordsAtLevel(rows, level)[k] != []
  {
    var ws := WordsAtLevel(rows, level);
    forall k | 0 <= k < |ws|
      ensures ws[k] != []
    {
      assert FromRow(rows, level, ws[k]);
      var j :| 0 <= j < |rows| && rows[j].level == level && ws[k] == Lower(rows[j].word);
    }
  }

  predicate BanHit(rows: seq<BannedWord>, s: string) {
    exists j :: 0 <= j < |rows| && rows[j].level == "Ban" && Contains(s, Lower(rows[j].word))
  }

  lemma ExactSearch(rows: seq<BannedWord>, s: string)
    requires forall j :: 0 <= j < |rows| ==> rows[j].word != []
    ensures var hit := SearchFrom(s, Alternatives(WordsAtLevel(rows, "Exact")), 0);
      (hit.Some? && hit.value.word != []) <==> ExactHit(rows, s)
  {
    var exact := WordsAtLevel(rows, "Exact");
    SearchFinds(s, Alternatives(exact));
    ExactHitIsAnyMatch(rows, s);
    LevelWordsNonEmpty(rows, "Exact");
  }

  lemma BanSearch(rows: seq<BannedWord>, s: string)
    requires forall j :: 0 <= j < |rows| ==> rows[j].word != []
    ensures var b := FirstContained(WordsAtLevel(rows, "Ban"), s);
      (b.Some? && b.value != []) <==> BanHit(rows, s)
  {
    var ban := WordsAtLevel(rows, "Ban");
    var b := FirstContained(ban, s);
    LevelWordsNonEmpty(rows, "Ban");
    if BanHit(rows, s) {
      var j :| 0 <= j < |rows| && rows[j].level == "Ban" && Contains(s, Lower(rows[j].word));
      var k :| 0 <= k < |ban| && ban[k] == Lower(rows[j].word);
      assert Contains(s, ban[k]);
    }
    if b.Some? {
      assert FromRow(rows, "Ban", b.value);
      var j :| 0 <= j < |rows| && rows[j].level == "Ban" && b.value == Lower(rows[j].word);
      assert Contains(s, Lower(rows[j].word));
    }
  }

  /**
   * With no empty word in the table, a message is moderated exactly when an Exact
   * word occurs in it at word boundaries or a Ban word occurs in it anywhere.
   */
  lemma BannedMatchIff(rows: seq<BannedWord>, message: string)
    requires forall j :: 0 <= j < |rows| ==> rows[j].word != []
    ensures BannedMatch(rows, message).Some? <==> ExactHit(rows, Lower(message)) || BanHit(rows, Lower(message))
  {
    ExactSearch(rows, Lower(message));
    BanSearch(rows, Lower(message));
  }

  /** Exact words are checked first: an Exact hit is what the message is moderated for. */
  lemma ExactWordsFirst(rows: seq<BannedWord>, message: string)
    requires forall j :: 0 <= j < |rows| ==> rows[j].word != []
    requires ExactHit(rows, Lower(message))
    ensures BannedMatch(rows, message).Some?
    ensures BannedMatch(rows, message).value in WordsAtLevel(rows, "Exact")
  {
    var exact := WordsAtLevel(rows, "Exact");
    ExactSearch(rows, Lower(message));
    SearchFinds(Lower(message), Alternatives(exact));
  }

  // ---------------------------------------------------------------------------
  // The quote command's argument

  datatype QuoteRequest = RandomQuote | QuoteById(id: nat) | QuoteSearch(words: string)

  /**
   * Classifies the text after `<prefix>quote`: nothing, `random` or `r` asks for a
   * random quote, an all-digit first token for that id, anything else searches by
   * all tokens joined with single spaces.
   */
  function QuoteArgument(prefix: string, message: string): (r: QuoteRequest)
    ensures r.QuoteSearch? ==> r.words != [] && Normalized(r.words) && !IsSpace(r.words[0])
  {
    var cut := |prefix| + |"quote"|;
    var parts := Split(Strip(if cut <= |message| then message[cut..] else []));
    if parts == [] then RandomQuote
    else if Lower(parts[0]) == "random" || Lower(parts[0]) == "r" then RandomQuote
    else if IsDigitString(parts[0]) then QuoteById(DigitsValue(parts[0]))
    else
      JoinNormalized(parts);
      QuoteSearch(Join(parts, " "))
  }

  /** The command text with the given words after it. */
  function QuoteCommand(prefix: string, ws: seq<string>): string {
    prefix + "quote" + (if ws == [] then "" else " " + Join(ws, " "))
  }

  lemma NormalizedLast(s: string)
    requires Normalized(s) && s != []
    ensures !IsSpace(s[|s| - 1])
  {
  }

  lemma StripAfterSpace(j: string)
    requires IsStripped(j) && j != []
    ensures Strip(" " + j) == j
  {
    var s := " " + j;
    assert s[1..] == j;
    assert LeadingSpaces(j) == 0;
    assert LeadingSpaces(s) == 1;
    assert LStrip(s) == j;
    assert TrailingSpaces(j) == 0;
  }

  /** Stripping `" " + w` for a normalized word list `w` gives `w`. */
  lemma StripJoined(ws: seq<string>)
    requires ws != [] && forall k :: 0 <= k < |ws| ==> ws[k] != [] && NoSpace(ws[k])
    ensures Strip(" " + Join(ws, " ")) == Join(ws, " ")
  {
    var j := Join(ws, " ");
    JoinNormalized(ws);
    NormalizedLast(j);
    StripAfterSpace(j);
  }

  lemma QuoteArgumentOf(prefix: string, ws: seq<string>)
    requires ws != [] && forall k :: 0 <= k < |ws| ==> ws[k] != [] && NoSpace(ws[k])
    ensures Split(Strip(QuoteCommand(prefix, ws)[|prefix| + |"quote"|..])) == ws
  {
    var m := QuoteCommand(prefix, ws);
    assert m[|prefix| + |"quote"|..] == " " + Join(ws, " ");
    StripJoined(ws);
    SplitJoin(ws);
  }

  /** `<prefix>quote` alone asks for a random quote. */
  lemma QuoteWithoutWords(prefix: string)
    ensures QuoteArgument(prefix, QuoteCommand(prefix, [])) == RandomQuote
  {
    var m := QuoteCommand(prefix, []);
    assert m[|prefix| + |"quote"|..] == [];
  }

  /** `<prefix>quote random ...` or `<prefix>quote r ...`, in any case, asks for a random quote. */
  lemma QuoteRandomWord(prefix: string, ws: seq<string>)
    requires ws != [] && forall k :: 0 <= k < |ws| ==> ws[k] != [] && NoSpace(ws[k])
    requires Lower(ws[0]) == "random" || Lower(ws[0]) == "r"
    ensures QuoteArgument(prefix, QuoteCommand(prefix, ws)) == RandomQuote
  {
    QuoteArgumentOf(prefix, ws);
  }

  lemma DigitsNotRandom(d: string)
    requires IsDigitString(d)
    ensures Lower(d) != "random" && Lower(d) != "r"
  {
    assert IsDigit(Lower(d)[0]);
  }

  /** `<prefix>quote <n>` asks for quote `n`. */
  lemma QuoteByIdRoundTrip(prefix: string, n: nat)
    ensures QuoteArgument(prefix, QuoteCommand(prefix, [NatToString(n)])) == QuoteById(n)
  {
    var d := NatToString(n);
    QuoteArgumentOf(prefix, [d]);
    NatToStringValue(n);
    DigitsNotRandom(d);
  }

  /** Any other words are searched for, joined with single spaces. */
  lemma QuoteSearchRoundTrip(prefix: string, ws: seq<string>)
    requires ws != [] && forall k :: 0 <= k < |ws| ==> ws[k] != [] && NoSpace(ws[k])
    requires !IsDigitString(ws[0]) && Lower(ws[0]) != "random" && Lower(ws[0]) != "r"
    ensures QuoteArgument(prefix, QuoteCommand(prefix, ws)) == QuoteSearch(Join(ws, " "))
  {
    QuoteArgumentOf(prefix, ws);
  }

  // ---------------------------------------------------------------------------
  // Image attachments

  datatype Attachment = Attachment(filename: string, url: string)

  const ImageExtensions: seq<string> := [".png", ".jpg", ".jpeg", ".webp"]

  /** An attachment is queued when its lower-cased name has an image extension and its URL is non-empty. */
  predicate IsImage(a: Attachment) {
    (exists k :: 0 <= k < |ImageExtensions| && EndsWith(Lower(a.filename), ImageExtensions[k])) && a.url != []
  }

  /** The URLs of the image attachments, in order. */
  function ImageUrls(atts: seq<Attachment>): (r: seq<string>)
    ensures |r| <= |atts|
    ensures forall i :: 0 <= i < |r| ==> r[i] != [] && exists j :: 0 <= j < |atts| && IsImage(atts[j]) && atts[j].url == r[i]
    ensures forall j :: 0 <= j < |atts| && IsImage(atts[j]) ==> atts[j].url in r
  {
    if atts == [] then []
    else
      var rest := ImageUrls(atts[1..]);
      assert forall j :: 1 <= j < |atts| ==> atts[j] == atts[1..][j - 1];
      if IsImage(atts[0]) then [atts[0].url] + rest else rest
  }

  /** The filter keeps the original order: filtering a concatenation concatenates the filtered parts. */
  lemma {:induction false} ImageUrlsAppend(a: seq<Attachment>, b: seq<Attachment>)
    ensures ImageUrls(a + b) == ImageUrls(a) + ImageUrls(b)
    decreases |a|
  {
    if a == [] {
      assert a + b == b;
    } else {
      assert (a + b)[1..] == a[1..] + b;
      ImageUrlsAppend(a[1..], b);
    }
  }
}

=== FILE: gui.dfy ===
/**
 * The pure decisions of the control-panel window: the policy preview, the users
 * table's sort state, the model-choice list, the response-timer status label,
 * user row ids, and how a setting value is checked and normalised before saving.
 */
module Gui {
  import opened Common
  import opened Text
  import opened Numerals
  import opened Sequences
  import opened Settings

  // ---------------------------------------------------------------------------
  // Policy preview

  const PreviewLimit: nat := 120

  /** A preview text: collapsed whitespace, no space at either end. */
  predicate IsPreviewText(s: string) {
    Normalized(s) && (s == [] || !IsSpace(s[0]))
  }

  /** Keeps a collapsed text within the limit: the first 117 characters and "..." when longer. */
  function Shorten(c: string): (r: string)
    requires IsPreviewText(c)
    ensures |r| <= PreviewLimit && IsPreviewText(r)
    ensures |c| <= PreviewLimit ==> r == c
    ensures |c| > PreviewLimit ==> |r| == PreviewLimit && StartsWith(c, r[..117]) && EndsWith(r, "...")
  {
    if |c| <= PreviewLimit then c
    else
      TruncatedNormalized(c);
      c[..117] + "..."
  }

  lemma TruncatedNormalized(c: string)
    requires IsPreviewText(c) && |c| > 117
    ensures IsPreviewText(c[..117] + "...")
  {
    var r := c[..117] + "...";
    forall i | 0 <= i < |r| && IsSpace(r[i])
      ensures r[i] == ' ' && 0 < i < |r| - 1 && !IsSpace(r[i + 1])
    {
      assert i < 117 && r[i] == c[i];
      if i < 116 {
        assert r[i + 1] == c[i + 1];
      }
    }
  }

  /**
   * The whole-text preview: the content with its whitespace collapsed, kept
   * whole when it fits in 120 characters (so it has the content's words) and
   * otherwise its first 117 characters and "..."; blank content gives "".
   */
  function PolicyPreview(content: Option<string>): (r: string)
    ensures |r| <= PreviewLimit && IsPreviewText(r)
    ensures r == [] <==> Strip(content.GetOr("")) == []
    ensures |Collapse(content.GetOr(""))| <= PreviewLimit ==>
      r == Collapse(content.GetOr("")) && Split(r) == Split(content.GetOr(""))
    ensures |Collapse(content.GetOr(""))| > PreviewLimit ==>
      |r| == PreviewLimit && StartsWith(Collapse(content.GetOr("")), r[..117]) && EndsWith(r, "...")
  {
    var text := Strip(content.GetOr(""));
    CollapseOfStrip(content.GetOr(""));
    if text == [] then
      assert Split(text) == [] by { SplitEmptyIffBlank(text); StripEmptyIffBlank(text); }
      ""
    else
      CollapsedText(text);
      Shorten(Collapse(text))
  }

  /** Collapsing a text gives the same words, and the same result as collapsing its stripped text. */
  lemma CollapseOfStrip(s: string)
    ensures Collapse(Strip(s)) == Collapse(s)
    ensures Split(Collapse(s)) == Split(s)
  {
    SplitStrip(s);
    SplitJoin(Split(s));
  }

  lemma CollapsedText(text: string)
    requires text != [] && !IsSpace(text[0])
    ensures IsPreviewText(Collapse(text)) && Collapse(text) != []
  {
    SplitEmptyIffBlank(text);
    JoinNormalized(Split(text));
  }

  lemma PreviewStripped(r: string)
    requires IsPreviewText(r)
    ensures Strip(r) == r
  {
    if r != [] {
      assert !IsSpace(r[|r| - 1]);
      StripStripped(r);
    }
  }

  /** Previewing a preview changes nothing. */
  lemma PreviewIdempotent(content: Option<string>)
    ensures PolicyPreview(Some(PolicyPreview(content))) == PolicyPreview(content)
  {
    var r := PolicyPreview(content);
    PreviewStripped(r);
    if r != [] {
      CollapseOfNormalized(r);
    }
  }

  /** A collapsed text that fits is shown unchanged. */
  lemma PreviewOfShortText(s: string)
    requires IsPreviewText(s) && s != [] && |s| <= PreviewLimit
    ensures PolicyPreview(Some(s)) == s
  {
    PreviewStripped(s);
    CollapseOfNormalized(s);
  }

  // ---------------------------------------------------------------------------
  // Users table sort state

  /** "asc" -> "desc" -> none -> "asc"; anything else restarts at "asc". */
  function CycleDirection(current: Option<string>): (r: Option<string>)
    ensures r == Some("asc") || r == Some("desc") || r == None
    ensures current != Some("asc") && current != Some("desc") && current != None ==> r == Some("asc")
  {
    if current == Some("asc") then Some("desc")
    else if current == Some("desc") then None
    else Some("asc")
  }

  /** The cycle visits the three directions in turn and comes back after three steps. */
  lemma CycleHasPeriodThree(d: Option<string>)
    requires d == Some("asc") || d == Some("desc") || d == None
    ensures CycleDirection(d) != d
    ensures CycleDirection(CycleDirection(d)) != d
    ensures CycleDirection(CycleDirection(CycleDirection(d))) == d
  {
  }

  datatype SortState = SortState(column: Option<string>, direction: Option<string>)

  /** A column is selected exactly when a direction is, and the direction is "asc" or "desc". */
  predicate SortWellFormed(st: SortState) {
    (st.column.None? <==> st.direction.None?) && (st.direction == None || st.direction == Some("asc") || st.direction == Some("desc"))
  }

  /** A click on a column heading. */
  function HeadingClick(st: SortState, columns: seq<string>, col: string): (r: SortState)
    ensures col !in columns ==> r == st
    ensures col in columns && st.column != Some(col) ==> r == SortState(Some(col), Some("asc"))
    ensures col in columns && st.column == Some(col) ==> r.direction == CycleDirection(st.direction)
    ensures col in columns ==> r.column == None || r.column == Some(col)
    ensures SortWellFormed(st) ==> SortWellFormed(r)
  {
    if col !in columns then st
    else if st.column == Some(col) then
      var d := CycleDirection(st.direction);
      SortState(if d == None then None else st.column, d)
    else SortState(Some(col), Some("asc"))
  }

  /** Clicking one heading three times walks asc, desc, unsorted and back to asc. */
  lemma ClickCycle(columns: seq<string>, col: string, st: SortState)
    requires col in columns && st.column != Some(col)
    ensures var a := HeadingClick(st, columns, col);
      var b := HeadingClick(a, columns, col);
      var c := HeadingClick(b, columns, col);
      && a == SortState(Some(col), Some("asc"))
      && b == SortState(Some(col), Some("desc"))
      && c == SortState(None, None)
      && HeadingClick(c, columns, col) == a
  {
  }

  // ---------------------------------------------------------------------------
  // Model choices

  const FallbackModels: seq<string> := ["gpt-3.5-turbo", "gpt-4", "gpt-4-turbo", "gpt-4o", "gpt-4o-mini", "gpt-5"]

  /** The fetched names that are not empty, in order. */
  function NonBlank(names: seq<string>): (r: seq<string>)
    ensures forall m :: m in r <==> m in names && m != []
  {
    if names == [] then []
    else
      var rest := NonBlank(names[1..]);
      assert names == [names[0]] + names[1..];
      if names[0] == [] then rest else [names[0]] + rest
  }

  /** A single name is kept exactly when it is not empty. */
  lemma NonBlankOne(m: string)
    ensures NonBlank([m]) == if m == [] then [] else [m]
  {
    assert [m][1..] == [];
  }

  /** The filter keeps the fetched order: filtering a concatenation concatenates the filtered parts. */
  lemma {:induction false} NonBlankAppend(a: seq<string>, b: seq<string>)
    ensures NonBlank(a + b) == NonBlank(a) + NonBlank(b)
    decreases |a|
  {
    if a == [] {
      assert a + b == b;
    } else {
      assert (a + b)[1..] == a[1..] + b;
      NonBlankAppend(a[1..], b);
    }
  }

  /** The first occurrence of every name, in order, tracked with a `seen` set. */
  method DedupeInOrder(models: seq<string>) returns (deduped: seq<string>)
    ensures deduped == Dedupe(models)
  {
    var seen: set<string> := {};
    deduped := [];
    for i := 0 to |models|
      invariant deduped == Dedupe(models[..i])
      invariant forall x :: x in seen <==> x in models[..i]
    {
      var m := models[i];
      DedupeSnoc(models, i);
      assert models[..i + 1] == models[..i] + [m];
      if m !in seen {
        seen := seen + {m};
        deduped := deduped + [m];
      }
    }
    assert models[..|models|] == models;
  }

  lemma FallbackDistinct()
    ensures NoDuplicates(FallbackModels)
  {
  }

  /** The model list: the non-empty fetched names, or the built-in list when there are none, de-duplicated. */
  method ModelChoices(fetched: seq<string>) returns (choices: seq<string>)
    ensures choices != [] && NoDuplicates(choices)
    ensures NonBlank(fetched) != [] ==> forall m :: m in choices <==> m in fetched && m != []
    ensures NonBlank(fetched) == [] ==> choices == FallbackModels
    ensures choices == Dedupe(if NonBlank(fetched) == [] then FallbackModels else NonBlank(fetched))
  {
    var models := NonBlank(fetched);
    if models == [] {
      models := FallbackModels;
      FallbackDistinct();
      DedupeOfDistinct(FallbackModels);
    }
    choices := DedupeInOrder(models);
    assert models[0] in choices;
  }

  // ---------------------------------------------------------------------------
  // Response-timer status label

  const StatusPrefix: string := "Response Timer: "

  function ProgressText(received: int, target: int): string {
    IntToString(if received < target then received else target) + "/" + IntToString(target)
  }

  /**
   * The label for a progress snapshot `(received, target)`, or "unavailable"
   * when there is no timer.
   */
  function StatusText(snapshot: Option<(int, int)>): (r: string)
    ensures StartsWith(r, StatusPrefix)
    ensures snapshot.Some? && snapshot.value.1 > 0 ==> EndsWith(r, " msgs")
    ensures snapshot.Some? && snapshot.value.1 <= 0 && snapshot.value.0 > 0 ==> EndsWith(r, " msgs queued")
  {
    match snapshot
    case None => StatusPrefix + "unavailable"
    case Some((received, target)) =>
      if target > 0 then StatusPrefix + ProgressText(received, target) + " msgs"
      else if received > 0 then StatusPrefix + IntToString(received) + " msgs queued"
      else StatusPrefix + "waiting..."
  }

  predicate NoSlash(s: string) { forall i :: 0 <= i < |s| ==> s[i] != '/' }

  lemma IntTextNoSlash(i: int)
    ensures NoSlash(IntToString(i))
  {
    var s := IntToString(i);
    if i < 0 {
      assert forall k :: 1 <= k < |s| ==> s[k] == NatToString(-i)[k - 1];
    }
  }

  /** `x + "/" + y` with no slash in `x` has its first slash right after `x`. */
  lemma FirstSlash(x: string, y: string)
    requires NoSlash(x)
    ensures (x + "/" + y)[|x|] == '/'
    ensures forall i :: 0 <= i < |x| ==> (x + "/" + y)[i] != '/'
  {
  }

  lemma SplitAtSlash(x: string, y: string, x': string, y': string)
    requires NoSlash(x) && NoSlash(x')
    requires x + "/" + y == x' + "/" + y'
    ensures x == x' && y == y'
  {
    var s := x + "/" + y;
    FirstSlash(x, y);
    FirstSlash(x', y');
    assert |x| == |x'| by {
      if |x| < |x'| {
        assert false;
      } else if |x'| < |x| {
        assert false;
      }
    }
    assert x == s[..|x|] == x';
    assert y == s[|x| + 1..] == y';
  }

  /** The progress label determines the progress it shows: equal labels mean equal counts and targets. */
  lemma StatusShowsProgress(r: int, t: int, r': int, t': int)
    requires t > 0 && t' > 0
    requires StatusText(Some((r, t))) == StatusText(Some((r', t')))
    ensures (if r < t then r else t) == (if r' < t' then r' else t') && t == t'
  {
    var a, b := ProgressText(r, t), ProgressText(r', t');
    var s := StatusText(Some((r, t)));
    assert s == StatusPrefix + a + " msgs" == StatusPrefix + b + " msgs";
    assert |a| == |b|;
    assert a == s[|StatusPrefix|..|StatusPrefix| + |a|] == b;
    IntTextNoSlash(if r < t then r else t);
    IntTextNoSlash(if r' < t' then r' else t');
    SplitAtSlash(IntToString(if r < t then r else t), IntToString(t), IntToString(if r' < t' then r' else t'), IntToString(t'));
    IntToStringInjective(if r < t then r else t, if r' < t' then r' else t');
    IntToStringInjective(t, t');
  }

  // ---------------------------------------------------------------------------
  // User row ids

  /** The columns tried for a row id, in order. A missing or NULL value is an absent key. */
  const RowIdKeys: seq<string> := ["id", "discord_id", "discord_username", "discord_display_name", "twitch_id"]

  predicate BlankAt(row: map<string, string>, key: string) {
    key !in row || Strip(row[key]) == []
  }

  /** The stripped value of the first key whose value is not blank. */
  function FirstNonBlank(row: map<string, string>, keys: seq<string>): (r: Option<string>)
    ensures r.Some? ==> r.value != []
    ensures r.None? <==> forall k :: 0 <= k < |keys| ==> BlankAt(row, keys[k])
  {
    if keys == [] then None
    else if !BlankAt(row, keys[0]) then Some(Strip(row[keys[0]]))
    else
      var r := FirstNonBlank(row, keys[1..]);
      assert forall k :: 1 <= k < |keys| ==> keys[k] == keys[1..][k - 1];
      r
  }

  /** The value found is that of the earliest key whose value is not blank. */
  lemma {:induction false} FirstNonBlankEarliest(row: map<string, string>, keys: seq<string>)
    requires FirstNonBlank(row, keys).Some?
    ensures var v := FirstNonBlank(row, keys).value;
      exists k :: 0 <= k < |keys| && keys[k] in row && v == Strip(row[keys[k]]) && (forall l :: 0 <= l < k ==> BlankAt(row, keys[l]))
  {
    var v := FirstNonBlank(row, keys).value;
    if !BlankAt(row, keys[0]) {
      assert keys[0] in row && v == Strip(row[keys[0]]);
    } else {
      assert FirstNonBlank(row, keys[1..]) == Some(v);
      FirstNonBlankEarliest(row, keys[1..]);
      var k :| 0 <= k < |keys[1..]| && keys[1..][k] in row && v == Strip(row[keys[1..][k]])
        && (forall l :: 0 <= l < k ==> BlankAt(row, keys[1..][l]));
      BlankShift(row, keys, k);
      assert keys[k + 1] == keys[1..][k];
    }
  }

  /** Blank keys after a blank first key are blank keys of the whole list, one position on. */
  lemma BlankShift(row: map<string, string>, keys: seq<string>, k: nat)
    requires keys != [] && BlankAt(row, keys[0]) && k < |keys|
    requires forall l :: 0 <= l < k ==> BlankAt(row, keys[1..][l])
    ensures forall l :: 0 <= l < k + 1 ==> BlankAt(row, keys[l])
  {
    forall l | 0 <= l < k + 1
      ensures BlankAt(row, keys[l])
    {
      if l > 0 {
        assert keys[l] == keys[1..][l - 1];
      }
    }
  }

  /** A row's id: the first non-blank id-like column, else `row-<index>`. */
  function RowId(row: map<string, string>, fallbackIndex: nat): (r: string)
    ensures r != []
    ensures (forall k :: 0 <= k < |RowIdKeys| ==> BlankAt(row, RowIdKeys[k])) ==> r == "row-" + NatToString(fallbackIndex)
    ensures "id" in row && Strip(row["id"]) != [] ==> r == Strip(row["id"])
  {
    match FirstNonBlank(row, RowIdKeys)
    case Some(v) => v
    case None => "row-" + NatToString(fallbackIndex)
  }

  lemma {:induction false} FirstNonBlankIgnores(row: map<string, string>, keys: seq<string>, key: string, v: string)
    requires key !in keys
    ensures FirstNonBlank(row[key := v], keys) == FirstNonBlank(row, keys)
    decreases |keys|
  {
    if keys != [] {
      assert BlankAt(row[key := v], keys[0]) == BlankAt(row, keys[0]);
      FirstNonBlankIgnores(row, keys[1..], key, v);
    }
  }

  /** Columns other than the five id-like ones never affect the row id. */
  lemma RowIdIgnoresOtherColumns(row: map<string, string>, fallbackIndex: nat, key: string, v: string)
    requires key !in RowIdKeys
    ensures RowId(row[key := v], fallbackIndex) == RowId(row, fallbackIndex)
  {
    FirstNonBlankIgnores(row, RowIdKeys, key, v);
  }

  // ---------------------------------------------------------------------------
  // Saving a setting

  /** The values an inline checkbox save accepts as true. */
  const InlineTrueValues: seq<string> := ["1", "True", "true"]

  /** An inline save: BOOL values become "1"/"0", others are stored as given; the tag is upper-cased. */
  function InlineSave(value: string, dataType: string): (r: Row)
    ensures r.dataType == Upper(dataType)
    ensures Upper(dataType) == "BOOL" ==> (r.value == "0" || r.value == "1") && (r.value == "1" <==> value in InlineTrueValues)
    ensures Upper(dataType) != "BOOL" ==> r.value == value
    ensures KindOf(dataType) == BoolKind ==> IsValid(r.value, r.dataType)
  {
    if Upper(dataType) == "BOOL" then Row(if value in InlineTrueValues then "1" else "0", Upper(dataType))
    else Row(value, Upper(dataType))
  }

  lemma UpperTwice(s: string)
    ensures Upper(Upper(s)) == Upper(s)
  {
  }

  lemma LowerTitleTrue()
    ensures Lower("True") == "true"
  {
    var r := Lower("True");
    assert r[0] == 't' && r[1] == 'r' && r[2] == 'u' && r[3] == 'e';
  }

  /** A stripped word whose lower-case form is "true" coerces to true. */
  lemma CoerceTrueWord(v: string)
    requires IsStripped(v) && Lower(v) == "true"
    ensures CoerceBool(v) == "1"
  {
    StripStripped(v);
    assert |v| == 4;
    assert IsTruthyWord(v);
  }

  /** What an inline BOOL save stores as true the store's own coercion also reads as true. */
  lemma InlineTrueIsCoercedTrue(value: string)
    requires value in InlineTrueValues
    ensures CoerceBool(value) == "1"
  {
    if value == "1" {
      StripStripped(value);
    } else if value == "True" {
      LowerTitleTrue();
      CoerceTrueWord(value);
    } else {
      assert NoUpper("true");
      CoerceTrueWord(value);
    }
  }

  lemma BoolTag()
    ensures Upper("BOOL") == "BOOL" && Upper("INTEGER") == "INTEGER"
  {
    UpperOfUpper("BOOL");
    UpperOfUpper("INTEGER");
  }

  /** The inline save is stricter than coercion: "yes" is saved as false but coerces to true. */
  lemma InlineStricterThanCoerce()
    ensures InlineSave("yes", "BOOL").value == "0" && CoerceBool("yes") == "1"
  {
    BoolTag();
    StripStripped("yes");
    assert NoUpper("yes");
  }

  datatype DialogError = EmptyKey | NotAnIntegerValue | NotOneCharacter

  /** The tag the dialog edits under: the row's tag upper-cased, or TEXT. */
  function DialogType(rowType: Option<string>): (t: string)
    ensures t != []
  {
    if rowType.Some? && rowType.value != [] then Upper(rowType.value) else "TEXT"
  }

  lemma DialogTypeUpper(rowType: Option<string>)
    ensures Upper(DialogType(rowType)) == DialogType(rowType)
  {
    if rowType.Some? && rowType.value != [] {
      UpperTwice(rowType.value);
    } else {
      assert Upper("TEXT") == "TEXT";
    }
  }

  /** The Save button: the stripped key and the value to store, or why it is refused. */
  function DialogSave(keyText: string, rowType: Option<string>, checked: bool, valueText: string): (r: Result<(string, Row), DialogError>)
    ensures r == Err(EmptyKey) <==> Strip(keyText) == []
    ensures r.Ok? ==> r.value.0 == Strip(keyText) && r.value.1.dataType == DialogType(rowType)
    ensures r.Ok? && DialogType(rowType) == "BOOL" ==> r.value.1.value == (if checked then "1" else "0")
    ensures r.Ok? && DialogType(rowType) != "BOOL" ==> r.value.1.value == Strip(valueText)
    ensures r.Ok? && DialogType(rowType) == "INTEGER" && r.value.1.value != [] ==> ParseInt(r.value.1.value).Some?
    ensures r.Ok? && DialogType(rowType) == "CHARACTER" ==> |r.value.1.value| == 1
    ensures r == Err(NotAnIntegerValue) <==>
      Strip(keyText) != [] && DialogType(rowType) == "INTEGER" && Strip(valueText) != [] && ParseInt(Strip(valueText)).None?
    ensures r == Err(NotOneCharacter) <==>
      Strip(keyText) != [] && DialogType(rowType) == "CHARACTER" && |Strip(valueText)| != 1
  {
    var key := Strip(keyText);
    var dtype := DialogType(rowType);
    if key == [] then Err(EmptyKey)
    else if dtype == "BOOL" then Ok((key, Row(if checked then "1" else "0", dtype)))
    else
      var value := Strip(valueText);
      if dtype == "INTEGER" && value != [] && ParseInt(value).None? then Err(NotAnIntegerValue)
      else if dtype == "CHARACTER" && |value| != 1 then Err(NotOneCharacter)
      else Ok((key, Row(value, dtype)))
  }

  lemma ParsedIsValid(value: string)
    requires IsStripped(value) && value != [] && value[0] != '+' && ParseInt(value).Some?
    ensures IsValid(value, "INTEGER")
  {
    StripStripped(value);
  }

  /**
   * A saved value is valid for its tag, except an INTEGER value that is empty
   * or has a leading "+", which `int` accepts.
   */
  lemma DialogSavedValid(keyText: string, rowType: Option<string>, checked: bool, valueText: string)
    requires DialogSave(keyText, rowType, checked, valueText).Ok?
    ensures var row := DialogSave(keyText, rowType, checked, valueText).value.1;
      row.value != [] && row.value[0] != '+' ==> IsValid(row.value, row.dataType)
  {
    var row := DialogSave(keyText, rowType, checked, valueText).value.1;
    var dt := row.dataType;
    assert Upper(dt) == dt by {
      DialogTypeUpper(rowType);
    }
    if dt == "INTEGER" && row.value != [] && row.value[0] != '+' {
      ParsedIsValid(row.value);
    }
  }

  lemma DialogIntegerText(value: string)
    requires IsStripped(value)
    requires value == [] || ParseInt(value).Some?
    ensures DialogSave("k", Some("INTEGER"), false, value) == Ok(("k", Row(value, "INTEGER")))
  {
    BoolTag();
    StripStripped("k");
    StripStripped(value);
  }

  lemma PlusFiveParses()
    ensures ParseInt("+5") == Some(5) && IsStripped("+5")
  {
    StripStripped("+5");
    assert "+5"[1..] == "5";
  }

  lemma PlusFiveInvalid()
    ensures !IsValid("+5", "INTEGER")
  {
    BoolTag();
    StripStripped("+5");
    assert !IsDigit('+');
  }

  /** The two INTEGER values the dialog saves although the store does not count them valid. */
  lemma DialogIntegerGaps()
    ensures DialogSave("k", Some("INTEGER"), false, "") == Ok(("k", Row("", "INTEGER")))
    ensures !IsValid("", "INTEGER")
    ensures DialogSave("k", Some("INTEGER"), false, "+5") == Ok(("k", Row("+5", "INTEGER")))
    ensures !IsValid("+5", "INTEGER")
  {
    BoolTag();
    DialogIntegerText("");
    PlusFiveParses();
    DialogIntegerText("+5");
    PlusFiveInvalid();
  }
}

=== FILE: launcher.dfy ===
/** Masking of a secret for the start-up log. */
module Launcher {

  const DefaultHead: nat := 4
  const DefaultTail: nat := 3

  function Stars(n: nat): (r: string)
    ensures |r| == n && forall i :: 0 <= i < n ==> r[i] == '*'
  {
    if n == 0 then "" else Stars(n - 1) + "*"
  }

  /** The first `a` and last `b` characters of `value` around "***". */
  function Reveal(value: string, a: nat, b: nat): (r: string)
    requires a + b <= |value|
    ensures |r| == a + b + 3
  {
    value[..a] + "***" + value[|value| - b..]
  }

  /**
   * `r` reveals at most `k` characters of `value`: it is the missing marker, only
   * stars, or a head and a tail of `value` of at most `k` characters in all around "***".
   */
  ghost predicate RevealsAtMost(value: string, r: string, k: nat) {
    || r == "<missing>"
    || (forall i :: 0 <= i < |r| ==> r[i] == '*')
    || exists a: nat, b: nat :: a + b <= k && a + b <= |value| && r == Reveal(value, a, b)
  }

  /**
   * The masking as written: `value[-tail:]` with `tail` = 0 is the whole value,
   * so a zero tail reveals everything.
   */
  function MaskSecretAsWritten(value: string, head: nat, tail: nat): (r: string)
    ensures value == [] ==> r == "<missing>"
    ensures value != [] && |value| <= head + tail ==> |r| == |value| && forall i :: 0 <= i < |r| ==> r[i] == '*'
    ensures |value| > head + tail && tail > 0 ==> |r| == head + tail + 3 && r[..head] == value[..head] && r[|r| - tail..] == value[|value| - tail..]
    ensures |value| > head && tail == 0 ==> |r| == head + 3 + |value| && r[head + 3..] == value
  {
    if value == [] then "<missing>"
    else if |value| <= head + tail then Stars(|value|)
    else value[..head] + "***" + (if tail == 0 then value else value[|value| - tail..])
  }

  /** The masking as intended: the first `head` and last `tail` characters around "***". */
  function MaskSecret(value: string, head: nat, tail: nat): (r: string)
    ensures value == [] ==> r == "<missing>"
    ensures value != [] && |value| <= head + tail ==> |r| == |value| && forall i :: 0 <= i < |r| ==> r[i] == '*'
    ensures |value| > head + tail ==> |r| == head + tail + 3 && r[..head] == value[..head] && r[|r| - tail..] == value[|value| - tail..]
    ensures RevealsAtMost(value, r, head + tail)
  {
    if value == [] then "<missing>"
    else if |value| <= head + tail then Stars(|value|)
    else
      var r := Reveal(value, head, tail);
      assert RevealsAtMost(value, r, head + tail);
      r
  }

  /** With the defaults a long secret is shown as ten characters. */
  lemma DefaultMaskLength(value: string)
    requires |value| > DefaultHead + DefaultTail
    ensures |MaskSecret(value, DefaultHead, DefaultTail)| == 10
  {
  }

  /** With a non-zero tail the code as written and the intended masking agree; the callers use the defaults. */
  lemma MaskAgreesWithNonZeroTail(value: string, head: nat, tail: nat)
    requires tail > 0
    ensures MaskSecretAsWritten(value, head, tail) == MaskSecret(value, head, tail)
  {
  }

  /** A zero tail makes the code as written print the whole secret after its head. */
  lemma ZeroTailRevealsSecret()
    ensures MaskSecretAsWritten("abcdefgh", 4, 0) == "abcd***abcdefgh"
    ensures !RevealsAtMost("abcdefgh", MaskSecretAsWritten("abcdefgh", 4, 0), 4)
  {
    var value := "abcdefgh";
    var r := MaskSecretAsWritten(value, 4, 0);
    assert r == "abcd***abcdefgh";
    assert r[0] != '*';
    forall a: nat, b: nat | a + b <= 4 && a + b <= |value|
      ensures r != Reveal(value, a, b)
    {
      assert |Reveal(value, a, b)| < |r|;
    }
  }
}

=== FILE: numerals.dfy ===
/**
 * Decimal text for integers: Python's `str(int)` and `int(str)`.
 * `int(str)` is modelled on ASCII digits; the underscores and non-ASCII digits
 * Python also accepts are not part of this model.
 */
module Numerals {
  import opened Common
  import opened Text

  function DigitChar(d: nat): (c: char)
    requires d < 10
    ensures IsDigit(c)
  {
    ('0' as int + d) as char
  }

  function DigitValue(c: char): (d: nat)
    requires IsDigit(c)
    ensures d < 10 && DigitChar(d) == c
  {
    c as int - '0' as int
  }

  /** `str(n)` for a non-negative integer: the canonical decimal digits, no leading zero. */
  function NatToString(n: nat): (s: string)
    ensures IsDigitString(s)
    ensures s[0] == '0' ==> n == 0
  {
    if n < 10 then [DigitChar(n)] else NatToString(n / 10) + [DigitChar(n % 10)]
  }

  /** The number a string of digits denotes (leading zeros allowed). */
  function DigitsValue(s: string): nat
    requires AllDigits(s)
  {
    if s == [] then 0 else DigitsValue(s[..|s| - 1]) * 10 + DigitValue(s[|s| - 1])
  }

  /** `str(i)` */
  function IntToString(i: int): (s: string)
    ensures s != [] && IsStripped(s)
    ensures s[0] == '-' <==> i < 0
  {
    if i < 0 then "-" + NatToString(-i) else NatToString(i)
  }

  /** A digit string has no whitespace to strip. */
  lemma DigitsStripped(s: string)
    ensures AllDigits(s) ==> Strip(s) == s
  {
    if AllDigits(s) && s != [] {
      assert !IsSpace(s[0]) && !IsSpace(s[|s| - 1]);
      StripStripped(s);
    }
  }

  /** `int(s)` for a string argument; `None` stands for the `ValueError` it raises. */
  function ParseInt(s: string): (r: Option<int>)
    ensures Strip(s) == [] ==> r.None?
    ensures r.Some? <==> var t := Strip(s);
      t != [] && (forall i :: 1 <= i < |t| ==> IsDigit(t[i]))
      && (IsDigit(t[0]) || ((t[0] == '-' || t[0] == '+') && |t| >= 2))
    ensures r.Some? && r.value < 0 ==> Strip(s)[0] == '-'
    ensures AllDigits(s) && s != [] ==> r == Some(DigitsValue(s))
  {
    DigitsStripped(s);
    var t := Strip(s);
    if t == [] then None
    else if t[0] == '-' || t[0] == '+' then
      var body := t[1..];
      if IsDigitString(body) then
        var v: int := DigitsValue(body);
        Some(if t[0] == '-' then -v else v)
      else None
    else if IsDigitString(t) then Some(DigitsValue(t))
    else None
  }

  lemma {:induction false} NatToStringValue(n: nat)
    ensures DigitsValue(NatToString(n)) == n
  {
    if n >= 10 {
      NatToStringValue(n / 10);
      var s := NatToString(n);
      assert s[..|s| - 1] == NatToString(n / 10);
    }
  }

  /** `int` reads back the text of a negative number: the sign, then the digits. */
  lemma {:induction false} ParseNegative(n: nat)
    requires n > 0
    ensures ParseInt("-" + NatToString(n)) == Some(-(n as int))
  {
    var b := NatToString(n);
    var t := "-" + b;
    NatToStringValue(n);
    assert t[0] == '-' && t[|t| - 1] == b[|b| - 1];
    StripStripped(t);
    assert t[1..] == b;
    assert IsDigitString(t[1..]) && DigitsValue(t[1..]) == n;
    assert Strip(t) == t && t != [] && t[0] == '-';
  }

  /** `int` reads back the text of a non-negative number. */
  lemma {:induction false} ParseNonNegative(n: nat)
    ensures ParseInt(NatToString(n)) == Some(n)
  {
    var t := NatToString(n);
    NatToStringValue(n);
    StripStripped(t);
    assert t[0] != '-' && t[0] != '+';
  }

  /** `int` reads a number with an explicit `+` sign. */
  lemma {:induction false} ParsePlus(n: nat)
    ensures ParseInt("+" + NatToString(n)) == Some(n)
  {
    var b := NatToString(n);
    var t := "+" + b;
    NatToStringValue(n);
    assert t[0] == '+' && t[|t| - 1] == b[|b| - 1];
    StripStripped(t);
    assert t[1..] == b;
    assert IsDigitString(t[1..]) && DigitsValue(t[1..]) == n;
    assert Strip(t) == t && t != [] && t[0] == '+';
  }

  /** `int` ignores the whitespace around a number's text, whatever its sign. */
  lemma ParsePadded(pre: string, i: int, post: string)
    requires AllSpace(pre) && AllSpace(post)
    ensures ParseInt(pre + IntToString(i) + post) == Some(i)
  {
    var t := IntToString(i);
    StripPadded(pre, t, post);
    ParseIntToString(i);
    assert Strip(t) == t by { StripStripped(t); }
  }

  /** Parsing the decimal text of an integer gives the integer back. */
  lemma {:induction false} ParseIntToString(i: int)
    ensures ParseInt(IntToString(i)) == Some(i)
  {
    if i < 0 {
      assert IntToString(i) == "-" + NatToString(-i);
      ParseNegative(-i);
    } else {
      ParseNonNegative(i);
    }
  }

  /** Two integers with the same decimal text are equal. */
  lemma IntToStringInjective(i: int, j: int)
    requires IntToString(i) == IntToString(j)
    ensures i == j
  {
    ParseIntToString(i);
    ParseIntToString(j);
  }
}

=== FILE: quotes.dfy ===
/**
 * Quote lookups over the records of the quotes sheet: by id, at random, and at
 * random among the quotes containing some words. The sheet's records are passed
 * in; the random choice is a `pick` index.
 */
module Quotes {
  import opened Common
  import opened Text
  import opened Sequences

  /** One sheet record: the columns ID, Quote, Date Added, Category and Added by User. */
  datatype Quote = Quote(id: int, text: string, dateAdded: string, category: string, addedBy: string)

  /** The sheet-id setting is empty. */
  datatype QuoteError = SheetIdNotSet

  /** Position of the first record with the id. */
  function FirstWithId(records: seq<Quote>, id: int): (r: Option<nat>)
    ensures r.Some? ==> r.value < |records| && records[r.value].id == id
    ensures r.Some? ==> forall j :: 0 <= j < r.value ==> records[j].id != id
    ensures r.None? ==> forall j :: 0 <= j < |records| ==> records[j].id != id
  {
    FirstWhere(records, (q: Quote) => q.id == id)
  }

  /** The first record whose ID equals `id`, or none. */
  function GetQuote(sheetId: string, records: seq<Quote>, id: int): (r: Result<Option<Quote>, QuoteError>)
    ensures r.Err? <==> sheetId == []
    ensures r.Ok? && r.value.Some? ==> r.value.value in records && r.value.value.id == id
    ensures r.Ok? ==> (r.value.None? <==> forall j :: 0 <= j < |records| ==> records[j].id != id)
  {
    if sheetId == [] then Err(SheetIdNotSet)
    else
      match FirstWithId(records, id)
      case None => Ok(None)
      case Some(k) => Ok(Some(records[k]))
  }

  /** Among several records with the id, the earliest one is returned. */
  lemma GetQuoteFirst(sheetId: string, records: seq<Quote>, id: int, k: nat)
    requires sheetId != [] && k < |records| && records[k].id == id
    requires forall j :: 0 <= j < k ==> records[j].id != id
    ensures GetQuote(sheetId, records, id) == Ok(Some(records[k]))
  {
    var r := FirstWithId(records, id);
    assert r.Some? && r.value == k;
  }

  /** `random.choice`, with the random draw as `pick`. */
  function Choose(xs: seq<Quote>, pick: nat): (q: Quote)
    requires xs != []
    ensures q in xs
  {
    xs[pick % |xs|]
  }

  lemma ChooseReaches(xs: seq<Quote>, k: nat)
    requires k < |xs|
    ensures Choose(xs, k) == xs[k]
  {
  }

  /** A random record, or none for an empty sheet. */
  function GetRandomQuote(sheetId: string, records: seq<Quote>, pick: nat): (r: Result<Option<Quote>, QuoteError>)
    ensures r.Err? <==> sheetId == []
    ensures r.Ok? ==> (r.value.None? <==> records == [])
    ensures r.Ok? && r.value.Some? ==> r.value.value in records
  {
    if sheetId == [] then Err(SheetIdNotSet)
    else if records == [] then Ok(None)
    else Ok(Some(Choose(records, pick)))
  }

  /** Every record can be the random one. */
  lemma RandomQuoteReachesAll(sheetId: string, records: seq<Quote>, k: nat)
    requires sheetId != [] && k < |records|
    ensures GetRandomQuote(sheetId, records, k) == Ok(Some(records[k]))
  {
    ChooseReaches(records, k);
  }

  /** Case-insensitive substring test on the Quote column. */
  predicate QuoteContains(q: Quote, words: string) {
    Contains(Lower(q.text), Lower(words))
  }

  /** The records whose quote contains the words, in sheet order. */
  function Matching(records: seq<Quote>, words: string): (r: seq<Quote>)
    ensures |r| <= |records|
    ensures forall q :: q in r <==> q in records && QuoteContains(q, words)
  {
    if records == [] then []
    else
      var rest := Matching(records[1..], words);
      assert records == [records[0]] + records[1..];
      if QuoteContains(records[0], words) then [records[0]] + rest else rest
  }

  /** A random record among those containing the words, or none when no record does. */
  function GetRandomQuoteContaining(sheetId: string, records: seq<Quote>, words: string, pick: nat): (r: Result<Option<Quote>, QuoteError>)
    ensures r.Err? <==> sheetId == []
    ensures r.Ok? ==> (r.value.None? <==> forall j :: 0 <= j < |records| ==> !QuoteContains(records[j], words))
    ensures r.Ok? && r.value.Some? ==> r.value.value in records && QuoteContains(r.value.value, words)
  {
    if sheetId == [] then Err(SheetIdNotSet)
    else
      var filtered := Matching(records, words);
      if filtered == [] then
        assert forall j :: 0 <= j < |records| ==> records[j] in records;
        Ok(None)
      else Ok(Some(Choose(filtered, pick)))
  }

  /** Every record containing the words can be the one returned. */
  lemma ContainingReachesAll(sheetId: string, records: seq<Quote>, words: string, q: Quote)
    requires sheetId != [] && q in records && QuoteContains(q, words)
    ensures exists pick: nat :: GetRandomQuoteContaining(sheetId, records, words, pick) == Ok(Some(q))
  {
    var filtered := Matching(records, words);
    var k :| 0 <= k < |filtered| && filtered[k] == q;
    ChooseReaches(filtered, k);
    assert GetRandomQuoteContaining(sheetId, records, words, k) == Ok(Some(q));
  }

  /** The search ignores case in the words. */
  lemma {:induction false} MatchingIgnoresCase(records: seq<Quote>, words: string)
    ensures Matching(records, Lower(words)) == Matching(records, words)
    decreases |records|
  {
    assert Lower(Lower(words)) == Lower(words);
    if records != [] {
      MatchingIgnoresCase(records[1..], words);
    }
  }
}

=== FILE: response_timer.dfy ===
/**
 * The chat response timer and its message buffer, as a sequential state machine.
 *
 * Raw messages wait in `pending`; the processor formats them one at a time into
 * `received` and counts them. An armed timer waits until its length has elapsed,
 * then until the count reaches its target, and then fires: the buffered contents
 * leave as one batch for the (unmodelled) response generator, and the timer is
 * re-armed when that response returns normally. Time, random draws, the
 * "Chat Response Enabled" setting and image descriptions are parameters.
 */
module ResponseTimer {
  import opened Common
  import opened Text
  import opened Numerals
  import opened Sequences

  /** A raw message as the bot queues it. `None` authors stand for a missing nick or name. */
  datatype Pending = Pending(
    messageId: int,
    content: string,
    authorDisplay: Option<string>,
    authorUsername: Option<string>,
    createdAt: string,          // the creation time as "%Y-%m-%d %H:%M:%S" text
    attachmentUrls: seq<string>)

  /** A formatted entry of the buffer. */
  datatype Entry = Entry(id: int, content: string)

  /** The two stages of the gate: waiting for the length to elapse, then for the message count. */
  datatype Stage = Waiting | Counting

  /** A live timer task: when it started, its length in seconds and its message target. */
  datatype Timer = Timer(start: int, length: int, messages: int, stage: Stage)

  datatype State = State(
    pending: seq<Pending>,
    received: seq<Entry>,
    count: int,
    target: int,
    timerTask: Option<Timer>,
    inFlight: seq<seq<string>>)   // batches handed to the response generator, not yet returned

  /** The settings `start_timer` reads. */
  datatype TimerConfig = TimerConfig(enabled: bool, minLength: int, maxLength: int, minMessages: int, maxMessages: int)

  /** `random.randint` raises `ValueError` on an empty range. */
  datatype TimerError = EmptyLengthRange | EmptyMessageRange

  /** The buffer's count agrees with its contents. */
  predicate Inv(s: State) { s.count == |s.received| }

  function Init(): (s: State)
    ensures Inv(s) && s.pending == [] && s.received == [] && s.target == 0
    ensures s.timerTask == None && s.inFlight == []
  {
    State([], [], 0, 0, None, [])
  }

  /** A new message joins the back of the pending queue. */
  function Enqueue(s: State, p: Pending): (r: State)
    ensures r.pending == s.pending + [p]
    ensures r.received == s.received && r.count == s.count
  {
    s.(pending := s.pending + [p])
  }

  // ---------------------------------------------------------------------------
  // Arming

  /** `random.randint(lo, hi)` driven by an arbitrary draw `pick`. */
  function Draw(lo: int, hi: int, pick: nat): (v: int)
    requires lo <= hi
    ensures lo <= v <= hi
  {
    lo + pick % (hi - lo + 1)
  }

  /** Every value of the range is drawn by some pick. */
  lemma DrawReaches(lo: int, hi: int, v: int)
    requires lo <= v <= hi
    ensures Draw(lo, hi, (v - lo) as nat) == v
  {
  }

  /**
   * `start_timer`. Disabled: the target becomes 0 and nothing is armed. A live
   * timer: nothing happens. Otherwise a length and a message target are drawn
   * from the configured ranges and a new timer starts at `now`.
   */
  function StartTimer(s: State, cfg: TimerConfig, now: int, lengthPick: nat, messagesPick: nat): (r: Result<State, TimerError>)
    ensures !cfg.enabled ==> r == Ok(s.(target := 0))
    ensures cfg.enabled && s.timerTask.Some? ==> r == Ok(s)
    ensures cfg.enabled && s.timerTask.None? ==>
      (r.Err? <==> cfg.minLength > cfg.maxLength || cfg.minMessages > cfg.maxMessages)
    ensures cfg.enabled && s.timerTask.None? && r.Ok? ==>
      var t := r.value.timerTask;
      t.Some? && t.value.start == now && t.value.stage == Waiting &&
      cfg.minLength <= t.value.length <= cfg.maxLength &&
      cfg.minMessages <= t.value.messages <= cfg.maxMessages &&
      r.value.target == t.value.messages &&
      r.value == s.(target := t.value.messages, timerTask := t)
  {
    if !cfg.enabled then Ok(s.(target := 0))
    else if s.timerTask.Some? then Ok(s)
    else if cfg.minLength > cfg.maxLength then Err(EmptyLengthRange)
    else
      var length := Draw(cfg.minLength, cfg.maxLength, lengthPick);
      if cfg.minMessages > cfg.maxMessages then Err(EmptyMessageRange)
      else
        var messages := Draw(cfg.minMessages, cfg.maxMessages, messagesPick);
        Ok(s.(target := messages, timerTask := Some(Timer(now, length, messages, Waiting))))
  }

  /** Every length and target within the configured ranges can be armed. */
  lemma StartTimerReaches(s: State, cfg: TimerConfig, now: int, length: int, messages: int)
    requires cfg.enabled && s.timerTask.None?
    requires cfg.minLength <= length <= cfg.maxLength && cfg.minMessages <= messages <= cfg.maxMessages
    ensures StartTimer(s, cfg, now, (length - cfg.minLength) as nat, (messages - cfg.minMessages) as nat)
      == Ok(s.(target := messages, timerTask := Some(Timer(now, length, messages, Waiting))))
  {
    DrawReaches(cfg.minLength, cfg.maxLength, length);
    DrawReaches(cfg.minMessages, cfg.maxMessages, messages);
  }

  // ---------------------------------------------------------------------------
  // The gate and firing

  /** The contents of the entries, in order. */
  function Contents(entries: seq<Entry>): (r: seq<string>)
    ensures |r| == |entries|
    ensures forall i :: 0 <= i < |r| ==> r[i] == entries[i].content
  {
    seq(|entries|, i requires 0 <= i < |entries| => entries[i].content)
  }

  /** Firing: the count resets, the buffer's contents leave as one batch, and the timer task is cleared. */
  function Fire(s: State): (r: State)
    ensures r.count == 0 && r.received == []
    ensures r.inFlight == s.inFlight + [Contents(s.received)]
    ensures r.timerTask == None
    ensures r.pending == s.pending && r.target == s.target
  {
    s.(count := 0, received := [], inFlight := s.inFlight + [Contents(s.received)], timerTask := None)
  }

  /** When a poll at time `now` makes the timer fire: the length has elapsed (now or earlier) and the target is met. */
  predicate FiresAt(s: State, now: int) {
    s.timerTask.Some? &&
    (s.timerTask.value.stage == Counting || now - s.timerTask.value.start >= s.timerTask.value.length) &&
    s.count >= s.timerTask.value.messages
  }

  /**
   * One poll of the timer at time `now`. Before the length has elapsed nothing
   * happens; once it has, the timer only checks the count, firing when it has
   * reached the target.
   */
  function Tick(s: State, now: int): (r: State)
    ensures FiresAt(s, now) ==> r == Fire(s)
    ensures !FiresAt(s, now) ==>
      r.received == s.received && r.count == s.count && r.inFlight == s.inFlight &&
      r.pending == s.pending && r.target == s.target &&
      (s.timerTask.None? <==> r.timerTask.None?)
  {
    match s.timerTask
    case None => s
    case Some(t) =>
      if t.stage == Waiting && now - t.start < t.length then s
      else if s.count >= t.messages then Fire(s)
      else s.(timerTask := Some(t.(stage := Counting)))
  }

  /** The timer never fires before its length has elapsed. */
  lemma NoFireBeforeLength(s: State, now: int)
    requires s.timerTask.Some? && s.timerTask.value.stage == Waiting
    requires now - s.timerTask.value.start < s.timerTask.value.length
    ensures Tick(s, now) == s
  {
  }

  /** Once counting, the timer fires as soon as the count reaches the target, whatever the time. */
  lemma FiresOnCount(s: State, now: int)
    requires s.timerTask.Some? && s.timerTask.value.stage == Counting
    ensures s.count >= s.timerTask.value.messages <==> |Tick(s, now).inFlight| == |s.inFlight| + 1
  {
  }

  /**
   * The response to batch `i` returns. Only a normal return re-arms the timer;
   * an error raised while re-arming ends the old timer task and is not seen.
   */
  function Complete(s: State, i: nat, ok: bool, cfg: TimerConfig, now: int, lengthPick: nat, messagesPick: nat): (r: State)
    requires i < |s.inFlight|
    ensures r.inFlight == s.inFlight[..i] + s.inFlight[i + 1..]
    ensures r.received == s.received && r.count == s.count && r.pending == s.pending
    ensures !ok ==> r.timerTask == s.timerTask && r.target == s.target
    ensures ok && !cfg.enabled ==> r.timerTask == s.timerTask && r.target == 0
    ensures ok && cfg.enabled && s.timerTask.Some? ==> r.timerTask == s.timerTask && r.target == s.target
    ensures ok && cfg.enabled && s.timerTask.None? && (cfg.minLength > cfg.maxLength || cfg.minMessages > cfg.maxMessages) ==>
      r.timerTask == None && r.target == s.target
    ensures ok && cfg.enabled && s.timerTask.None? && cfg.minLength <= cfg.maxLength && cfg.minMessages <= cfg.maxMessages ==>
      var t := r.timerTask;
      t.Some? && t.value.start == now && t.value.stage == Waiting &&
      cfg.minLength <= t.value.length <= cfg.maxLength &&
      cfg.minMessages <= t.value.messages <= cfg.maxMessages &&
      r.target == t.value.messages
  {
    var done := s.(inFlight := s.inFlight[..i] + s.inFlight[i + 1..]);
    if !ok then done
    else
      match StartTimer(done, cfg, now, lengthPick, messagesPick)
      case Ok(armed) => armed
      case Err(_) => done
  }

  /** A response that fails leaves no timer behind when none was armed meanwhile: the cycle stalls. */
  lemma FailedResponseStalls(s: State, i: nat, cfg: TimerConfig, now: int, lp: nat, mp: nat, later: int)
    requires i < |s.inFlight| && s.timerTask.None?
    ensures Complete(s, i, false, cfg, now, lp, mp).timerTask.None?
    ensures Tick(Complete(s, i, false, cfg, now, lp, mp), later) == Complete(s, i, false, cfg, now, lp, mp)
  {
  }

  /** A response that returns normally re-arms the timer when chat responses are enabled and the ranges are non-empty. */
  lemma SuccessfulResponseRearms(s: State, i: nat, cfg: TimerConfig, now: int, lp: nat, mp: nat)
    requires i < |s.inFlight| && s.timerTask.None?
    requires cfg.enabled && cfg.minLength <= cfg.maxLength && cfg.minMessages <= cfg.maxMessages
    ensures Complete(s, i, true, cfg, now, lp, mp).timerTask.Some?
  {
  }

  /** Every in-bounds timer can be the one a successful response re-arms. */
  lemma RearmReaches(s: State, i: nat, cfg: TimerConfig, now: int, length: int, messages: int)
    requires i < |s.inFlight| && s.timerTask.None? && cfg.enabled
    requires cfg.minLength <= length <= cfg.maxLength && cfg.minMessages <= messages <= cfg.maxMessages
    ensures Complete(s, i, true, cfg, now, (length - cfg.minLength) as nat, (messages - cfg.minMessages) as nat)
      == s.(inFlight := s.inFlight[..i] + s.inFlight[i + 1..], target := messages,
            timerTask := Some(Timer(now, length, messages, Waiting)))
  {
    var done := s.(inFlight := s.inFlight[..i] + s.inFlight[i + 1..]);
    StartTimerReaches(done, cfg, now, length, messages);
  }

  // ---------------------------------------------------------------------------
  // Formatting pending messages

  /** `author_display or author_username`, as an f-string shows it. */
  function AuthorLabel(p: Pending): (r: string)
    ensures p.authorDisplay.Some? && p.authorDisplay.value != [] ==> r == p.authorDisplay.value
    ensures (p.authorDisplay.None? || p.authorDisplay.value == []) ==>
      r == (if p.authorUsername.Some? then p.authorUsername.value else "None")
  {
    if p.authorDisplay.Some? && p.authorDisplay.value != [] then p.authorDisplay.value
    else if p.authorUsername.Some? then p.authorUsername.value
    else "None"
  }

  /** One description line, "\nImage Description n: <description>". */
  function DescriptionLine(n: int, description: string): string
  {
    "\nImage Description " + IntToString(n) + ": " + description
  }

  /** The description lines for the urls, numbered from `first`. */
  function DescriptionLines(urls: seq<string>, describe: string -> string, first: int): (r: string)
    ensures urls == [] <==> r == []
    ensures urls != [] ==> StartsWith(r, DescriptionLine(first, describe(urls[0])))
    decreases |urls|
  {
    if urls == [] then []
    else
      var line := DescriptionLine(first, describe(urls[0]));
      var r := line + DescriptionLines(urls[1..], describe, first + 1);
      assert r[..|line|] == line;
      r
  }

  /** The lines of a concatenation are the lines of each part, the second part's numbered after the first's. */
  lemma {:induction false} DescriptionLinesAppend(a: seq<string>, b: seq<string>, describe: string -> string, first: int)
    ensures DescriptionLines(a + b, describe, first)
      == DescriptionLines(a, describe, first) + DescriptionLines(b, describe, first + |a|)
    decreases |a|
  {
    if a != [] {
      assert (a + b)[1..] == a[1..] + b;
      DescriptionLinesAppend(a[1..], b, describe, first + 1);
      assert (a + b)[0] == a[0];
      AppendAssoc(DescriptionLine(first, describe(a[0])), DescriptionLines(a[1..], describe, first + 1),
        DescriptionLines(b, describe, first + |a|));
    } else {
      assert a + b == b;
    }
  }

  /** A single url gives a single line with the given number. */
  lemma DescriptionLinesOne(u: string, describe: string -> string, n: int)
    ensures DescriptionLines([u], describe, n) == DescriptionLine(n, describe(u))
  {
    assert [u][1..] == [];
  }

  /** The number of images described: at most three. */
  function DescribedCount(urls: seq<string>): (k: nat)
    ensures k <= 3 && k <= |urls|
    ensures k == |urls| || k == 3
  {
    if |urls| < 3 then |urls| else 3
  }

  /** The image-description block: empty without attachments, else a count line and one line per described image. */
  function ImageBlock(urls: seq<string>, describe: string -> string): (r: string)
    ensures urls == [] <==> r == []
    ensures urls != [] ==> StartsWith(r, CountLine(DescribedCount(urls)))
  {
    if urls == [] then []
    else
      var k := DescribedCount(urls);
      var head := CountLine(k);
      var r := head + DescriptionLines(urls[..k], describe, 1);
      assert r[..|head|] == head;
      r
  }

  /** Only the first three attachments are ever described. */
  lemma ImageBlockFirstThree(urls: seq<string>, describe: string -> string)
    requires |urls| >= 3
    ensures ImageBlock(urls, describe) == ImageBlock(urls[..3], describe)
  {
    assert urls[..3][..3] == urls[..3];
  }

  /** The block is the count line followed by the lines of the described attachments. */
  lemma ImageBlockParts(urls: seq<string>, describe: string -> string)
    requires urls != []
    ensures ImageBlock(urls, describe)
      == CountLine(DescribedCount(urls)) + DescriptionLines(urls[..DescribedCount(urls)], describe, 1)
  {
  }

  /** "The message contains n images." */
  function CountLine(n: int): string
  {
    "The message contains " + IntToString(n) + " images."
  }

  /** The count line for one to three images, written out. */
  lemma CountLineSmall()
    ensures CountLine(1) == "The message contains 1 images."
    ensures CountLine(2) == "The message contains 2 images."
    ensures CountLine(3) == "The message contains 3 images."
  {
    assert NatToString(1) == "1" && NatToString(2) == "2" && NatToString(3) == "3";
  }

  /** One attachment: the count line, then its description numbered 1. */
  lemma ImageBlockOne(u: string, describe: string -> string)
    ensures ImageBlock([u], describe) == "The message contains 1 images." + DescriptionLine(1, describe(u))
  {
    ImageBlockParts([u], describe);
    assert [u][..1] == [u];
    CountLineSmall();
    DescriptionLinesOne(u, describe, 1);
  }

  /** Two attachments: the count line, then their descriptions numbered 1 and 2. */
  lemma ImageBlockTwo(u: string, v: string, describe: string -> string)
    ensures ImageBlock([u, v], describe)
      == "The message contains 2 images." + DescriptionLine(1, describe(u)) + DescriptionLine(2, describe(v))
  {
    ImageBlockParts([u, v], describe);
    assert [u, v][..2] == [u] + [v];
    CountLineSmall();
    DescriptionLinesAppend([u], [v], describe, 1);
    DescriptionLinesOne(u, describe, 1);
    DescriptionLinesOne(v, describe, 2);
    AppendAssoc("The message contains 2 images.", DescriptionLine(1, describe(u)), DescriptionLine(2, describe(v)));
  }

  /** Three urls give three lines numbered 1 to 3. */
  lemma DescriptionLinesThree(u: string, v: string, w: string, describe: string -> string)
    ensures DescriptionLines([u, v, w], describe, 1)
      == DescriptionLine(1, describe(u)) + DescriptionLine(2, describe(v)) + DescriptionLine(3, describe(w))
  {
    assert [u, v, w] == [u, v] + [w];
    DescriptionLinesAppend([u, v], [w], describe, 1);
    assert [u, v] == [u] + [v];
    DescriptionLinesAppend([u], [v], describe, 1);
    DescriptionLinesOne(u, describe, 1);
    DescriptionLinesOne(v, describe, 2);
    DescriptionLinesOne(w, describe, 3);
  }

  /** Three or more attachments: the count line, then the first three descriptions numbered 1 to 3. */
  lemma ImageBlockThree(urls: seq<string>, describe: string -> string)
    requires |urls| >= 3
    ensures ImageBlock(urls, describe)
      == "The message contains 3 images." + DescriptionLine(1, describe(urls[0]))
         + DescriptionLine(2, describe(urls[1])) + DescriptionLine(3, describe(urls[2]))
  {
    ImageBlockParts(urls, describe);
    CountLineSmall();
    var l1, l2, l3 := DescriptionLine(1, describe(urls[0])), DescriptionLine(2, describe(urls[1])), DescriptionLine(3, describe(urls[2]));
    DescriptionLinesThree(urls[0], urls[1], urls[2], describe);
    assert urls[..3] == [urls[0], urls[1], urls[2]];
    AppendAssoc("The message contains 3 images.", l1 + l2, l3);
    AppendAssoc("The message contains 3 images.", l1, l2);
  }

  /** The text after the stamp: "author: content", a blank line, then the image block. */
  function EntryBody(p: Pending, describe: string -> string): (r: string)
    ensures StartsWith(r, AuthorLabel(p) + ": " + p.content + "\n\n")
    ensures r[|AuthorLabel(p) + ": " + p.content + "\n\n"|..] == ImageBlock(p.attachmentUrls, describe)
  {
    var head := AuthorLabel(p) + ": " + p.content + "\n\n";
    var r := head + ImageBlock(p.attachmentUrls, describe);
    assert r[..|head|] == head;
    r
  }

  /** The buffered text of one message: "[ts] author: content", a blank line, then the image block. */
  function FormatEntry(p: Pending, describe: string -> string): (r: string)
    ensures StartsWith(r, "[" + p.createdAt + "] ")
    ensures r[|"[" + p.createdAt + "] "|..] == EntryBody(p, describe)
  {
    var stamp := "[" + p.createdAt + "] ";
    var r := stamp + EntryBody(p, describe);
    assert r[..|stamp|] == stamp;
    assert r[|stamp|..] == EntryBody(p, describe);
    r
  }

  /** A whole entry: the stamp, the author and content, a blank line, then the image block. */
  lemma FormatEntryParts(p: Pending, describe: string -> string)
    ensures FormatEntry(p, describe)
      == "[" + p.createdAt + "] " + AuthorLabel(p) + ": " + p.content + "\n\n" + ImageBlock(p.attachmentUrls, describe)
  {
    var stamp := "[" + p.createdAt + "] ";
    var head := AuthorLabel(p) + ": " + p.content + "\n\n";
    var block := ImageBlock(p.attachmentUrls, describe);
    var body := EntryBody(p, describe);
    var r := FormatEntry(p, describe);
    assert r == stamp + body by { assert r == r[..|stamp|] + r[|stamp|..]; }
    assert body == head + block by { assert body == body[..|head|] + body[|head|..]; }
    AppendAssoc(stamp, head, block);
    assert stamp + head == "[" + p.createdAt + "] " + AuthorLabel(p) + ": " + p.content + "\n\n";
  }

  /** A message without attachments is buffered as "[ts] author: content" and a blank line. */
  lemma FormatEntryWithoutImages(p: Pending, describe: string -> string)
    requires p.attachmentUrls == []
    ensures FormatEntry(p, describe) == "[" + p.createdAt + "] " + AuthorLabel(p) + ": " + p.content + "\n\n"
  {
    FormatEntryParts(p, describe);
  }

  /** A message with one image attachment is buffered with its count line and its one description. */
  lemma FormatEntryOneImage(p: Pending, describe: string -> string)
    requires |p.attachmentUrls| == 1
    ensures FormatEntry(p, describe)
      == "[" + p.createdAt + "] " + AuthorLabel(p) + ": " + p.content + "\n\n"
         + "The message contains 1 images." + DescriptionLine(1, describe(p.attachmentUrls[0]))
  {
    FormatEntryParts(p, describe);
    ImageBlockOne(p.attachmentUrls[0], describe);
    assert p.attachmentUrls == [p.attachmentUrls[0]];
  }

  /** The processor's formatter, with the image describer fixed. */
  function Formatter(describe: string -> string): Pending -> string
  {
    p => FormatEntry(p, describe)
  }

  /**
   * One step of the processor: the oldest pending message becomes one buffered
   * entry, with the text `format` gives it, and the count grows by one.
   */
  function Process(s: State, format: Pending -> string): (r: State)
    ensures s.pending == [] ==> r == s
    ensures s.pending != [] ==>
      r.pending == s.pending[1..] &&
      r.received == s.received + [Entry(s.pending[0].messageId, format(s.pending[0]))] &&
      r.count == s.count + 1 &&
      r.target == s.target && r.timerTask == s.timerTask && r.inFlight == s.inFlight
  {
    if s.pending == [] then s
    else
      var p := s.pending[0];
      s.(pending := s.pending[1..],
         received := s.received + [Entry(p.messageId, format(p))],
         count := s.count + 1)
  }

  /** The entries the processor makes of a list of pending messages, in order. */
  function Formatted(ps: seq<Pending>, format: Pending -> string): (r: seq<Entry>)
    ensures |r| == |ps|
    ensures forall j :: 0 <= j < |ps| ==> r[j].id == ps[j].messageId
  {
    if ps == [] then [] else [Entry(ps[0].messageId, format(ps[0]))] + Formatted(ps[1..], format)
  }

  /** Processing `n` pending messages buffers them in arrival order. */
  lemma {:induction false} ProcessAllInOrder(s: State, format: Pending -> string, n: nat)
    requires n <= |s.pending|
    ensures ProcessN(s, format, n).received == s.received + Formatted(s.pending[..n], format)
    decreases n
  {
    if n > 0 {
      ProcessAllInOrder(Process(s, format), format, n - 1);
      ProcessFirst(s, format, n);
    } else {
      assert s.received + Formatted(s.pending[..0], format) == s.received + [];
      assert s.received + [] == s.received;
    }
  }

  /** Processing `n` pending messages takes them off the queue and counts each once. */
  lemma {:induction false} ProcessAllCounts(s: State, format: Pending -> string, n: nat)
    requires n <= |s.pending|
    ensures ProcessN(s, format, n).pending == s.pending[n..]
    ensures ProcessN(s, format, n).count == s.count + n
    decreases n
  {
    if n > 0 {
      var s1 := Process(s, format);
      ProcessAllCounts(s1, format, n - 1);
      assert s1.pending[n - 1..] == s.pending[n..];
    } else {
      assert s.pending[0..] == s.pending;
    }
  }

  /** Processing the first of `n` pending messages moves its entry to the end of the buffer. */
  lemma ProcessFirst(s: State, format: Pending -> string, n: nat)
    requires 0 < n <= |s.pending|
    ensures Process(s, format).received + Formatted(Process(s, format).pending[..n - 1], format)
      == s.received + Formatted(s.pending[..n], format)
  {
    var s1 := Process(s, format);
    var ps := s.pending[..n];
    var head := Entry(ps[0].messageId, format(ps[0]));
    assert s1.received == s.received + [head];
    assert ps[1..] == s1.pending[..n - 1];
    assert Formatted(ps, format) == [head] + Formatted(ps[1..], format);
    AppendAssoc(s.received, [head], Formatted(ps[1..], format));
  }

  function ProcessN(s: State, format: Pending -> string, n: nat): State
    decreases n
  {
    if n == 0 then s else ProcessN(Process(s, format), format, n - 1)
  }

  // ---------------------------------------------------------------------------
  // Removing and editing buffered entries

  /** Position of the first entry with the id. */
  function FirstWithId(entries: seq<Entry>, id: int): (r: Option<nat>)
    ensures r.Some? ==> r.value < |entries| && entries[r.value].id == id
    ensures r.Some? ==> forall j :: 0 <= j < r.value ==> entries[j].id != id
    ensures r.None? ==> forall j :: 0 <= j < |entries| ==> entries[j].id != id
  {
    FirstWhere(entries, (e: Entry) => e.id == id)
  }

  /** Deletes the first entry with the id and decrements the count; an absent id changes nothing. */
  function Remove(s: State, id: int): (r: State)
    ensures FirstWithId(s.received, id).None? ==> r == s
    ensures FirstWithId(s.received, id).Some? ==>
      var i := FirstWithId(s.received, id).value;
      r.received == s.received[..i] + s.received[i + 1..] && r.count == s.count - 1 &&
      r.pending == s.pending && r.target == s.target && r.timerTask == s.timerTask && r.inFlight == s.inFlight
  {
    match FirstWithId(s.received, id)
    case None => s
    case Some(i) => s.(received := s.received[..i] + s.received[i + 1..], count := s.count - 1)
  }

  /** Removal takes out exactly one entry with the id and keeps every other entry. */
  lemma RemoveKeepsOthers(s: State, id: int)
    requires exists j :: 0 <= j < |s.received| && s.received[j].id == id
    ensures multiset(Remove(s, id).received) + multiset{s.received[FirstWithId(s.received, id).value]}
      == multiset(s.received)
  {
    var f := FirstWithId(s.received, id);
    assert f.Some? by {
      var j :| 0 <= j < |s.received| && s.received[j].id == id;
    }
    var i := f.value;
    assert Remove(s, id).received == s.received[..i] + s.received[i + 1..];
    RemoveAtMultiset(s.received, i);
  }

  /** The canonical "%Y-%m-%d %H:%M:%S" text: the only timestamp text the model's `strptime` accepts. */
  predicate IsStampText(t: string) {
    |t| == 19 &&
    (forall i :: 0 <= i < 19 && i !in {4, 7, 10, 13, 16} ==> IsDigit(t[i])) &&
    t[4] == '-' && t[7] == '-' && t[10] == ' ' && t[13] == ':' && t[16] == ':'
  }

  /** The timestamp recovered by splitting the old content on `sep` once and stripping leading '[' characters. */
  function RecoveredStamp(content: string, sep: string): (ts: string)
    ensures ts == [] || IsStampText(ts)
  {
    match Find(content, sep)
    case None => []
    case Some(p) =>
      var candidate := DropWhile(content[..p], c => c == '[');
      if IsStampText(candidate) then candidate else []
  }

  /**
   * The edited content as the code rebuilds it: the split separator is "]: ".
   * The stamp it writes is the one that split recovered, as a later split on
   * "] " reads it back.
   */
  function RebuildAsWritten(content: string, displayName: string, newContent: string): (r: string)
    ensures RecoveredStamp(r, "] ") == RecoveredStamp(content, "]: ")
    ensures EndsWith(r, "] " + displayName + ": " + newContent)
    ensures RecoveredStamp(content, "]: ") == [] ==> r == "[] " + displayName + ": " + newContent
  {
    var ts := RecoveredStamp(content, "]: ");
    var rest := displayName + ": " + newContent;
    var r := "[" + ts + "] " + displayName + ": " + newContent;
    assert r == "[" + ts + "] " + rest;
    RebuiltStamp(ts, rest);
    assert r == "[" + ts + ("] " + displayName + ": " + newContent);
    AffixesOfConcat("[", ts, "] " + displayName + ": " + newContent);
    r
  }

  /** The edited content with the separator the formatter actually writes, "] ": it keeps the recovered stamp. */
  function Rebuild(content: string, displayName: string, newContent: string): (r: string)
    ensures RecoveredStamp(r, "] ") == RecoveredStamp(content, "] ")
    ensures EndsWith(r, "] " + displayName + ": " + newContent)
    ensures StartsWith(r, "[" + RecoveredStamp(content, "] ") + "] ")
  {
    var ts := RecoveredStamp(content, "] ");
    var rest := displayName + ": " + newContent;
    var r := "[" + ts + "] " + displayName + ": " + newContent;
    assert r == "[" + ts + "] " + rest;
    RebuiltStamp(ts, rest);
    assert r == "[" + ts + ("] " + displayName + ": " + newContent);
    AffixesOfConcat("[", ts, "] " + displayName + ": " + newContent);
    r
  }

  /** Reading back the stamp of a rebuilt entry "[ts] rest" gives `ts`, whether a stamp or empty. */
  lemma RebuiltStamp(ts: string, rest: string)
    requires ts == [] || IsStampText(ts)
    ensures RecoveredStamp("[" + ts + "] " + rest, "] ") == ts
  {
    var content := "[" + ts + "] " + rest;
    if ts == [] {
      assert content == "[] " + rest;
      assert OccursAt(content, "] ", 1) by { assert content[1..3] == "] "; }
      var p := Find(content, "] ").value;
      assert p <= 1;
    } else {
      StampCloses(ts, rest);
      StampedText(ts, rest);
      DropBracket(content, ts, |ts| + 1);
      assert content[1..|ts| + 1] == ts;
    }
  }

  /** A stamp has no ']' and does not start with '['. */
  lemma StampChars(ts: string)
    requires IsStampText(ts)
    ensures forall i :: 0 <= i < |ts| ==> ts[i] != ']'
    ensures ts[0] != '['
  {
    forall i | 0 <= i < |ts| ensures ts[i] != ']' {
      if i !in {4, 7, 10, 13, 16} {
        assert IsDigit(ts[i]);
      }
    }
    assert IsDigit(ts[0]);
  }

  /** On content "[ts] ..." with a stamp `ts`, stripping '[' from the first `p` characters leaves exactly the characters 1..p. */
  lemma DropBracket(content: string, ts: string, p: nat)
    requires IsStampText(ts) && StartsWith(content, "[" + ts) && 2 <= p <= |content|
    ensures DropWhile(content[..p], c => c == '[') == content[1..p]
  {
    StampChars(ts);
    var pre := content[..p];
    var r := DropWhile(pre, c => c == '[');
    assert content[1] == ("[" + ts)[1] == ts[0];
    assert pre[0] == '[' && pre[1] == ts[0];
    assert |pre| - |r| == 1;
  }

  /** The characters around the stamp of an entry's text "[ts] rest". */
  lemma StampedText(ts: string, rest: string)
    requires IsStampText(ts)
    ensures var content := "[" + ts + "] " + rest;
      content[0] == '[' && content[|ts| + 1] == ']' && content[|ts| + 2] == ' ' &&
      (forall j :: 1 <= j <= |ts| ==> content[j] == ts[j - 1]) &&
      StartsWith(content, "[" + ts)
  {
    var content := "[" + ts + "] " + rest;
    assert content == "[" + ts + ("] " + rest);
    assert content[..|ts| + 1] == "[" + ts;
  }

  /** In an entry's text "[ts] rest" the first "]: " comes after the stamp's closing "] ". */
  lemma SeparatorAfterStamp(ts: string, rest: string, p: nat)
    requires IsStampText(ts)
    requires OccursAt("[" + ts + "] " + rest, "]: ", p)
    ensures p >= |ts| + 2
  {
    var content := "[" + ts + "] " + rest;
    StampedText(ts, rest);
    StampChars(ts);
    assert content[p] == "]: "[0] && content[p + 1] == "]: "[1] by {
      assert content[p..p + 3] == "]: ";
    }
  }

  /** The as-written rebuild loses the timestamp of every entry the processor formats, whatever follows it. */
  lemma RebuildAsWrittenLosesStamp(ts: string, rest: string, displayName: string, newContent: string)
    requires IsStampText(ts)
    ensures RebuildAsWritten("[" + ts + "] " + rest, displayName, newContent) == "[] " + displayName + ": " + newContent
  {
    var content := "[" + ts + "] " + rest;
    assert RecoveredStamp(content, "]: ") == [] by {
      match Find(content, "]: ")
      case None =>
      case Some(p) =>
        SeparatorAfterStamp(ts, rest, p);
        StampedText(ts, rest);
        DropBracket(content, ts, p);
    }
  }

  /** In an entry's text "[ts] rest" the first "] " is the stamp's closing one. */
  lemma StampCloses(ts: string, rest: string)
    requires IsStampText(ts)
    ensures Find("[" + ts + "] " + rest, "] ") == Some(|ts| + 1)
  {
    var content := "[" + ts + "] " + rest;
    StampedText(ts, rest);
    StampChars(ts);
    assert OccursAt(content, "] ", |ts| + 1) by {
      assert content[|ts| + 1..|ts| + 3] == "] ";
    }
    var p := Find(content, "] ").value;
    assert content[p] == "] "[0] by {
      assert content[p..p + 2] == "] ";
    }
  }

  /** The corrected rebuild keeps the timestamp of an entry formatted "[ts] ...", so repeated edits keep it too. */
  lemma RebuildKeepsStamp(ts: string, rest: string, displayName: string, newContent: string)
    requires IsStampText(ts)
    ensures Rebuild("[" + ts + "] " + rest, displayName, newContent) == "[" + ts + "] " + displayName + ": " + newContent
  {
    var content := "[" + ts + "] " + rest;
    StampCloses(ts, rest);
    StampedText(ts, rest);
    DropBracket(content, ts, |ts| + 1);
    assert RecoveredStamp(content, "] ") == ts by {
      assert content[1..|ts| + 1] == ts;
    }
  }

  /** Replaces the content of the first entry with the id by `rebuilt` of its old content; ids, positions, length and count are kept. */
  function EditWith(s: State, id: int, rebuilt: string -> string): (r: State)
    ensures |r.received| == |s.received| && r.count == s.count
    ensures forall j :: 0 <= j < |s.received| ==> r.received[j].id == s.received[j].id
    ensures FirstWithId(s.received, id).None? ==> r == s
    ensures FirstWithId(s.received, id).Some? ==>
      var i := FirstWithId(s.received, id).value;
      r.received[i].content == rebuilt(s.received[i].content) &&
      (forall j :: 0 <= j < |s.received| && j != i ==> r.received[j] == s.received[j]) &&
      r.pending == s.pending && r.target == s.target && r.timerTask == s.timerTask && r.inFlight == s.inFlight
  {
    match FirstWithId(s.received, id)
    case None => s
    case Some(i) =>
      var e := s.received[i];
      s.(received := s.received[i := e.(content := rebuilt(e.content))])
  }

  /** `edit_processed_message` as written: the first entry with the id is rebuilt after a split on "]: ". */
  function Edit(s: State, id: int, displayName: string, newContent: string): (r: State)
    ensures |r.received| == |s.received| && r.count == s.count
    ensures forall j :: 0 <= j < |s.received| ==> r.received[j].id == s.received[j].id
    ensures FirstWithId(s.received, id).None? ==> r == s
    ensures FirstWithId(s.received, id).Some? ==>
      var i := FirstWithId(s.received, id).value;
      r.received[i].content == RebuildAsWritten(s.received[i].content, displayName, newContent) &&
      (forall j :: 0 <= j < |s.received| && j != i ==> r.received[j] == s.received[j]) &&
      r.pending == s.pending && r.target == s.target && r.timerTask == s.timerTask && r.inFlight == s.inFlight
  {
    EditWith(s, id, c => RebuildAsWritten(c, displayName, newContent))
  }

  /** The edit with the separator the formatter writes, "] ". */
  function EditCorrected(s: State, id: int, displayName: string, newContent: string): (r: State)
    ensures |r.received| == |s.received| && r.count == s.count
    ensures forall j :: 0 <= j < |s.received| ==> r.received[j].id == s.received[j].id
    ensures FirstWithId(s.received, id).None? ==> r == s
    ensures FirstWithId(s.received, id).Some? ==>
      var i := FirstWithId(s.received, id).value;
      r.received[i].content == Rebuild(s.received[i].content, displayName, newContent) &&
      (forall j :: 0 <= j < |s.received| && j != i ==> r.received[j] == s.received[j]) &&
      r.pending == s.pending && r.target == s.target && r.timerTask == s.timerTask && r.inFlight == s.inFlight
  {
    EditWith(s, id, c => Rebuild(c, displayName, newContent))
  }

  /** The entry of a freshly processed message with a well-formed creation time. */
  lemma ProcessedEntry(s: State, p: Pending, describe: string -> string)
    requires s.pending == [p] && s.received == []
    ensures Process(s, Formatter(describe)).received == [Entry(p.messageId, "[" + p.createdAt + "] " + EntryBody(p, describe))]
    ensures FirstWithId(Process(s, Formatter(describe)).received, p.messageId) == Some(0)
  {
    assert Formatter(describe)(p) == FormatEntry(p, describe);
  }

  /** Editing a processed message as the code does drops its timestamp: the entry becomes "[] name: text". */
  lemma EditLosesStamp(s: State, p: Pending, describe: string -> string, displayName: string, newContent: string)
    requires s.pending == [p] && s.received == [] && IsStampText(p.createdAt)
    ensures Edit(Process(s, Formatter(describe)), p.messageId, displayName, newContent).received
      == [Entry(p.messageId, "[] " + displayName + ": " + newContent)]
  {
    ProcessedEntry(s, p, describe);
    RebuildAsWrittenLosesStamp(p.createdAt, EntryBody(p, describe), displayName, newContent);
  }

  /** The corrected edit of a processed message keeps its timestamp. */
  lemma EditCorrectedKeepsStamp(s: State, p: Pending, describe: string -> string, displayName: string, newContent: string)
    requires s.pending == [p] && s.received == [] && IsStampText(p.createdAt)
    ensures EditCorrected(Process(s, Formatter(describe)), p.messageId, displayName, newContent).received
      == [Entry(p.messageId, "[" + p.createdAt + "] " + displayName + ": " + newContent)]
  {
    ProcessedEntry(s, p, describe);
    RebuildKeepsStamp(p.createdAt, EntryBody(p, describe), displayName, newContent);
  }

  /** `get_progress_snapshot`: buffered plus pending messages, and the current target. */
  function ProgressSnapshot(s: State): (r: (int, int))
    ensures Inv(s) ==> r.0 == s.count + |s.pending|
    ensures r.0 >= 0 && r.1 == s.target
  {
    (|s.received| + |s.pending|, s.target)
  }

  // ---------------------------------------------------------------------------
  // Runs

  /** An event the timer's owner can observe. */
  datatype Step =
    | EnqueueStep(p: Pending)
    | StartStep(cfg: TimerConfig, now: int, lengthPick: nat, messagesPick: nat)
    | TickStep(now: int)
    | ProcessStep(describe: string -> string)
    | RemoveStep(id: int)
    | EditStep(id: int, displayName: string, newContent: string)
    | CompleteStep(batch: nat, ok: bool, cfg: TimerConfig, now: int, lengthPick: nat, messagesPick: nat)

  /** The effect of one event; a completion of a batch that is not in flight is ignored. Every event keeps the count invariant. */
  function Next(s: State, step: Step): (r: State)
    ensures Inv(s) ==> Inv(r)
  {
    match step
    case EnqueueStep(p) => Enqueue(s, p)
    case StartStep(cfg, now, lp, mp) =>
      (match StartTimer(s, cfg, now, lp, mp) case Ok(r) => r case Err(_) => s)
    case TickStep(now) => Tick(s, now)
    case ProcessStep(describe) => Process(s, Formatter(describe))
    case RemoveStep(id) => Remove(s, id)
    case EditStep(id, name, text) => Edit(s, id, name, text)
    case CompleteStep(i, ok, cfg, now, lp, mp) =>
      if i < |s.inFlight| then Complete(s, i, ok, cfg, now, lp, mp) else s
  }

  /** The events in turn: from a consistent state, the count equals the number of received entries after any sequence. */
  function Run(s: State, steps: seq<Step>): (r: State)
    ensures Inv(s) ==> Inv(r)
    decreases |steps|
  {
    if steps == [] then s else Run(Next(s, steps[0]), steps[1..])
  }
}

=== FILE: search_history.dfy ===
/** The assistant's bounded history of web-search terms. */
module SearchHistory {
  import opened Sequences

  /** The number of terms the history keeps. */
  const MaxSearchHistory: nat := 50

  /** How a term is stored: an empty term is shown as "(empty)". */
  function SafeTerm(term: string): (t: string)
    ensures t != []
    ensures term != [] ==> t == term
    ensures term == [] ==> t == "(empty)"
  {
    if term == [] then "(empty)" else term
  }

  /** Appends a term and drops the oldest entries beyond the bound. */
  function Record(history: seq<string>, term: string): (r: seq<string>)
    ensures |r| <= MaxSearchHistory && |r| <= |history| + 1
    ensures |history| < MaxSearchHistory ==> r == history + [SafeTerm(term)]
    ensures r != [] && r[|r| - 1] == SafeTerm(term)
    ensures r == (history + [SafeTerm(term)])[|history| + 1 - |r|..]
  {
    BoundedAppend(history, SafeTerm(term), MaxSearchHistory)
  }

  /** Records the terms in turn. */
  function RecordAll(history: seq<string>, terms: seq<string>): seq<string>
    decreases |terms|
  {
    if terms == [] then history else RecordAll(Record(history, terms[0]), terms[1..])
  }

  function SafeTerms(terms: seq<string>): (r: seq<string>)
    ensures |r| == |terms|
    ensures forall i :: 0 <= i < |terms| ==> r[i] == SafeTerm(terms[i])
  {
    seq(|terms|, i requires 0 <= i < |terms| => SafeTerm(terms[i]))
  }

  /** The history always holds exactly the most recent (at most 50) terms searched, oldest first. */
  lemma {:induction false} RecordAllKeepsMostRecent(history: seq<string>, terms: seq<string>)
    requires |history| <= MaxSearchHistory
    ensures RecordAll(history, terms) == KeepLast(history + SafeTerms(terms), MaxSearchHistory)
    decreases |terms|
  {
    RecordAllIsBoundedAppendAll(history, terms);
    BoundedAppendAllKeepsLast(history, SafeTerms(terms), MaxSearchHistory);
  }

  lemma {:induction false} RecordAllIsBoundedAppendAll(history: seq<string>, terms: seq<string>)
    ensures RecordAll(history, terms) == BoundedAppendAll(history, SafeTerms(terms), MaxSearchHistory)
    decreases |terms|
  {
    if terms != [] {
      RecordAllIsBoundedAppendAll(Record(history, terms[0]), terms[1..]);
      assert SafeTerms(terms)[1..] == SafeTerms(terms[1..]);
    }
  }
}

=== FILE: sequences.dfy ===
/** Generic sequence operations: bounded histories and order-preserving de-duplication. */
module Sequences {
  import opened Common

  predicate NoDuplicates<T(==)>(xs: seq<T>) {
    forall i, j :: 0 <= i < j < |xs| ==> xs[i] != xs[j]
  }

  lemma AppendAssoc<T>(a: seq<T>, b: seq<T>, c: seq<T>)
    ensures (a + b) + c == a + (b + c)
  {
  }

  /** Taking out the element at `i` leaves the rest of the multiset. */
  lemma RemoveAtMultiset<T>(xs: seq<T>, i: nat)
    requires i < |xs|
    ensures multiset(xs[..i] + xs[i + 1..]) + multiset{xs[i]} == multiset(xs)
  {
    assert xs == xs[..i] + [xs[i]] + xs[i + 1..];
  }

  /** Position of the first element satisfying `p`, or none when no element does. */
  function FirstWhere<T>(xs: seq<T>, p: T -> bool): (r: Option<nat>)
    ensures r.Some? ==> r.value < |xs| && p(xs[r.value])
    ensures r.Some? ==> forall j :: 0 <= j < r.value ==> !p(xs[j])
    ensures r.None? ==> forall j :: 0 <= j < |xs| ==> !p(xs[j])
    decreases |xs|
  {
    if xs == [] then None
    else if p(xs[0]) then Some(0)
    else match FirstWhere(xs[1..], p)
      case None => None
      case Some(k) => Some(k + 1)
  }

  /** Position of the first occurrence of `x`. */
  function IndexOf<T(==)>(xs: seq<T>, x: T): (i: nat)
    requires x in xs
    ensures i < |xs| && xs[i] == x && x !in xs[..i]
  {
    if xs[0] == x then 0 else 1 + IndexOf(xs[1..], x)
  }

  lemma IndexOfExtend<T>(xs: seq<T>, y: T, x: T)
    requires x in xs
    ensures IndexOf(xs + [y], x) == IndexOf(xs, x)
  {
    var i := IndexOf(xs, x);
    assert (xs + [y])[i] == x;
    assert (xs + [y])[..i] == xs[..i];
  }

  /**
   * `list(dict.fromkeys(xs))`: the first occurrence of every element, in the order
   * those first occurrences appear.
   */
  function Dedupe<T(==)>(xs: seq<T>): (r: seq<T>)
    ensures NoDuplicates(r)
    ensures forall i :: 0 <= i < |r| ==> r[i] in xs
    ensures forall i :: 0 <= i < |xs| ==> xs[i] in r
    ensures |r| <= |xs|
  {
    if xs == [] then []
    else
      var d := Dedupe(xs[..|xs| - 1]);
      var x := xs[|xs| - 1];
      assert xs == xs[..|xs| - 1] + [x];
      if x in d then d else d + [x]
  }

  /** Dedupe keeps exactly the elements of its input. */
  lemma DedupeSameElements<T>(xs: seq<T>, x: T)
    ensures x in Dedupe(xs) <==> x in xs
  {
    var d := Dedupe(xs);
    if x in d {
      var i :| 0 <= i < |d| && d[i] == x;
    }
    if x in xs {
      var i :| 0 <= i < |xs| && xs[i] == x;
    }
  }

  /** One more element: Dedupe grows by it exactly when it is new. */
  lemma DedupeSnoc<T>(xs: seq<T>, i: nat)
    requires i < |xs|
    ensures Dedupe(xs[..i + 1]) == if xs[i] in xs[..i] then Dedupe(xs[..i]) else Dedupe(xs[..i]) + [xs[i]]
  {
    var ys := xs[..i + 1];
    assert ys[..|ys| - 1] == xs[..i];
    assert ys[|ys| - 1] == xs[i];
    DedupeSameElements(xs[..i], xs[i]);
  }

  predicate InFirstOccurrenceOrder<T(==)>(xs: seq<T>, d: seq<T>)
    requires forall i :: 0 <= i < |d| ==> d[i] in xs
  {
    forall i, j :: 0 <= i < j < |d| ==> IndexOf(xs, d[i]) < IndexOf(xs, d[j])
  }

  lemma IndexOfNew<T>(xs: seq<T>, x: T)
    requires x !in xs
    ensures IndexOf(xs + [x], x) == |xs|
  {
    var ys := xs + [x];
    assert ys[|xs|] == x;
    assert ys[..|xs|] == xs;
  }

  /** Appending an element keeps the earlier elements' first positions. */
  lemma DedupeIndexesKept<T>(init: seq<T>, x: T)
    ensures forall i :: 0 <= i < |Dedupe(init)| ==> IndexOf(init + [x], Dedupe(init)[i]) == IndexOf(init, Dedupe(init)[i])
  {
    var d := Dedupe(init);
    forall i | 0 <= i < |d|
      ensures IndexOf(init + [x], d[i]) == IndexOf(init, d[i])
    {
      IndexOfExtend(init, x, d[i]);
    }
  }

  /** A new element goes last in first-occurrence order. */
  lemma OrderWithNew<T>(init: seq<T>, d: seq<T>, x: T)
    requires x !in init
    requires forall i :: 0 <= i < |d| ==> d[i] in init
    requires InFirstOccurrenceOrder(init, d)
    requires forall i :: 0 <= i < |d| ==> IndexOf(init + [x], d[i]) == IndexOf(init, d[i])
    ensures forall i :: 0 <= i < |d + [x]| ==> (d + [x])[i] in init + [x]
    ensures InFirstOccurrenceOrder(init + [x], d + [x])
  {
    var xs := init + [x];
    var r := d + [x];
    IndexOfNew(init, x);
    forall i, j | 0 <= i < j < |r|
      ensures IndexOf(xs, r[i]) < IndexOf(xs, r[j])
    {
      assert r[i] == d[i];
      if j == |d| {
        assert IndexOf(init, d[i]) < |init|;
      } else {
        assert r[j] == d[j];
      }
    }
  }

  /** Dedupe keeps the elements in the order of their first occurrence in the input. */
  lemma {:induction false} DedupeFirstOccurrenceOrder<T>(xs: seq<T>)
    ensures InFirstOccurrenceOrder(xs, Dedupe(xs))
  {
    if xs != [] {
      var init := xs[..|xs| - 1];
      var x := xs[|xs| - 1];
      assert xs == init + [x];
      var d := Dedupe(init);
      DedupeFirstOccurrenceOrder(init);
      DedupeIndexesKept(init, x);
      if x in d {
        assert Dedupe(xs) == d;
      } else {
        DedupeSameElements(init, x);
        assert Dedupe(xs) == d + [x];
        OrderWithNew(init, d, x);
      }
    }
  }

  /** De-duplicating a list without duplicates leaves it unchanged. */
  lemma {:induction false} DedupeOfDistinct<T>(xs: seq<T>)
    requires NoDuplicates(xs)
    ensures Dedupe(xs) == xs
  {
    if xs != [] {
      var init := xs[..|xs| - 1];
      DedupeOfDistinct(init);
      assert xs[|xs| - 1] !in init;
      assert xs == init + [xs[|xs| - 1]];
    }
  }

  /** The last `n` elements (all of them when there are at most `n`). */
  function KeepLast<T>(xs: seq<T>, n: nat): (r: seq<T>)
    ensures |r| == if |xs| <= n then |xs| else n
    ensures r == xs[|xs| - |r|..]
  {
    if |xs| <= n then xs else xs[|xs| - n..]
  }

  /** Appends `x` and drops the oldest entries beyond `n`: a `deque(maxlen=n)` append. */
  function BoundedAppend<T>(h: seq<T>, x: T, n: nat): seq<T>
  {
    KeepLast(h + [x], n)
  }

  /** Appends every element of `xs` in turn, each append bounded by `n`. */
  function BoundedAppendAll<T>(h: seq<T>, xs: seq<T>, n: nat): seq<T>
    decreases |xs|
  {
    if xs == [] then h else BoundedAppendAll(BoundedAppend(h, xs[0], n), xs[1..], n)
  }

  /** Keeping the last `n` before appending more changes nothing about the last `n` after. */
  lemma KeepLastThenAppend<T>(a: seq<T>, b: seq<T>, n: nat)
    ensures KeepLast(KeepLast(a, n) + b, n) == KeepLast(a + b, n)
  {
    if |a| > n {
      var t := a[|a| - n..];
      assert (a + b)[|a + b| - n..] == (t + b)[|t + b| - n..];
    }
  }

  lemma BoundedAppendAllStep<T>(h: seq<T>, xs: seq<T>, n: nat)
    requires xs != []
    ensures BoundedAppendAll(h, xs, n) == BoundedAppendAll(BoundedAppend(h, xs[0], n), xs[1..], n)
  {
  }

  /** Bounded appends one by one keep exactly the last `n` of everything appended. */
  lemma {:induction false} BoundedAppendAllKeepsLast<T>(h: seq<T>, xs: seq<T>, n: nat)
    requires |h| <= n
    ensures BoundedAppendAll(h, xs, n) == KeepLast(h + xs, n)
    decreases |xs|
  {
    if xs != [] {
      var h' := BoundedAppend(h, xs[0], n);
      BoundedAppendAllStep(h, xs, n);
      BoundedAppendAllKeepsLast(h', xs[1..], n);
      KeepLastThenAppend(h + [xs[0]], xs[1..], n);
      AppendAssoc(h, [xs[0]], xs[1..]);
      assert [xs[0]] + xs[1..] == xs;
    }
  }
}

=== FILE: settings.dfy ===
/**
 * The typed settings store: each setting key maps to a stored text value and a
 * data-type tag. Values are normalised to their storage text by `Coerce`, checked
 * by `IsValid`, repaired at start-up, read back as typed values and updated by key.
 * The SQL table is modelled as a map from key to row.
 */
module Settings {
  import opened Common
  import opened Text
  import opened Numerals

  /** The four behaviours the type tag selects; any other tag (FLOAT included) behaves as TEXT. */
  datatype Kind = BoolKind | IntegerKind | CharacterKind | TextKind

  /** Tag dispatch of coercion and validation: the tag is upper-cased first. */
  function KindOf(dataType: string): Kind
  {
    var dt := Upper(dataType);
    if dt == "BOOL" then BoolKind
    else if dt == "INTEGER" then IntegerKind
    else if dt == "CHARACTER" then CharacterKind
    else TextKind
  }

  /** Words that coerce to "1" for a BOOL setting, compared after lower-casing. */
  const TruthyWords: seq<string> := ["true", "t", "yes", "y", "on"]

  predicate IsTruthyWord(v: string) { Lower(v) in TruthyWords }

  /**
   * Validity of a stored value for a tag: BOOL takes "0" or "1", INTEGER a
   * trimmed digit string with at most a leading "-", CHARACTER exactly one
   * character, and every other tag anything.
   */
  function IsValid(value: string, dataType: string): (b: bool)
    ensures KindOf(dataType) == BoolKind ==> (b <==> value in ["0", "1"])
    ensures KindOf(dataType) == IntegerKind ==> (b <==>
      var v := Strip(value);
      v != [] && (forall i :: 1 <= i < |v| ==> IsDigit(v[i])) && (IsDigit(v[0]) || (v[0] == '-' && |v| >= 2)))
    ensures KindOf(dataType) == IntegerKind && value != [] && AllDigits(value) ==> b
    ensures KindOf(dataType) == CharacterKind ==> (b <==> |value| == 1)
    ensures KindOf(dataType) == TextKind ==> b
  {
    match KindOf(dataType)
    case BoolKind => value == "0" || value == "1"
    case IntegerKind =>
      var v := Strip(value);
      IsDigitString(if StartsWith(v, "-") then v[1..] else v)
    case CharacterKind => |value| == 1
    case TextKind => true
  }

  /** BOOL coercion: a stripped "1"/"0" is kept, a truthy word in any case gives "1", anything else "0". */
  function CoerceBool(value: string): (r: string)
    ensures r == "0" || r == "1"
    ensures r == "1" <==> Strip(value) == "1" || (Strip(value) != "0" && IsTruthyWord(Strip(value)))
  {
    var v := Strip(value);
    if v == "1" || v == "0" then v
    else if IsTruthyWord(v) then "1"
    else "0"
  }

  /** Normalises a value to the storage text of its tag. */
  function Coerce(value: string, dataType: string): (r: string)
    ensures IsValid(r, dataType)
    ensures KindOf(dataType) == BoolKind ==> r == CoerceBool(value)
    ensures KindOf(dataType) == IntegerKind ==>
      ParseInt(r) == Some(ParseInt(value).GetOr(0)) && IsStripped(r)
    ensures KindOf(dataType) == IntegerKind ==> r == IntToString(ParseInt(value).GetOr(0))
    ensures KindOf(dataType) == CharacterKind ==>
      r == (if value == [] then " " else [value[0]])
    ensures KindOf(dataType) == TextKind ==> r == value
  {
    match KindOf(dataType)
    case BoolKind => CoerceBool(value)
    case IntegerKind =>
      var n := ParseInt(value).GetOr(0);
      ParseIntToString(n);
      IntegerTextValid(n);
      IntToString(n)
    case CharacterKind => if value == [] then " " else [value[0]]
    case TextKind => value
  }

  lemma IntegerTextValid(n: int)
    ensures IsValid(IntToString(n), "INTEGER")
  {
    var s := IntToString(n);
    StripStripped(s);
    if n < 0 {
      assert s[1..] == NatToString(-n);
    }
  }

  /** The INTEGER test, like `int()`, ignores whitespace around an integer's text. */
  lemma PaddedIntegerValid(pre: string, n: int, post: string)
    requires AllSpace(pre) && AllSpace(post)
    ensures IsValid(pre + IntToString(n) + post, "INTEGER")
  {
    var s := IntToString(n);
    StripPadded(pre, s, post);
    IntegerTextValid(n);
    StripStripped(s);
  }

  /** Every value the INTEGER validator accepts parses as an integer. */
  lemma ValidIntegerParses(value: string, dataType: string)
    requires KindOf(dataType) == IntegerKind && IsValid(value, dataType)
    ensures ParseInt(value).Some?
  {
    var v := Strip(value);
    if StartsWith(v, "-") {
      assert v[0] == '-' && IsDigitString(v[1..]);
    } else {
      assert IsDigitString(v) && !IsDigit('+') && v[0] != '+';
    }
  }

  /** Coercion is idempotent for every tag. */
  lemma CoerceIdempotent(value: string, dataType: string)
    ensures Coerce(Coerce(value, dataType), dataType) == Coerce(value, dataType)
  {
    var r := Coerce(value, dataType);
    match KindOf(dataType)
    case BoolKind =>
      StripStripped(r);
    case IntegerKind =>
      var n := ParseInt(value).GetOr(0);
      ParseIntToString(n);
    case CharacterKind =>
    case TextKind =>
  }

  /** A valid value is a fixed point of coercion for every tag except INTEGER. */
  lemma CoerceKeepsValid(value: string, dataType: string)
    requires IsValid(value, dataType) && KindOf(dataType) != IntegerKind
    ensures Coerce(value, dataType) == value
  {
    if KindOf(dataType) == BoolKind {
      StripStripped(value);
    }
  }

  /** For INTEGER, a valid value coerces to the canonical text of the same number. */
  lemma CoerceValidInteger(value: string, dataType: string)
    requires KindOf(dataType) == IntegerKind && IsValid(value, dataType)
    ensures ParseInt(Coerce(value, dataType)) == ParseInt(value)
  {
    ValidIntegerParses(value, dataType);
  }

  // ---------------------------------------------------------------------------
  // The settings table

  /** A settings row; an empty `dataType` stands for a missing (NULL or empty) tag. */
  datatype Row = Row(value: string, dataType: string)

  type Store = map<string, Row>

  /** An entry of the table of required settings: key, default value and tag. */
  datatype Required = Required(key: string, default: string, dataType: string)

  /** The required settings, in declaration order. */
  const RequiredSettings: seq<Required> := [
    Required("Command Prefix", "!", "CHARACTER"),
    Required("Owner Discord ID", "0", "INTEGER"),
    Required("Owner Name", "ModdiPly", "TEXT"),
    Required("Default OpenAI Model", "gpt-4o", "TEXT"),
    Required("Fine-tune GPT Model", "null", "TEXT"),
    Required("Fine-tune Bot Detection Model", "null", "TEXT"),
    Required("Chat Response Enabled", "1", "BOOL"),
    Required("Minimum Chat Response Time (seconds)", "120", "INTEGER"),
    Required("Maximum Chat Response Time (seconds)", "600", "INTEGER"),
    Required("Minimum Chat Response Messages", "1", "INTEGER"),
    Required("Maximum Chat Response Messages", "10", "INTEGER"),
    Required("Discord Announcement Channel ID", "0", "INTEGER"),
    Required("Discord General Channel ID", "0", "INTEGER"),
    Required("Discord Moderation Logs Channel ID", "0", "INTEGER"),
    Required("Discord Game Channel ID", "0", "INTEGER"),
    Required("Discord Max Message Length", "500", "INTEGER"),
    Required("Discord New Account Age Threshold Days", "7", "INTEGER"),
    Required("Google Sheets Integration Enabled", "0", "BOOL"),
    Required("Google Sheets Quotes Sheet ID", "null", "TEXT"),
    Required("Current Active Game", "null", "TEXT"),
    Required("Debug Mode", "False", "BOOL")
  ]

  predicate IsRequiredKey(required: seq<Required>, key: string) {
    exists i :: 0 <= i < |required| && required[i].key == key
  }

  /** Entry `i` is the first entry of the list with its key. */
  predicate FirstOccurrence(required: seq<Required>, i: int) {
    0 <= i < |required| && forall j :: 0 <= j < i ==> required[j].key != required[i].key
  }

  /** An entry after the head that is first with its key is also first in the tail. */
  lemma FirstOccurrenceTail(required: seq<Required>, i: int)
    requires FirstOccurrence(required, i) && i >= 1
    ensures required[i].key != required[0].key
    ensures FirstOccurrence(required[1..], i - 1) && required[1..][i - 1] == required[i]
  {
    forall j | 0 <= j < i - 1 ensures required[1..][j].key != required[i].key {
      assert required[1..][j] == required[j + 1];
    }
  }

  /**
   * Inserts every missing required key with its coerced default; rows already
   * present are left as they are (INSERT OR IGNORE).
   */
  function EnsureKeys(store: Store, required: seq<Required>): (r: Store)
    ensures forall k :: k in store ==> k in r && r[k] == store[k]
    ensures forall i :: 0 <= i < |required| ==> required[i].key in r
    ensures forall k :: k in r ==> k in store || IsRequiredKey(required, k)
    ensures forall k :: k in r && k !in store ==> IsValid(r[k].value, r[k].dataType)
    ensures forall i :: FirstOccurrence(required, i) && required[i].key !in store ==>
      r[required[i].key] == Row(Coerce(required[i].default, required[i].dataType), required[i].dataType)
    decreases |required|
  {
    if required == [] then store
    else
      var next := InsertDefault(store, required[0]);
      var r := EnsureKeys(next, required[1..]);
      RequiredTail(required);
      InsertedStep(required, store, next, r);
      r
  }

  /** One `INSERT OR IGNORE` of a required key with its coerced default. */
  function InsertDefault(store: Store, q: Required): (r: Store)
    ensures forall k :: k in store ==> k in r && r[k] == store[k]
    ensures r.Keys == store.Keys + {q.key}
    ensures q.key !in store ==> r[q.key] == Row(Coerce(q.default, q.dataType), q.dataType)
    ensures q.key !in store ==> IsValid(r[q.key].value, r[q.key].dataType)
  {
    if q.key in store then store else store[q.key := Row(Coerce(q.default, q.dataType), q.dataType)]
  }

  /** One step of `EnsureKeys`: the head's row and the tail's inserted rows survive the rest of the loop. */
  lemma InsertedStep(required: seq<Required>, store: Store, next: Store, r: Store)
    requires required != []
    requires next == InsertDefault(store, required[0])
    requires forall k :: k in next ==> k in r && r[k] == next[k]
    requires forall i :: FirstOccurrence(required[1..], i) && required[1..][i].key !in next ==>
      required[1..][i].key in r && r[required[1..][i].key] == Row(Coerce(required[1..][i].default, required[1..][i].dataType), required[1..][i].dataType)
    ensures forall i :: FirstOccurrence(required, i) && required[i].key !in store ==>
      required[i].key in r && r[required[i].key] == Row(Coerce(required[i].default, required[i].dataType), required[i].dataType)
  {
    forall i | FirstOccurrence(required, i) && required[i].key !in store
      ensures required[i].key in r && r[required[i].key] == Row(Coerce(required[i].default, required[i].dataType), required[i].dataType)
    {
      if i >= 1 {
        FirstOccurrenceTail(required, i);
        assert required[i].key !in next;
      }
    }
  }

  /** The required keys of the list are its first key and the required keys of the rest. */
  lemma RequiredTail(required: seq<Required>)
    requires required != []
    ensures IsRequiredKey(required, required[0].key)
    ensures forall k :: IsRequiredKey(required[1..], k) ==> IsRequiredKey(required, k)
    ensures forall i :: 1 <= i < |required| ==> required[i] == required[1..][i - 1]
  {
    forall k | IsRequiredKey(required[1..], k)
      ensures IsRequiredKey(required, k)
    {
      var i :| 0 <= i < |required[1..]| && required[1..][i].key == k;
      assert required[i + 1].key == k;
    }
  }

  /** The tag a row gets when it has none: the required table's tag for the key, else TEXT. */
  function DefaultTypeFor(required: seq<Required>, key: string): (t: string)
    ensures t != []
    ensures t == "TEXT" || exists i :: 0 <= i < |required| && required[i].key == key && required[i].dataType == t
    ensures !IsRequiredKey(required, key) ==> t == "TEXT"
    ensures forall i :: FirstOccurrence(required, i) && required[i].key == key ==>
      t == (if required[i].dataType != [] then required[i].dataType else "TEXT")
  {
    if required == [] then "TEXT"
    else if required[0].key == key && required[0].dataType != [] then required[0].dataType
    else if required[0].key == key then "TEXT"
    else
      var t := DefaultTypeFor(required[1..], key);
      assert t == "TEXT" || exists i :: 0 <= i < |required| && required[i].key == key && required[i].dataType == t by {
        if t != "TEXT" {
          var i :| 0 <= i < |required[1..]| && required[1..][i].key == key && required[1..][i].dataType == t;
          assert required[i + 1] == required[1..][i];
        }
      }
      assert !IsRequiredKey(required, key) ==> !IsRequiredKey(required[1..], key) by {
        RequiredTail(required);
      }
      assert forall i :: FirstOccurrence(required, i) && required[i].key == key ==>
        t == (if required[i].dataType != [] then required[i].dataType else "TEXT")
      by {
        forall i | FirstOccurrence(required, i) && required[i].key == key
          ensures t == (if required[i].dataType != [] then required[i].dataType else "TEXT")
        {
          FirstOccurrenceTail(required, i);
        }
      }
      t
  }

  /** Start-up repair of one row: fill a missing tag, replace an invalid value by its coercion. */
  function RepairRow(required: seq<Required>, key: string, row: Row): (r: Row)
    ensures r.dataType != []
    ensures IsValid(r.value, r.dataType)
    ensures row.dataType != [] ==> r.dataType == row.dataType
    ensures row.dataType == [] ==> r.dataType == DefaultTypeFor(required, key)
    ensures IsValid(row.value, r.dataType) ==> r.value == row.value
    ensures !IsValid(row.value, r.dataType) ==> r.value == Coerce(row.value, r.dataType)
  {
    var dtype := if row.dataType == [] then DefaultTypeFor(required, key) else row.dataType;
    if IsValid(row.value, dtype) then Row(row.value, dtype)
    else Row(Coerce(row.value, dtype), dtype)
  }

  /** The validation pass over every row of the table. */
  function RepairAll(required: seq<Required>, store: Store): (r: Store)
    ensures r.Keys == store.Keys
    ensures forall k :: k in r ==> r[k] == RepairRow(required, k, store[k])
  {
    map k | k in store :: RepairRow(required, k, store[k])
  }

  predicate WellFormed(store: Store) {
    forall k :: k in store ==> store[k].dataType != [] && IsValid(store[k].value, store[k].dataType)
  }

  /** After the validation pass every row has a tag and a value valid for it. */
  lemma RepairAllWellFormed(required: seq<Required>, store: Store)
    ensures WellFormed(RepairAll(required, store))
  {
  }

  /** The validation pass changes nothing in a table it has already repaired. */
  lemma RepairAllIdempotent(required: seq<Required>, store: Store)
    ensures RepairAll(required, RepairAll(required, store)) == RepairAll(required, store)
  {
    var r := RepairAll(required, store);
    assert forall k :: k in r ==> RepairRow(required, k, r[k]) == r[k];
  }

  /**
   * Settings part of `setup_database`: insert the required keys, then validate
   * every row. The bot passes `RequiredSettings` as `required`.
   */
  function Setup(required: seq<Required>, store: Store): (r: Store)
    ensures WellFormed(r)
    ensures forall i :: 0 <= i < |required| ==> required[i].key in r
    ensures forall k :: k in r ==> k in store || IsRequiredKey(required, k)
    ensures forall k :: k in store && store[k].dataType != [] && IsValid(store[k].value, store[k].dataType) ==>
      k in r && r[k] == store[k]
    ensures forall i :: FirstOccurrence(required, i) && required[i].key !in store && required[i].dataType != [] ==>
      r[required[i].key] == Row(Coerce(required[i].default, required[i].dataType), required[i].dataType)
  {
    var e := EnsureKeys(store, required);
    var r := RepairAll(required, e);
    RepairAllWellFormed(required, e);
    assert forall k :: k in store ==> k in e && e[k] == store[k];
    RepairKeepsWellFormed(required, store, e, r);
    assert forall i :: FirstOccurrence(required, i) && required[i].key !in store && required[i].dataType != [] ==>
      r[required[i].key] == Row(Coerce(required[i].default, required[i].dataType), required[i].dataType)
    by {
      forall i | FirstOccurrence(required, i) && required[i].key !in store && required[i].dataType != []
        ensures r[required[i].key] == Row(Coerce(required[i].default, required[i].dataType), required[i].dataType)
      {
        var q := required[i];
        assert e[q.key] == Row(Coerce(q.default, q.dataType), q.dataType);
        assert r[q.key] == RepairRow(required, q.key, e[q.key]);
      }
    }
    r
  }

  lemma RepairKeepsWellFormed(required: seq<Required>, store: Store, e: Store, r: Store)
    requires forall k :: k in store ==> k in e && e[k] == store[k]
    requires r == RepairAll(required, e)
    ensures forall k :: k in store && store[k].dataType != [] && IsValid(store[k].value, store[k].dataType) ==>
      k in r && r[k] == store[k]
  {
    forall k | k in store && store[k].dataType != [] && IsValid(store[k].value, store[k].dataType)
      ensures r[k] == store[k]
    {
      assert r[k] == RepairRow(required, k, e[k]);
    }
  }

  /** On a table that already holds every required key, the inserts change nothing. */
  lemma EnsureKeysPresent(store: Store, required: seq<Required>)
    requires forall i :: 0 <= i < |required| ==> required[i].key in store
    ensures EnsureKeys(store, required) == store
  {
    var e := EnsureKeys(store, required);
    assert forall k :: IsRequiredKey(required, k) ==> k in store;
    assert e.Keys == store.Keys;
  }

  /** Running the start-up setup a second time changes nothing. */
  lemma SetupIdempotent(required: seq<Required>, store: Store)
    ensures Setup(required, Setup(required, store)) == Setup(required, store)
  {
    var r := Setup(required, store);
    EnsureKeysPresent(r, required);
    RepairAllIdempotent(required, EnsureKeys(store, required));
  }

  // ---------------------------------------------------------------------------
  // Typed read and update

  /** A setting as the store returns it. FLOAT rows are returned as their text: float parsing is not modelled. */
  datatype Setting = BoolSetting(b: bool) | IntSetting(i: int) | FloatText(text: string) | TextSetting(s: string)

  datatype StoreError = NotAnInteger(value: string) | UnknownKey(key: string) | UntypedRow(key: string)

  /**
   * Typed read of a key. A missing key yields `default`. The tag is compared
   * exactly (not upper-cased): BOOL reads true iff the text is "True" or "1";
   * INTEGER parses the text and fails as `int()` would.
   */
  function GetSetting(store: Store, key: string, default: Setting): (r: Result<Setting, StoreError>)
    ensures key !in store ==> r == Ok(default)
    ensures key in store && store[key].dataType == "BOOL" ==>
      r == Ok(BoolSetting(store[key].value == "True" || store[key].value == "1"))
    ensures key in store && store[key].dataType == "INTEGER" ==>
      (r.Ok? <==> ParseInt(store[key].value).Some?) &&
      (r.Ok? ==> r.value == IntSetting(ParseInt(store[key].value).value))
    ensures key in store && store[key].dataType !in {"BOOL", "INTEGER", "FLOAT"} ==>
      r == Ok(TextSetting(store[key].value))
  {
    if key !in store then Ok(default)
    else
      var row := store[key];
      if row.dataType == "BOOL" then Ok(BoolSetting(row.value == "True" || row.value == "1"))
      else if row.dataType == "INTEGER" then
        match ParseInt(row.value)
        case Some(n) => Ok(IntSetting(n))
        case None => Err(NotAnInteger(row.value))
      else if row.dataType == "FLOAT" then Ok(FloatText(row.value))
      else Ok(TextSetting(row.value))
  }

  /**
   * Stores the coercion of `value` under the key's stored tag. An unknown key is an
   * error, and so is a row without a tag, whose coercion fails on upper-casing it.
   */
  function UpdateSetting(store: Store, key: string, value: string): (r: Result<Store, StoreError>)
    ensures key !in store <==> r == Err(UnknownKey(key))
    ensures key in store && store[key].dataType == [] <==> r == Err(UntypedRow(key))
    ensures r.Ok? <==> key in store && store[key].dataType != []
    ensures r.Ok? ==> r.value.Keys == store.Keys
    ensures r.Ok? ==> r.value[key] == Row(Coerce(value, store[key].dataType), store[key].dataType)
    ensures r.Ok? ==> forall k :: k in store && k != key ==> r.value[k] == store[k]
  {
    if key !in store then Err(UnknownKey(key))
    else if store[key].dataType == [] then Err(UntypedRow(key))
    else
      var row := store[key];
      Ok(store[key := Row(Coerce(value, row.dataType), row.dataType)])
  }

  /** Reading an INTEGER setting after updating it gives the parsed number, or 0 when it did not parse. */
  lemma ReadAfterUpdateInteger(store: Store, key: string, value: string, default: Setting)
    requires key in store && store[key].dataType == "INTEGER"
    ensures UpdateSetting(store, key, value).Ok?
    ensures GetSetting(UpdateSetting(store, key, value).value, key, default)
      == Ok(IntSetting(ParseInt(value).GetOr(0)))
  {
    assert KindOf("INTEGER") == IntegerKind;
    var coerced := Coerce(value, "INTEGER");
    assert ParseInt(coerced) == Some(ParseInt(value).GetOr(0));
    var updated := UpdateSetting(store, key, value).value;
    assert updated[key] == Row(coerced, "INTEGER");
  }

  /** Reading a BOOL setting after updating it gives true exactly when the coerced text is "1". */
  lemma ReadAfterUpdateBool(store: Store, key: string, value: string, default: Setting)
    requires key in store && store[key].dataType == "BOOL"
    ensures UpdateSetting(store, key, value).Ok?
    ensures GetSetting(UpdateSetting(store, key, value).value, key, default)
      == Ok(BoolSetting(Strip(value) == "1" || (Strip(value) != "0" && IsTruthyWord(Strip(value)))))
  {
  }
}

=== FILE: text.dfy ===
/**
 * Python `str` operations the bot relies on, over `seq<char>`.
 * Character classes are those of Python restricted to ASCII: whitespace is what
 * `str.isspace` accepts below U+0080, digits are `0`-`9`, a word character is an
 * ASCII letter, digit or `_`.
 */
module Text {
  import opened Common
  import opened Sequences

  predicate IsSpace(c: char) {
    c == ' ' || c == '\t' || c == '\n' || c == '\r' || c == '\U{000B}' || c == '\U{000C}'
    || ('\U{001C}' <= c <= '\U{001F}')
  }

  predicate IsDigit(c: char) { '0' <= c <= '9' }

  predicate IsUpper(c: char) { 'A' <= c <= 'Z' }

  predicate IsLetter(c: char) { 'a' <= c <= 'z' || IsUpper(c) }

  predicate IsAlnum(c: char) { IsLetter(c) || IsDigit(c) }

  /** Python's `\w` on ASCII. */
  predicate IsWordChar(c: char) { IsAlnum(c) || c == '_' }

  predicate AllDigits(s: string) { forall i :: 0 <= i < |s| ==> IsDigit(s[i]) }

  /** Python's `str.isdigit` on ASCII: non-empty and every character a digit. */
  predicate IsDigitString(s: string) { |s| > 0 && AllDigits(s) }

  predicate NoSpace(s: string) { forall i :: 0 <= i < |s| ==> !IsSpace(s[i]) }

  predicate NoUpper(s: string) { forall i :: 0 <= i < |s| ==> !IsUpper(s[i]) }

  // ---------------------------------------------------------------------------
  // Case mapping

  function LowerChar(c: char): (r: char)
    ensures !IsUpper(r)
    ensures IsWordChar(r) <==> IsWordChar(c)
    ensures IsSpace(r) <==> IsSpace(c)
    ensures IsDigit(r) <==> IsDigit(c)
    ensures !IsUpper(c) ==> r == c
  {
    if IsUpper(c) then (c as int + 32) as char else c
  }

  function UpperChar(c: char): (r: char)
    ensures !('a' <= r <= 'z')
    ensures IsLetter(r) <==> IsLetter(c)
    ensures !('a' <= c <= 'z') ==> r == c
  {
    if 'a' <= c <= 'z' then (c as int - 32) as char else c
  }

  /** `str.lower()` */
  function Lower(s: string): (r: string)
    ensures |r| == |s| && NoUpper(r)
    ensures NoUpper(s) ==> r == s
  {
    seq(|s|, i requires 0 <= i < |s| => LowerChar(s[i]))
  }

  /** `str.upper()` */
  function Upper(s: string): (r: string)
    ensures |r| == |s|
  {
    seq(|s|, i requires 0 <= i < |s| => UpperChar(s[i]))
  }
  /** Upper-casing text without lower-case letters changes nothing. */
  lemma UpperOfUpper(s: string)
    requires forall i :: 0 <= i < |s| ==> !('a' <= s[i] <= 'z')
    ensures Upper(s) == s
  {
  }


  // ---------------------------------------------------------------------------
  // Prefixes, suffixes, substrings

  predicate StartsWith(s: string, p: string) { |p| <= |s| && s[..|p|] == p }

  predicate EndsWith(s: string, p: string) { |p| <= |s| && s[|s| - |p|..] == p }

  /** A concatenation starts with its first part and ends with its last. */
  lemma AffixesOfConcat(a: string, b: string, c: string)
    ensures StartsWith(a + b + c, a) && EndsWith(a + b + c, c)
  {
    assert (a + b + c)[..|a|] == a;
    assert (a + b + c)[|a + b + c| - |c|..] == c;
  }

  predicate OccursAt(s: string, p: string, i: nat) { i + |p| <= |s| && s[i..i + |p|] == p }

  /** Python's `p in s`. */
  predicate Contains(s: string, p: string) { exists i: nat :: i <= |s| && OccursAt(s, p, i) }

  /** `s.find(p)`, with `None` for Python's `-1`. */
  function Find(s: string, p: string): (r: Option<nat>)
    ensures r.Some? ==> OccursAt(s, p, r.value) && forall j: nat :: j < r.value ==> !OccursAt(s, p, j)
    ensures r.None? ==> !Contains(s, p)
    decreases |s|
  {
    if |s| < |p| then
      assert forall j: nat :: !OccursAt(s, p, j);
      None
    else if s[..|p|] == p then Some(0)
    else
      match Find(s[1..], p)
      case None =>
        assert forall j: nat :: 1 <= j ==> (OccursAt(s, p, j) <==> OccursAt(s[1..], p, j - 1));
        None
      case Some(k) =>
        assert forall j: nat :: 1 <= j ==> (OccursAt(s, p, j) <==> OccursAt(s[1..], p, j - 1));
        Some(k + 1)
  }

  /** `s.rfind(p)`, with `None` for Python's `-1`. */
  function RFind(s: string, p: string): (r: Option<nat>)
    ensures r.Some? ==> OccursAt(s, p, r.value) && forall j: nat :: r.value < j ==> !OccursAt(s, p, j)
    ensures r.None? ==> !Contains(s, p)
    decreases |s|
  {
    if |s| < |p| then
      assert forall j: nat :: !OccursAt(s, p, j);
      None
    else if s[|s| - |p|..] == p then
      assert forall j: nat :: |s| - |p| < j ==> !OccursAt(s, p, j);
      Some(|s| - |p|)
    else
      var t := s[..|s| - 1];
      assert forall j: nat :: j + |p| < |s| ==> (OccursAt(s, p, j) <==> OccursAt(t, p, j));
      RFind(t, p)
  }

  // ---------------------------------------------------------------------------
  // Stripping

  /** Number of leading whitespace characters. */
  function LeadingSpaces(s: string): (n: nat)
    ensures n <= |s|
    ensures forall i :: 0 <= i < n ==> IsSpace(s[i])
    ensures n < |s| ==> !IsSpace(s[n])
  {
    if s != [] && IsSpace(s[0]) then 1 + LeadingSpaces(s[1..]) else 0
  }

  /** Number of trailing whitespace characters. */
  function TrailingSpaces(s: string): (n: nat)
    ensures n <= |s|
    ensures forall i :: |s| - n <= i < |s| ==> IsSpace(s[i])
    ensures n < |s| ==> !IsSpace(s[|s| - 1 - n])
  {
    if s != [] && IsSpace(s[|s| - 1]) then 1 + TrailingSpaces(s[..|s| - 1]) else 0
  }

  /** `str.lstrip()` */
  function LStrip(s: string): string { s[LeadingSpaces(s)..] }

  /** `str.rstrip()` */
  function RStrip(s: string): string { s[..|s| - TrailingSpaces(s)] }

  /** `str.strip()`: the text between the leading and trailing whitespace runs. */
  function Strip(s: string): (r: string)
    ensures r == [] || (!IsSpace(r[0]) && !IsSpace(r[|r| - 1]))
    ensures |r| <= |s|
  {
    RStrip(LStrip(s))
  }

  /** The stripped text is the slice of `s` after its leading whitespace. */
  lemma StripSlice(s: string)
    ensures LeadingSpaces(s) + |Strip(s)| <= |s|
    ensures Strip(s) == s[LeadingSpaces(s)..LeadingSpaces(s) + |Strip(s)|]
  {
  }

  /** A property of every character of `s` holds of every character of its stripped text. */
  lemma StripKeeps(s: string, p: char -> bool)
    requires forall i :: 0 <= i < |s| ==> p(s[i])
    ensures forall i :: 0 <= i < |Strip(s)| ==> p(Strip(s)[i])
  {
    StripSlice(s);
    var a := LeadingSpaces(s);
    forall i | 0 <= i < |Strip(s)| ensures p(Strip(s)[i]) {
      assert Strip(s)[i] == s[a + i];
    }
  }

  /** A non-space character of `s` survives stripping, shifted by the leading whitespace. */
  lemma StripKeepsNonSpace(s: string, i: nat)
    requires i < |s| && !IsSpace(s[i])
    ensures LeadingSpaces(s) <= i < LeadingSpaces(s) + |Strip(s)|
    ensures Strip(s)[i - LeadingSpaces(s)] == s[i]
  {
    StripSlice(s);
    var a := LeadingSpaces(s);
    var t := s[a..];
    assert t[i - a] == s[i];
    var n := TrailingSpaces(t);
    assert i - a < |t| - n;
  }

  /** A property of every character of `s` holds of every character of a suffix of it. */
  lemma SuffixKeeps(s: string, r: string, p: char -> bool)
    requires forall i :: 0 <= i < |s| ==> p(s[i])
    requires |r| <= |s| && r == s[|s| - |r|..]
    ensures forall i :: 0 <= i < |r| ==> p(r[i])
  {
    forall i | 0 <= i < |r| ensures p(r[i]) {
      assert r[i] == s[|s| - |r| + i];
    }
  }

  predicate IsStripped(s: string) { s == [] || (!IsSpace(s[0]) && !IsSpace(s[|s| - 1])) }

  lemma StripStripped(s: string)
    requires IsStripped(s)
    ensures Strip(s) == s
  {
  }

  predicate AllSpace(s: string) { forall i :: 0 <= i < |s| ==> IsSpace(s[i]) }

  lemma {:induction false} LeadingSpacesOfPadded(pre: string, u: string)
    requires AllSpace(pre)
    requires u == [] || !IsSpace(u[0])
    ensures LeadingSpaces(pre + u) == |pre|
    decreases |pre|
  {
    if pre != [] {
      assert (pre + u)[1..] == pre[1..] + u;
      LeadingSpacesOfPadded(pre[1..], u);
    } else {
      assert pre + u == u;
    }
  }

  lemma {:induction false} TrailingSpacesOfPadded(u: string, post: string)
    requires AllSpace(post)
    requires u == [] || !IsSpace(u[|u| - 1])
    ensures TrailingSpaces(u + post) == |post|
    decreases |post|
  {
    if post != [] {
      var w := post[..|post| - 1];
      assert (u + post)[..|u + post| - 1] == u + w;
      TrailingSpacesOfPadded(u, w);
    } else {
      assert u + post == u;
    }
  }

  /** Stripping removes exactly the whitespace padding around a stripped text. */
  lemma StripPadded(pre: string, t: string, post: string)
    requires AllSpace(pre) && AllSpace(post)
    requires t != [] && IsStripped(t)
    ensures Strip(pre + t + post) == t
  {
    assert pre + t + post == pre + (t + post);
    LeadingSpacesOfPadded(pre, t + post);
    assert LStrip(pre + t + post) == t + post;
    TrailingSpacesOfPadded(t, post);
    assert (t + post)[..|t|] == t;
  }

  lemma StripEmptyIffBlank(s: string)
    ensures Strip(s) == [] <==> forall i :: 0 <= i < |s| ==> IsSpace(s[i])
  {
    var a := LeadingSpaces(s);
    if a < |s| {
      assert !IsSpace(s[a]);
      var t := s[a..];
      assert t != [] && !IsSpace(t[0]);
      assert TrailingSpaces(t) < |t|;
    }
  }

  /** Removes the leading run of characters that satisfy `p` (a `^[class]+` substitution). */
  function DropWhile(s: string, p: char -> bool): (r: string)
    ensures |r| <= |s| && r == s[|s| - |r|..]
    ensures r == [] || !p(r[0])
    ensures forall i :: 0 <= i < |s| - |r| ==> p(s[i])
    decreases |s|
  {
    if s != [] && p(s[0]) then DropWhile(s[1..], p) else s
  }

  /** The leading run of characters that satisfy `p`. */
  function TakeWhile(s: string, p: char -> bool): (r: string)
    ensures |r| <= |s| && r == s[..|r|]
    ensures forall i :: 0 <= i < |r| ==> p(r[i])
    ensures |r| < |s| ==> !p(s[|r|])
    decreases |s|
  {
    if s != [] && p(s[0]) then [s[0]] + TakeWhile(s[1..], p) else []
  }

  /** Dropping a leading run stops where the run ends. */
  lemma {:induction false} DropWhileAll(a: string, b: string, p: char -> bool)
    requires forall i :: 0 <= i < |a| ==> p(a[i])
    requires b == [] || !p(b[0])
    ensures DropWhile(a + b, p) == b
    decreases |a|
  {
    if a != [] {
      assert (a + b)[1..] == a[1..] + b;
      DropWhileAll(a[1..], b, p);
    } else {
      assert a + b == b;
    }
  }

  /** Taking a leading run stops where the run ends. */
  lemma {:induction false} TakeWhileAll(a: string, b: string, p: char -> bool)
    requires forall i :: 0 <= i < |a| ==> p(a[i])
    requires b == [] || !p(b[0])
    ensures TakeWhile(a + b, p) == a
    decreases |a|
  {
    if a != [] {
      assert (a + b)[1..] == a[1..] + b;
      TakeWhileAll(a[1..], b, p);
      assert a == [a[0]] + a[1..];
    } else {
      assert a + b == b;
    }
  }

  // ---------------------------------------------------------------------------
  // Splitting on whitespace and joining

  /** Length of the maximal non-whitespace prefix. */
  function TokenEnd(s: string): (n: nat)
    ensures n <= |s|
    ensures forall i :: 0 <= i < n ==> !IsSpace(s[i])
    ensures n < |s| ==> IsSpace(s[n])
  {
    if s == [] || IsSpace(s[0]) then 0 else 1 + TokenEnd(s[1..])
  }

  /** `str.split()` with no separator: the maximal runs of non-whitespace, in order. */
  function Split(s: string): (r: seq<string>)
    ensures forall k :: 0 <= k < |r| ==> r[k] != [] && NoSpace(r[k])
    decreases |s|
  {
    if s == [] then []
    else if IsSpace(s[0]) then Split(s[1..])
    else
      var n := TokenEnd(s);
      [s[..n]] + Split(s[n..])
  }

  /** A property of every character of `s` holds of every character of its words. */
  lemma {:induction false} SplitKeeps(s: string, p: char -> bool)
    requires forall i :: 0 <= i < |s| ==> p(s[i])
    ensures forall k, j :: 0 <= k < |Split(s)| && 0 <= j < |Split(s)[k]| ==> p(Split(s)[k][j])
    decreases |s|
  {
    if s != [] {
      if IsSpace(s[0]) {
        SplitKeeps(s[1..], p);
      } else {
        var n := TokenEnd(s);
        SplitKeeps(s[n..], p);
        var w := s[..n];
        assert forall j :: 0 <= j < |w| ==> p(w[j]);
        assert Split(s) == [w] + Split(s[n..]);
      }
    }
  }

  /** `sep.join(parts)` */
  function Join(parts: seq<string>, sep: string): string
  {
    if |parts| == 0 then ""
    else if |parts| == 1 then parts[0]
    else parts[0] + sep + Join(parts[1..], sep)
  }

  /**
   * A string as `" ".join(s.split())` leaves it: every whitespace character is a
   * single space strictly inside the string and followed by a non-space.
   */
  predicate Normalized(s: string) {
    forall i :: 0 <= i < |s| && IsSpace(s[i]) ==> s[i] == ' ' && 0 < i < |s| - 1 && !IsSpace(s[i + 1])
  }

  /** `" ".join(s.split())` */
  function Collapse(s: string): string { Join(Split(s), " ") }

  lemma {:induction false} SplitEmptyIffBlank(s: string)
    ensures Split(s) == [] <==> forall i :: 0 <= i < |s| ==> IsSpace(s[i])
    decreases |s|
  {
    if s != [] && IsSpace(s[0]) {
      SplitEmptyIffBlank(s[1..]);
      assert forall i :: 1 <= i < |s| ==> s[i] == s[1..][i - 1];
    }
  }

  lemma {:induction false} SplitOfLeadingToken(s: string)
    requires s != [] && !IsSpace(s[0])
    ensures Split(s) != [] && Split(s)[0] == s[..TokenEnd(s)]
  {
  }

  lemma {:induction false} TokenEndOfWord(w: string, t: string)
    requires NoSpace(w)
    requires t == [] || IsSpace(t[0])
    ensures TokenEnd(w + t) == |w|
    decreases |w|
  {
    if w != [] {
      assert (w + t)[1..] == w[1..] + t;
      TokenEndOfWord(w[1..], t);
    }
  }

  /** A word followed by nothing or by whitespace is split off whole. */
  lemma SplitOfWordThen(w: string, t: string)
    requires w != [] && NoSpace(w)
    requires t == [] || IsSpace(t[0])
    ensures Split(w + t) == [w] + Split(t)
  {
    TokenEndOfWord(w, t);
    var s := w + t;
    assert s[..|w|] == w;
    assert s[|w|..] == t;
  }

  lemma SplitSkipsSpace(rest: string)
    ensures Split(" " + rest) == Split(rest)
  {
    assert (" " + rest)[1..] == rest;
  }

  /** Splitting a single-space join of words gives the words back. */
  lemma {:induction false} SplitJoin(ws: seq<string>)
    requires forall k :: 0 <= k < |ws| ==> ws[k] != [] && NoSpace(ws[k])
    ensures Split(Join(ws, " ")) == ws
    decreases |ws|
  {
    if |ws| == 1 {
      SplitOfWordThen(ws[0], "");
      assert ws[0] + "" == ws[0];
    } else if |ws| > 1 {
      var w := ws[0];
      var rest := Join(ws[1..], " ");
      assert Join(ws, " ") == w + (" " + rest) by {
        AppendAssoc(w, " ", rest);
      }
      SplitOfWordThen(w, " " + rest);
      SplitSkipsSpace(rest);
      SplitJoin(ws[1..]);
      assert ws == [w] + ws[1..];
    }
  }

  /** A single-space join of non-empty, space-free words is normalized. */
  lemma {:induction false} JoinNormalized(ws: seq<string>)
    requires forall k :: 0 <= k < |ws| ==> ws[k] != [] && NoSpace(ws[k])
    ensures Normalized(Join(ws, " "))
    ensures |ws| > 0 ==> Join(ws, " ") != [] && !IsSpace(Join(ws, " ")[0])
    decreases |ws|
  {
    if |ws| > 1 {
      var w := ws[0];
      var rest := Join(ws[1..], " ");
      JoinNormalized(ws[1..]);
      var s := w + " " + rest;
      assert Join(ws, " ") == s;
      assert forall i :: 0 <= i < |w| ==> s[i] == w[i];
      assert forall i :: |w| < i < |s| ==> s[i] == rest[i - |w| - 1];
      forall i | 0 <= i < |s| && IsSpace(s[i])
        ensures s[i] == ' ' && 0 < i < |s| - 1 && !IsSpace(s[i + 1])
      {
        if i == |w| {
          assert s[i + 1] == rest[0];
        } else if i > |w| {
          assert IsSpace(rest[i - |w| - 1]);
        }
      }
    }
  }

  /** Leading whitespace does not change the words. */
  lemma {:induction false} SplitDropsLeading(s: string)
    ensures Split(s) == Split(s[LeadingSpaces(s)..])
    decreases |s|
  {
    if s != [] && IsSpace(s[0]) {
      SplitDropsLeading(s[1..]);
      assert s[1..][LeadingSpaces(s[1..])..] == s[LeadingSpaces(s)..];
    }
  }

  /** Trailing whitespace does not change the words. */
  lemma {:induction false} SplitDropsTrailing(u: string, w: string)
    requires forall i :: 0 <= i < |w| ==> IsSpace(w[i])
    ensures Split(u + w) == Split(u)
    decreases |u|
  {
    var s := u + w;
    if u == [] {
      assert s == w;
      SplitEmptyIffBlank(w);
    } else if IsSpace(u[0]) {
      assert s[1..] == u[1..] + w;
      SplitDropsTrailing(u[1..], w);
    } else {
      var n := TokenEnd(u);
      var rest := u[n..] + w;
      assert s == u[..n] + rest;
      TokenEndOfWord(u[..n], rest);
      assert s[..n] == u[..n];
      assert s[n..] == rest;
      SplitDropsTrailing(u[n..], w);
    }
  }

  /** Stripping does not change the words. */
  lemma SplitStrip(s: string)
    ensures Split(Strip(s)) == Split(s)
  {
    SplitDropsLeading(s);
    var t := s[LeadingSpaces(s)..];
    var k := |t| - TrailingSpaces(t);
    assert t == Strip(s) + t[k..];
    SplitDropsTrailing(Strip(s), t[k..]);
  }

  lemma CollapseNormalized(s: string)
    ensures Normalized(Collapse(s))
  {
    JoinNormalized(Split(s));
  }

  /** The text after an inner space of a normalized string is normalized and starts a word. */
  lemma NormalizedAfterSpace(s: string, n: nat)
    requires Normalized(s) && n < |s| && IsSpace(s[n])
    ensures Normalized(s[n + 1..])
    ensures s[n + 1..] != [] && !IsSpace(s[n + 1..][0])
  {
    var t := s[n + 1..];
    forall i | 0 <= i < |t| && IsSpace(t[i])
      ensures t[i] == ' ' && 0 < i < |t| - 1 && !IsSpace(t[i + 1])
    {
      assert t[i] == s[n + 1 + i];
    }
  }

  lemma SplitAfterSpace(s: string, n: nat)
    requires n < |s| && IsSpace(s[n])
    ensures Split(s[n..]) == Split(s[n + 1..])
  {
    assert s[n..][1..] == s[n + 1..];
  }

  /** A word followed by a single space and a collapsed rest collapses to itself. */
  lemma CollapseStep(s: string, n: nat)
    requires s != [] && !IsSpace(s[0]) && n == TokenEnd(s) && n < |s| && s[n] == ' '
    requires s[n + 1..] != [] && !IsSpace(s[n + 1..][0])
    requires Collapse(s[n + 1..]) == s[n + 1..]
    ensures Collapse(s) == s
  {
    var w := s[..n];
    var t := s[n + 1..];
    var ws := Split(t);
    assert ws != [] by {
      SplitEmptyIffBlank(t);
    }
    assert Split(s) == [w] + ws by {
      SplitAfterSpace(s, n);
    }
    assert Collapse(s) == w + " " + Collapse(t) by {
      JoinCons(w, ws, " ");
    }
    assert s == w + " " + t by {
      SliceAround(s, n);
    }
  }

  lemma SliceAround(s: string, n: nat)
    requires n < |s|
    ensures s == s[..n] + [s[n]] + s[n + 1..]
  {
  }

  /** Collapsing whitespace leaves a normalized string unchanged. */
  lemma {:induction false} CollapseOfNormalized(s: string)
    requires Normalized(s)
    requires s == [] || !IsSpace(s[0])
    ensures Collapse(s) == s
    decreases |s|
  {
    if s != [] {
      var n := TokenEnd(s);
      if n == |s| {
        assert s[n..] == [];
        assert Split(s) == [s[..n]];
      } else {
        NormalizedAfterSpace(s, n);
        CollapseOfNormalized(s[n + 1..]);
        CollapseStep(s, n);
      }
    }
  }

  /** Where part `k` starts in `sep.join(parts)`. */
  function JoinOffset(parts: seq<string>, sep: string, k: nat): nat
    requires k <= |parts|
  {
    if k == 0 then 0 else JoinOffset(parts, sep, k - 1) + |parts[k - 1]| + |sep|
  }

  lemma {:induction false} JoinOffsetTail(parts: seq<string>, sep: string, k: nat)
    requires 0 < k <= |parts|
    ensures JoinOffset(parts, sep, k) == |parts[0]| + |sep| + JoinOffset(parts[1..], sep, k - 1)
  {
    if k > 1 {
      JoinOffsetTail(parts, sep, k - 1);
      assert parts[1..][k - 2] == parts[k - 1];
    }
  }

  /**
   * In `sep.join(parts)` part `k` sits at its offset, a separator follows it unless it
   * is the last part, and the last part ends the text.
   */
  lemma {:induction false} JoinOccurs(parts: seq<string>, sep: string, k: nat)
    requires k < |parts|
    ensures OccursAt(Join(parts, sep), parts[k], JoinOffset(parts, sep, k))
    ensures k + 1 < |parts| ==> OccursAt(Join(parts, sep), sep, JoinOffset(parts, sep, k) + |parts[k]|)
    ensures k + 1 == |parts| ==> |Join(parts, sep)| == JoinOffset(parts, sep, k) + |parts[k]|
    decreases k
  {
    if k == 0 {
      JoinFirst(parts, sep);
    } else {
      var head := parts[0] + sep;
      var rest := Join(parts[1..], sep);
      assert Join(parts, sep) == head + rest;
      JoinOccurs(parts[1..], sep, k - 1);
      JoinOffsetTail(parts, sep, k);
      assert parts[1..][k - 1] == parts[k];
      var o := JoinOffset(parts[1..], sep, k - 1);
      OccursAfter(head, rest, parts[k], o);
      OccursAfter(head, rest, sep, o + |parts[k]|);
    }
  }

  /** The first part opens `sep.join(parts)`, followed by a separator or the end. */
  lemma JoinFirst(parts: seq<string>, sep: string)
    requires parts != []
    ensures OccursAt(Join(parts, sep), parts[0], 0)
    ensures |parts| > 1 ==> OccursAt(Join(parts, sep), sep, |parts[0]|)
    ensures |parts| == 1 ==> |Join(parts, sep)| == |parts[0]|
  {
    if |parts| > 1 {
      var j := Join(parts, sep);
      assert j == parts[0] + sep + Join(parts[1..], sep);
      assert j[..|parts[0]|] == parts[0];
      assert j[|parts[0]|..|parts[0]| + |sep|] == sep;
    }
  }

  /**
   * Between a head ending in the one-character separator `sep` and a tail starting
   * with it, each part of `sep.join(parts)` sits at its offset with `sep` on either side.
   */
  lemma JoinLine(head: string, parts: seq<string>, sep: string, tail: string, k: nat)
    requires |sep| == 1
    requires head != [] && head[|head| - 1] == sep[0]
    requires tail != [] && tail[0] == sep[0]
    requires k < |parts|
    ensures var t := head + Join(parts, sep) + tail; var at := |head| + JoinOffset(parts, sep, k);
      OccursAt(t, parts[k], at) && 0 < at && t[at - 1] == sep[0] && at + |parts[k]| < |t| && t[at + |parts[k]|] == sep[0]
  {
    var body := Join(parts, sep);
    var t := head + body + tail;
    var o := JoinOffset(parts, sep, k);
    JoinOccurs(parts, sep, k);
    assert t == head + (body + tail);
    OccursInside(body, tail, parts[k], o);
    OccursAfter(head, body + tail, parts[k], o);
    JoinLineBefore(head, parts, sep, tail, k);
    JoinLineAfter(head, parts, sep, tail, k);
  }

  lemma JoinLineBefore(head: string, parts: seq<string>, sep: string, tail: string, k: nat)
    requires |sep| == 1
    requires head != [] && head[|head| - 1] == sep[0]
    requires k < |parts|
    ensures |head| + JoinOffset(parts, sep, k) <= |head + Join(parts, sep) + tail|
    ensures (head + Join(parts, sep) + tail)[|head| + JoinOffset(parts, sep, k) - 1] == sep[0]
  {
    var body := Join(parts, sep);
    var t := head + body + tail;
    JoinOccurs(parts, sep, k);
    if k > 0 {
      JoinOccurs(parts, sep, k - 1);
      var e := JoinOffset(parts, sep, k - 1) + |parts[k - 1]|;
      assert body[e..e + 1] == sep;
      assert t[|head| + e] == body[e];
    }
  }

  lemma JoinLineAfter(head: string, parts: seq<string>, sep: string, tail: string, k: nat)
    requires |sep| == 1
    requires tail != [] && tail[0] == sep[0]
    requires k < |parts|
    ensures |head| + JoinOffset(parts, sep, k) + |parts[k]| < |head + Join(parts, sep) + tail|
    ensures (head + Join(parts, sep) + tail)[|head| + JoinOffset(parts, sep, k) + |parts[k]|] == sep[0]
  {
    var body := Join(parts, sep);
    var t := head + body + tail;
    var e := JoinOffset(parts, sep, k) + |parts[k]|;
    JoinOccurs(parts, sep, k);
    if k + 1 < |parts| {
      assert body[e..e + 1] == sep;
      assert t[|head| + e] == body[e];
    } else {
      assert t[|head| + e] == tail[0];
    }
  }

  /** `line` is a whole line of `t` starting at `at`: a line break on either side of it. */
  predicate LineAt(t: string, line: string, at: nat) {
    OccursAt(t, line, at) && 0 < at && t[at - 1] == '\n' && at + |line| < |t| && t[at + |line|] == '\n'
  }

  /** Between a head ending a line and a tail starting one, every part of a newline join is a line. */
  lemma FramedLines(head: string, parts: seq<string>, tail: string)
    requires head != [] && head[|head| - 1] == '\n'
    requires tail != [] && tail[0] == '\n'
    ensures forall k :: 0 <= k < |parts| ==>
      LineAt(head + Join(parts, "\n") + tail, parts[k], |head| + JoinOffset(parts, "\n", k))
  {
    forall k | 0 <= k < |parts|
      ensures LineAt(head + Join(parts, "\n") + tail, parts[k], |head| + JoinOffset(parts, "\n", k))
    {
      JoinLine(head, parts, "\n", tail, k);
    }
  }

  /** An occurrence inside `a` is one inside `a + b`. */
  lemma OccursInside(a: string, b: string, p: string, i: nat)
    requires OccursAt(a, p, i)
    ensures OccursAt(a + b, p, i)
  {
    assert (a + b)[i..i + |p|] == a[i..i + |p|];
  }

  /** A pattern occurs in `b` at `i` exactly when it occurs in `a + b` at `|a| + i`. */
  lemma OccursAfter(a: string, b: string, p: string, i: nat)
    ensures OccursAt(a + b, p, |a| + i) <==> OccursAt(b, p, i)
  {
    if i + |p| <= |b| {
      assert (a + b)[|a| + i..|a| + i + |p|] == b[i..i + |p|];
    }
  }

  lemma JoinCons(w: string, ws: seq<string>, sep: string)
    requires ws != []
    ensures Join([w] + ws, sep) == w + sep + Join(ws, sep)
  {
    assert ([w] + ws)[1..] == ws;
  }

  // ---------------------------------------------------------------------------
  // Replacement

  /** `s.replace(pat, rep)`: every non-overlapping occurrence, scanning left to right. */
  function ReplaceAll(s: string, pat: string, rep: string): string
    requires pat != []
    decreases |s|
  {
    if |s| < |pat| then s
    else if s[..|pat|] == pat then rep + ReplaceAll(s[|pat|..], pat, rep)
    else [s[0]] + ReplaceAll(s[1..], pat, rep)
  }

  lemma OccursShift(s: string, p: string, i: nat)
    requires s != []
    ensures OccursAt(s[1..], p, i) <==> OccursAt(s, p, i + 1)
  {
    if i + 1 + |p| <= |s| {
      assert s[1..][i..i + |p|] == s[i + 1..i + 1 + |p|];
    }
  }

  /** Text free of the pattern is left unchanged. */
  lemma {:induction false} ReplaceAbsent(s: string, pat: string, rep: string)
    requires pat != [] && !Contains(s, pat)
    ensures ReplaceAll(s, pat, rep) == s
    decreases |s|
  {
    if |s| >= |pat| {
      assert !OccursAt(s, pat, 0);
      forall i: nat | i <= |s[1..]|
        ensures !OccursAt(s[1..], pat, i)
      {
        OccursShift(s, pat, i);
      }
      ReplaceAbsent(s[1..], pat, rep);
    }
  }

  lemma ReplaceAtHead(pat: string, post: string, rep: string)
    requires pat != [] && !Contains(post, pat)
    ensures ReplaceAll(pat + post, pat, rep) == rep + post
  {
    var s := pat + post;
    assert s[..|pat|] == pat;
    assert s[|pat|..] == post;
    ReplaceAbsent(post, pat, rep);
  }

  /** Text not starting with the pattern keeps its first character. */
  lemma ReplaceStepNoMatch(s: string, pat: string, rep: string)
    requires pat != [] && |s| >= |pat| && !OccursAt(s, pat, 0)
    ensures ReplaceAll(s, pat, rep) == [s[0]] + ReplaceAll(s[1..], pat, rep)
  {
    assert s[..|pat|] != pat;
  }

  /** Dropping the first character of a pattern-free prefix keeps it pattern-free. */
  lemma ShiftFree(pre: string, pat: string, post: string)
    requires pre != []
    requires forall i: nat :: i < |pre| ==> !OccursAt(pre + pat + post, pat, i)
    ensures (pre + pat + post)[1..] == pre[1..] + pat + post
    ensures forall i: nat :: i < |pre[1..]| ==> !OccursAt(pre[1..] + pat + post, pat, i)
  {
    var s := pre + pat + post;
    assert s[1..] == pre[1..] + pat + post;
    forall i: nat | i < |pre[1..]|
      ensures !OccursAt(pre[1..] + pat + post, pat, i)
    {
      OccursShift(s, pat, i);
    }
  }

  /** Replacing a placeholder that occurs exactly once, between text free of it, splices in the replacement. */
  lemma {:induction false} ReplaceSingle(pre: string, pat: string, post: string, rep: string)
    requires pat != []
    requires forall i: nat :: i < |pre| ==> !OccursAt(pre + pat + post, pat, i)
    requires !Contains(post, pat)
    ensures ReplaceAll(pre + pat + post, pat, rep) == pre + rep + post
    decreases |pre|
  {
    if pre == [] {
      assert pre + pat + post == pat + post;
      ReplaceAtHead(pat, post, rep);
    } else {
      var s := pre + pat + post;
      ShiftFree(pre, pat, post);
      assert ReplaceAll(s[1..], pat, rep) == pre[1..] + rep + post by {
        ReplaceSingle(pre[1..], pat, post, rep);
      }
      ReplaceStepNoMatch(s, pat, rep);
      assert [pre[0]] + (pre[1..] + rep + post) == pre + rep + post;
    }
  }
}
